=== FILE: README.md ===
# EyeTunes audio-captioning pipeline — Dafny model

EyeTunes streams speech from an ESP32 board to an iPhone, transcribes it there and shows
it as live captions on a pair of smart glasses. This project models the core of that
pipeline:

- **ESP32 firmware.**
  - The ES8388 codec driver (`Es8388`): volume, init, I2S format, start and voice volume, seen
    as the sequence of register writes it puts on the I2C bus.
  - The `audio_udp_task` loop (`AudioSender`): stereo-to-mono downmix, padding, the
    amplitude report and the 328-byte `audio_packet_t` (an 8-byte little-endian microsecond
    timestamp followed by 160 int16 samples).
- **The two iPhone receivers** (`WifiReceiver`, `UdpReceiver`). Each splits a datagram into
  timestamp and audio (`Packets`), builds an int16 PCM buffer from it (`PcmDecoder`) and hands
  it to a speech recognizer.
- **The two speech recognizers** (`EspWifiSpeech`, `EyeTunesSpeech`). Each one:
  - feeds the recognition request;
  - keeps a ring of recent packet timestamps;
  - maps a transcribed word back to the packet it came from (`Correlator`) to measure
    end-to-end latency;
  - accumulates text across the engine's automatic restarts (`SessionText`, `TextWords`);
  - produces a final report.
- **The two caption view controllers** (`EyeTunesDisplay`, `VuzixDisplay`). They wrap the
  transcript into 35-character lines (`CaptionWrap`), show the last two lines on two canvas
  text blocks and keep display-latency statistics (`CaptionLatency`).
- **The Bluetooth scanner** (`BluetoothScan`). It keeps a de-duplicated list of peripherals
  whose names contain "ESP", case-insensitively.

Objects whose fields the source updates in place are classes with `modifies` clauses:
- `AudioTask`;
- `Codec`;
- the receivers;
- the recognizers;
- the view controllers;
- `BluetoothManager`.

Framework callbacks are methods that take their inputs as parameters. These include the
recognition result, a received datagram, a listener state, a timer firing and a Bluetooth
event. Clock readings are parameters too. Pure computations are functions, and the lemmas
about them are proved beside them.

Times are `real` seconds and int16/UInt64 values are bounded integer subset types. Where the
source relies on C truncating division, a `(uint8_t)` cast or a bit mask, the model writes
that out and proves it agrees with the arithmetic meaning. Examples are `TruncHalf`,
`ShiftLeftByte` and `Unmute`.

Both recognizers map a word's start time `t` to ring slot `Int(t / 0.064)`. The ESP32 sends
one packet every 160 / 16000 = 0.01 s, so that slot is not the word's packet. The model keeps
0.064 as written, and `Correlator.DurationMismatchMisattributes` shows a word at 0.07 s being
attributed to slot 1 where its packet is slot 7.

## Model

| member | source | states |
|---|---|---|
| AudioSender.TruncHalf | ESP-IDF/main.c:218 | C's `/ 2` on a signed sum truncates toward zero: the quotient is within one of half the sum, on the zero side |
| AudioSender.Downmix | ESP-IDF/main.c:217-219 | the mono sample always lies between the left and right samples, so the `int16_t` cast never overflows |
| AudioSender.Payload | ESP-IDF/main.c:214-229 | the payload has 160 samples: sample i is the downmix of frame i for every frame read, and silence after |
| AudioSender.EncodePacket | ESP-IDF/main.c:67-70 | the packed packet is 8 header bytes plus two bytes per sample |
| AudioSender.MaxAmplitude | ESP-IDF/main.c:232-242 | the result is the largest sample magnitude: at least every magnitude, reached by some sample, in [0, 32768], and 0 for an empty payload |
| AudioSender.FillPayload | ESP-IDF/main.c:214-229 | after the downmix loop and the zero fill, the array holds exactly `Payload` |
| AudioSender.AudioTask.constructor | ESP-IDF/main.c:180-192 | a fresh 160-sample packet buffer and a packet counter of 0 |
| AudioSender.AudioTask.Step | ESP-IDF/main.c:194-263 | a failed or empty read sends nothing and changes nothing; otherwise the payload is the downmix of `bytesRead/4` frames, the timestamp is the clock, the 328-byte datagram is the encoded packet, the counter advances only when the send succeeds, and an amplitude report (the largest sample magnitude, in [0, 32768]) appears exactly on every 50th iteration |
| AudioSender.SentPacketRoundTrip | ESP-IDF/main.c:67-70 | both iPhone receivers split a sent packet back into its timestamp and payload, and the PCM buffer they build holds exactly the 160 samples sent |
| ByteBits.BitOfAnd | ESP-IDF/codec_es8388.c:115 | bit i of `a & b` is set iff both operands' bits i are, within the byte |
| ByteBits.BitOfOr | ESP-IDF/codec_es8388.c:115 | bit i of `a \| b` is set iff either operand's bit i is, within the byte |
| ByteBits.BitOfShiftLeft | ESP-IDF/codec_es8388.c:128 | bit i of `(uint8_t)(x << k)` is bit i-k of x for k ≤ i < 8 and clear otherwise |
| Bytes.LeValueOfLeBytes | ESPWifi/ESPWifi/WifiAudioReceiver.swift:141-142 | encoding a value in n little-endian bytes and reading it back gives the value |
| Bytes.LeBytesOfLeValue | ESPWifi/ESPWifi/WifiAudioReceiver.swift:141-142 | reading n bytes as a little-endian value and encoding it back gives the bytes |
| Bytes.LoadU64 | ESPWifi/ESPWifi/WifiAudioReceiver.swift:141-142 | the UInt64 loaded from the first eight bytes re-encodes to those eight bytes |
| Bytes.LoadU64OfLeBytes | EyeTunesFullConnection/EyeTunesFullConnection/UPDAudioReceiver.swift:113-117 | loading the eight bytes of an encoded timestamp gives the timestamp back |
| PcmDecoder.Int16FromBytes | ESPWifi/ESPWifi/PCMDecoder.swift:35-37 | the sample has the two bytes' 16-bit pattern (lo + 256·hi modulo 65536) and is negative exactly when the high byte's top bit is set |
| PcmDecoder.Int16ToBytes | ESPWifi/ESPWifi/PCMDecoder.swift:35-37 | a sample's two little-endian bytes carry its 16-bit two's-complement pattern (lo + 256·hi = s modulo 65536) |
| PcmDecoder.Int16RoundTrip | ESPWifi/ESPWifi/PCMDecoder.swift:35-37 | decoding a sample's two bytes gives the sample |
| PcmDecoder.BytesRoundTrip | ESPWifi/ESPWifi/PCMDecoder.swift:35-37 | encoding the decoded sample gives the two bytes back |
| PcmDecoder.Normalize | ESPWifi/ESPWifi/PCMDecoder.swift:38 | the float sample lies in [-1, 1) and times 32768 is the int16 sample, so no information is lost |
| PcmDecoder.DecodeSamples | ESPWifi/ESPWifi/PCMDecoder.swift:15-37 | `count/2` samples, sample i being bytes 2i and 2i+1; an odd trailing byte is dropped |
| PcmDecoder.EncodeSamples | ESPWifi/ESPWifi/PCMDecoder.swift:35-37 | two bytes per sample |
| PcmDecoder.EncodeSamplesAt | ESPWifi/ESPWifi/PCMDecoder.swift:35-37 | bytes 2i and 2i+1 of the encoding are sample i's bytes |
| PcmDecoder.DecodeEncodeSamples | ESPWifi/ESPWifi/PCMDecoder.swift:15-37 | decoding encoded samples gives the samples back |
| PcmDecoder.Int16ToPcmBuffer | ESPWifi/ESPWifi/PCMDecoder.swift:11-43 | no buffer for fewer than two bytes; otherwise `count/2` frames, frame i being the normalized sample i |
| Packets.Split | EyeTunesFullConnection/EyeTunesFullConnection/UPDAudioReceiver.swift:113-117 | the timestamp is the little-endian value of the first eight bytes and the audio is the rest |
| Packets.SplitWifi | ESPWifi/ESPWifi/WifiAudioReceiver.swift:133-161 | a datagram is rejected exactly when it is shorter than the 8-byte header (an empty audio part is accepted) |
| Packets.SplitUdp | EyeTunesFullConnection/EyeTunesFullConnection/UPDAudioReceiver.swift:110-117 | a datagram is rejected exactly when it is no longer than the header, so accepted audio is never empty |
| Packets.SplitVariantsDiffer | EyeTunesFullConnection/EyeTunesFullConnection/UPDAudioReceiver.swift:112 | the two receivers' guards agree on every datagram except one of exactly 8 bytes, which only the Wi-Fi receiver accepts |
| Packets.SplitOfEncoded | ESPWifi/ESPWifi/WifiAudioReceiver.swift:141-161 | splitting an encoded header and audio gives both back |
| Packets.ToPcmBuffer | EyeTunesFullConnection/EyeTunesFullConnection/UPDAudioReceiver.swift:133-148 | the int16 buffer's frame length is `count/2` and each sample re-encodes to its two audio bytes |
| WifiReceiver.MinKey | ESPWifi/ESPWifi/WifiAudioReceiver.swift:149 | the key returned is in the set and no larger than any key of it |
| WifiReceiver.SortedKeys | ESPWifi/ESPWifi/WifiAudioReceiver.swift:149 | the keys strictly increasing, exactly the map's keys |
| WifiReceiver.EvictOldest | ESPWifi/ESPWifi/WifiAudioReceiver.swift:148-153 | the pruned map keeps exactly 1000 entries, all from the original with their values, and every evicted timestamp is older than every kept one |
| WifiReceiver.EvictedPrefix | ESPWifi/ESPWifi/WifiAudioReceiver.swift:149-152 | removing the first n sorted keys removes only timestamps older than all those kept |
| WifiReceiver.WiFiAudioReceiver.constructor | ESPWifi/ESPWifi/WifiAudioReceiver.swift:9-17 | not receiving, no listener, no recognizer, no receipt times |
| WifiReceiver.WiFiAudioReceiver.StartReceiving | ESPWifi/ESPWifi/WifiAudioReceiver.swift:20-24 | the recognizer is attached; the receiver becomes active exactly when the listener could be created |
| WifiReceiver.WiFiAudioReceiver.StopReceiving | ESPWifi/ESPWifi/WifiAudioReceiver.swift:27-36 | the listener is gone and the receiver inactive; the recognizer and receipt times are kept |
| WifiReceiver.WiFiAudioReceiver.RecordReceipt | ESPWifi/ESPWifi/WifiAudioReceiver.swift:145-153 | the table never exceeds 1000 entries; when the insert leaves at most 1000 it is exactly the old table with the new receipt, otherwise exactly 1000 entries remain, and only the smallest timestamps are evicted; a kept timestamp maps to the new receipt time |
| WifiReceiver.WiFiAudioReceiver.ProcessPacket | ESPWifi/ESPWifi/WifiAudioReceiver.swift:133-173 | a short datagram changes neither the receipt table nor any recognizer field; otherwise the receipt is recorded as in `RecordReceipt`, the recognizer's texts, task and latencies stay as they were, a recognizer with no request is left unchanged, and one with a request gets the packet's PCM buffer appended, the buffer's timestamp, receipt and append times pushed into its 80-entry ring, and its frame and buffer totals advanced; all of this is `PacketProcessed` |
| WifiReceiver.WiFiAudioReceiver.OnReceive | ESPWifi/ESPWifi/WifiAudioReceiver.swift:109-127 | non-empty data has exactly the effect `PacketProcessed` states for `ProcessPacket`; empty data leaves the receipt table, the flags and the recognizer unchanged; the next receive is armed exactly when there was no error |
| UdpReceiver.UDPAudioReceiver.constructor | EyeTunesFullConnection/EyeTunesFullConnection/UPDAudioReceiver.swift:17-22 | not receiving, no listener, no recognizer |
| UdpReceiver.UDPAudioReceiver.StartListening | EyeTunesFullConnection/EyeTunesFullConnection/UPDAudioReceiver.swift:35-71 | the recognizer is attached and a listener exists when one could be created; receiving waits for the ready state |
| UdpReceiver.UDPAudioReceiver.OnListenerState | EyeTunesFullConnection/EyeTunesFullConnection/UPDAudioReceiver.swift:49-63 | ready starts receiving, failed or cancelled stops it, any other state leaves it |
| UdpReceiver.UDPAudioReceiver.StopListening | EyeTunesFullConnection/EyeTunesFullConnection/UPDAudioReceiver.swift:74-78 | the listener is gone and the receiver inactive |
| UdpReceiver.UDPAudioReceiver.ProcessPacket | EyeTunesFullConnection/EyeTunesFullConnection/UPDAudioReceiver.swift:110-130 | a datagram of at most 8 bytes leaves the recognizer unchanged; otherwise the recognizer's texts, task and latencies stay as they were, the header timestamp and receipt time are pushed into its ring, and an open request gets exactly one more buffer of `(count-8)/2` frames |
| UdpReceiver.UDPAudioReceiver.ReceiveNextMessage | EyeTunesFullConnection/EyeTunesFullConnection/UPDAudioReceiver.swift:89-107 | non-empty data has exactly the effect `PacketProcessed` states for `ProcessPacket`; empty data leaves the recognizer unchanged; the next receive is armed exactly when there was no error |
| Correlator.TruncToInt | ESPWifi/ESPWifi/SpeechRecognizer.swift:152 | Swift's `Int(x)` truncates toward zero: the result is within one of x on the zero side |
| Correlator.IndexWindow | ESPWifi/ESPWifi/SpeechRecognizer.swift:152 | a non-negative time lies in the window [i·d, (i+1)·d) of the slot i it maps to |
| Correlator.IndexNonNegative | ESPWifi/ESPWifi/SpeechRecognizer.swift:153 | the slot is non-negative exactly when t > -d |
| Correlator.IndexBelow | ESPWifi/ESPWifi/SpeechRecognizer.swift:153 | the slot is below n exactly when t < n·d |
| Correlator.Lookup | ESPWifi/ESPWifi/SpeechRecognizer.swift:150-160 | a stamp is found exactly when the ring is non-empty and -d < t < n·d; it is the ring entry of t's window, so always one that was recorded |
| Correlator.LookupBoundary | ESPWifi/ESPWifi/SpeechRecognizer.swift:153 | a time just under n·d finds the newest entry and n·d itself finds none |
| Correlator.DurationMismatchMisattributes | ESPWifi/ESPWifi/SpeechRecognizer.swift:152 | with 0.064 s per slot a word at 0.07 s reads slot 1, while the packet sent at that time is slot 7 at the sender's 0.01 s per packet |
| Correlator.Push | ESPWifi/ESPWifi/SpeechRecognizer.swift:138-142 | the ring stays within its capacity, ends with the new entry and is the newest entries of the old ring plus the new one |
| Correlator.PushAllKeepsSuffix | ESPWifi/ESPWifi/SpeechRecognizer.swift:138-142 | after any sequence of appends the ring is exactly the last `cap` entries ever appended |
| Correlator.RecordIfPlausible | ESPWifi/ESPWifi/SpeechRecognizer.swift:89-90 | a latency is kept exactly when 0 < l < 10, so every kept latency is plausible |
| Correlator.Min | ESPWifi/ESPWifi/SpeechRecognizer.swift:183 | the minimum is one of the values and at most every value |
| Correlator.Max | ESPWifi/ESPWifi/SpeechRecognizer.swift:184 | the maximum is one of the values and at least every value |
| Correlator.Summarize | ESPWifi/ESPWifi/SpeechRecognizer.swift:181-189 | statistics exist exactly for a non-empty list, with the list's count |
| Correlator.MeanBetweenMinAndMax | ESPWifi/ESPWifi/SpeechRecognizer.swift:182-184 | min ≤ mean ≤ max |
| Correlator.SummaryPlausible | ESPWifi/ESPWifi/SpeechRecognizer.swift:181-189 | when all latencies are plausible, min, mean and max lie in (0, 10) |
| Correlator.Variance | VuzixConnection/VuzixConnection/ViewController.swift:304-308 | the population variance, 0 for an empty list |
| Correlator.VarianceBounds | VuzixConnection/VuzixConnection/ViewController.swift:304-308 | the variance is never negative and is 0 when every value equals the mean |
| CaptionLatency.Report | EyeTunesFullConnection/EyeTunesFullConnection/ViewController.swift:285-306 | a report exists exactly for a non-empty list: count, min ≤ mean ≤ max and a non-negative variance that is 0 for constant measurements |
| Seqs.Suffix | EyeTunesFullConnection/EyeTunesFullConnection/ViewController.swift:267 | the last min(n, count) elements, a suffix of the sequence |
| TextWords.Split | EyeTunesFullConnection/EyeTunesFullConnection/ViewController.swift:314 | `split(separator: " ")`: every word is non-empty and contains no space |
| TextWords.ConcatSplit | EyeTunesFullConnection/EyeTunesFullConnection/ViewController.swift:314 | the words, concatenated, are the text with its spaces removed, so no character is lost |
| TextWords.SplitBlank | EyeTunesFullConnection/EyeTunesFullConnection/ViewController.swift:314 | a text has no words exactly when it is all spaces |
| TextWords.SplitJoin | EyeTunesFullConnection/EyeTunesFullConnection/SpeechRecognizer.swift:119 | the words of `a + " " + b` are the words of a followed by those of b |
| SessionText.Published | EyeTunesFullConnection/EyeTunesFullConnection/SpeechRecognizer.swift:101-103 | the published transcript is never empty and gives back both the accumulated and the live part |
| SessionText.Fold | EyeTunesFullConnection/EyeTunesFullConnection/SpeechRecognizer.swift:118-121 | a non-empty live part is appended after a space and an empty one changes nothing |
| SessionText.FoldExtends | ESPWifi/ESPWifi/SpeechRecognizer.swift:111-114 | folding only extends the accumulated text, which becomes empty only when both parts were |
| SessionText.FoldWords | ESPWifi/ESPWifi/SpeechRecognizer.swift:111-114 | the folded text has the accumulated words followed by the live words |
| SessionText.PublishedWords | ESPWifi/ESPWifi/SpeechRecognizer.swift:108-126 | a restart does not change the words of the published transcript |
| CaptionWrap.WrapTextIntoLines | EyeTunesFullConnection/EyeTunesFullConnection/ViewController.swift:310-349 | the loop computes exactly `Wrap(text, max)` |
| CaptionWrap.ChunksExact | EyeTunesFullConnection/EyeTunesFullConnection/ViewController.swift:329-336 | an overlong word is cut into pieces of exactly max characters, a remainder of 1 to max, and the pieces spell the word |
| CaptionWrap.WrapLinesBounded | EyeTunesFullConnection/EyeTunesFullConnection/ViewController.swift:310-349 | every wrapped line is non-empty and at most max characters |
| CaptionWrap.WrapPreservesText | EyeTunesFullConnection/EyeTunesFullConnection/ViewController.swift:314-346 | wrapping neither loses, adds nor reorders a character other than a space: the lines, spaces removed, spell the text with its spaces removed |
| CaptionWrap.WrapBlank | EyeTunesFullConnection/EyeTunesFullConnection/ViewController.swift:314-346 | a text gives no lines exactly when it is all spaces |
| CaptionWrap.VisibleLines | EyeTunesFullConnection/EyeTunesFullConnection/ViewController.swift:267 | at most two lines, the last ones of the caption |
| CaptionWrap.WrappedBlocksFit | EyeTunesFullConnection/EyeTunesFullConnection/ViewController.swift:264-273 | every text block shows at most 35 characters |
| CaptionWrap.LayoutCaption | EyeTunesFullConnection/EyeTunesFullConnection/ViewController.swift:264-273 | the lines are the transcript's wrap at 35 characters, each block shows its visible line or is blank, and every block's text fits 35 characters |
| CaptionWrap.FillTextBlocks | EyeTunesFullConnection/EyeTunesFullConnection/ViewController.swift:270-273 | after the loop each block shows its visible line or a blank |
| CaptionWrap.CreatedIds | EyeTunesFullConnection/EyeTunesFullConnection/ViewController.swift:164-179 | an id is kept exactly when a block with that id was created, and no more ids than blocks requested |
| CaptionWrap.CreateTextBlocks | EyeTunesFullConnection/EyeTunesFullConnection/ViewController.swift:153-180 | the loop keeps exactly the ids of the blocks created |
| EyeTunesDisplay.ViewController.constructor | EyeTunesFullConnection/EyeTunesFullConnection/ViewController.swift:13-29 | inactive, no timer, no recognizer, no blocks, empty caption and latencies |
| EyeTunesDisplay.ViewController.StartLiveTranscription | EyeTunesFullConnection/EyeTunesFullConnection/ViewController.swift:68-116 | ignored while active; fails without a device or control; otherwise the session is active with the created blocks, blank |
| EyeTunesDisplay.ViewController.StartSpeechAndUdp | EyeTunesFullConnection/EyeTunesFullConnection/ViewController.swift:118-151 | a fresh recognizer; when still active it transcribes, the UDP receiver listens into it (its receiving flag untouched) and the timer runs; when no longer active the UDP receiver and the timer are left as they were |
| EyeTunesDisplay.ViewController.Tick | EyeTunesFullConnection/EyeTunesFullConnection/ViewController.swift:139-147 | without an active session and a recognizer the timer stops and nothing else changes (caption, lines, blocks, latency history); with them the display is updated exactly as `UpdateCaptionDisplay` states, for the recognizer's current transcript, and the timer keeps running; the text block ids never change and the caption never shrinks |
| EyeTunesDisplay.ViewController.UpdateCaptionDisplay | EyeTunesFullConnection/EyeTunesFullConnection/ViewController.swift:248-282 | the display changes only for a device, an active session and a longer non-empty transcript; then the blocks show its last two wrapped lines and the display latency is recorded; the caption never shrinks |
| EyeTunesDisplay.ViewController.ShowCaption | EyeTunesFullConnection/EyeTunesFullConnection/ViewController.swift:260-273 | the caption is the transcript, its lines are its wrap and the blocks show the last of them |
| EyeTunesDisplay.ViewController.RecordLatency | EyeTunesFullConnection/EyeTunesFullConnection/ViewController.swift:285-300 | the window keeps the newest 100 measurements and the report is computed over the old window plus the new measurement |
| EyeTunesDisplay.ViewController.StopLiveTranscription | EyeTunesFullConnection/EyeTunesFullConnection/ViewController.swift:211-245 | when inactive nothing changes, neither the controller nor its UDP receiver nor its recognizer; otherwise stops the timer and the receiver, stops the recognizer (user stop, request and task ended) and drops it, and clears caption and blocks, keeping the latencies |
| VuzixDisplay.ViewController.constructor | VuzixConnection/VuzixConnection/ViewController.swift:13-28 | inactive, no timer, no recognizer, no blocks, empty caption and latencies |
| VuzixDisplay.ViewController.StartLiveTranscription | VuzixConnection/VuzixConnection/ViewController.swift:67-114 | ignored while active; fails without a device or control; otherwise the session is active with the created blocks, blank |
| VuzixDisplay.ViewController.StartSpeechRecognition | VuzixConnection/VuzixConnection/ViewController.swift:145-187 | nothing when inactive; a recognizer that could be created starts, with the timer |
| VuzixDisplay.ViewController.Tick | VuzixConnection/VuzixConnection/ViewController.swift:167-176 | without an active session and a recognizer the timer stops and nothing else changes (caption, lines, blocks, latency history); with them the display is updated exactly as `UpdateCaptionDisplay` states, for the transcript passed in, and the timer keeps running; the text block ids never change and the caption never shrinks |
| VuzixDisplay.ViewController.UpdateCaptionDisplay | VuzixConnection/VuzixConnection/ViewController.swift:250-284 | as in the EyeTunes controller: updates only on a longer transcript, showing its last two wrapped lines |
| VuzixDisplay.ViewController.ShowCaption | VuzixConnection/VuzixConnection/ViewController.swift:262-275 | the caption is the transcript, its lines are its wrap and the blocks show the last of them |
| VuzixDisplay.ViewController.RecordLatency | VuzixConnection/VuzixConnection/ViewController.swift:287-302 | the window keeps the newest 100 measurements and the report is computed over the old window plus the new one |
| VuzixDisplay.ViewController.StopLiveTranscription | VuzixConnection/VuzixConnection/ViewController.swift:189-247 | a no-op when inactive; otherwise the summary is the report of the session's latencies, the transcript log exists exactly when there were latencies and a caption, and the caption, blocks, latencies and transcript length are cleared |
| EspWifiSpeech.FindTimestampForSegment | ESPWifi/ESPWifi/SpeechRecognizer.swift:150-160 | the stamp of the segment's window in the ring, or none when its slot is out of range |
| EspWifiSpeech.ResultLatency | ESPWifi/ESPWifi/SpeechRecognizer.swift:83-103 | a latency only for a last segment with a stamp, equal to now minus the packet's receipt time |
| EspWifiSpeech.SpeechRecognizer.constructor | ESPWifi/ESPWifi/SpeechRecognizer.swift:10-36 | empty texts, no request or task, no latencies or stamps |
| EspWifiSpeech.SpeechRecognizer.ResetSessionState | ESPWifi/ESPWifi/SpeechRecognizer.swift:204-211 | clears both texts, the latencies, the ring and the counters |
| EspWifiSpeech.SpeechRecognizer.StartTranscribing | ESPWifi/ESPWifi/SpeechRecognizer.swift:39-70 | a fresh session exactly after a user stop or with no accumulated text; otherwise text and latencies carry over; a request and task exist exactly when the engine starts |
| EspWifiSpeech.SpeechRecognizer.ApplyResult | ESPWifi/ESPWifi/SpeechRecognizer.swift:75-105 | the live text and transcript follow the result, and only a plausible latency is recorded |
| EspWifiSpeech.SpeechRecognizer.EndTask | ESPWifi/ESPWifi/SpeechRecognizer.swift:108-126 | unless the user stopped, the live text is folded into the accumulated text and the task restarts |
| EspWifiSpeech.SpeechRecognizer.OnRecognition | ESPWifi/ESPWifi/SpeechRecognizer.swift:70-127 | a result updates text and latency; an error or final result restarts the task unless the user stopped, and no accumulated text is lost |
| EspWifiSpeech.SpeechRecognizer.AppendAudioBuffer | ESPWifi/ESPWifi/SpeechRecognizer.swift:131-147 | without a request nothing changes; otherwise the stamp enters the 80-entry ring, the buffer is fed to the request and the frame and buffer counters grow by the buffer's frames and by 1 |
| EspWifiSpeech.SpeechRecognizer.StopTranscribing | ESPWifi/ESPWifi/SpeechRecognizer.swift:163-202 | marks the user stop and ends the request; the final report has the latency statistics exactly when there were latencies, and the full transcript |
| EspWifiSpeech.RingIsRecentStamps | ESPWifi/ESPWifi/SpeechRecognizer.swift:138-142 | after any run of appends the ring is exactly the last 80 stamps of the old ring followed by those appended |
| EspWifiSpeech.RestartKeepsWords | ESPWifi/ESPWifi/SpeechRecognizer.swift:108-126 | an automatic restart keeps the words of the published transcript |
| EyeTunesSpeech.GetReceiptTime | EyeTunesFullConnection/EyeTunesFullConnection/SpeechRecognizer.swift:144-153 | the receipt time of the segment's window in the ring, or none out of range |
| EyeTunesSpeech.EndToEnd | EyeTunesFullConnection/EyeTunesFullConnection/SpeechRecognizer.swift:84-98 | the end-to-end latency is now minus the packet's receipt time, when a stamp is found |
| EyeTunesSpeech.Lag | EyeTunesFullConnection/EyeTunesFullConnection/SpeechRecognizer.swift:106-110 | a lag exists exactly with a task start and a segment, and lag + segment time = now - task start |
| EyeTunesSpeech.SpeechRecognizer.constructor | EyeTunesFullConnection/EyeTunesFullConnection/SpeechRecognizer.swift:20-44 | empty texts, no request or task, no readings or stamps |
| EyeTunesSpeech.SpeechRecognizer.ResetSessionState | EyeTunesFullConnection/EyeTunesFullConnection/SpeechRecognizer.swift:178-182 | clears only the two texts and the lag readings |
| EyeTunesSpeech.SpeechRecognizer.StartTranscribing | EyeTunesFullConnection/EyeTunesFullConnection/SpeechRecognizer.swift:48-75 | a fresh session exactly after a user stop or with no text; the request is created even when the engine cannot start, and a task exists exactly when it can |
| EyeTunesSpeech.ResultLatencies | EyeTunesFullConnection/EyeTunesFullConnection/SpeechRecognizer.swift:84-110 | the callback's two readings are the end-to-end latency and the lag of the result |
| EyeTunesSpeech.SpeechRecognizer.ApplyResult | EyeTunesFullConnection/EyeTunesFullConnection/SpeechRecognizer.swift:80-111 | live text and transcript follow the result; a plausible end-to-end latency and a positive lag are recorded |
| EyeTunesSpeech.SpeechRecognizer.EndTask | EyeTunesFullConnection/EyeTunesFullConnection/SpeechRecognizer.swift:113-127 | unless the user stopped, the live text is folded in and the task restarts |
| EyeTunesSpeech.SpeechRecognizer.OnRecognition | EyeTunesFullConnection/EyeTunesFullConnection/SpeechRecognizer.swift:75-129 | a result updates the text, the end-to-end latencies and the current latency (a plausible one replaces it) and records a positive lag; an error or final result restarts unless the user stopped, keeping the accumulated text and clearing the lag readings only when that text is empty |
| EyeTunesSpeech.SpeechRecognizer.AppendAudioBuffer | EyeTunesFullConnection/EyeTunesFullConnection/SpeechRecognizer.swift:133-141 | the stamp always enters the 100-entry ring; the buffer is fed only to an existing request |
| EyeTunesSpeech.SpeechRecognizer.StopTranscribing | EyeTunesFullConnection/EyeTunesFullConnection/SpeechRecognizer.swift:156-176 | marks the user stop and ends the request; the average exists exactly when there were latencies and is their mean |
| EyeTunesSpeech.RingIsRecentStamps | EyeTunesFullConnection/EyeTunesFullConnection/SpeechRecognizer.swift:135-138 | after any run of appends the ring is exactly the last 100 stamps of the old ring followed by those appended |
| Es8388.ClampDb | ESP-IDF/codec_es8388.c:50-51 | the attenuation lies in [-96, 0] and an in-range request is kept |
| Es8388.DotBit | ESP-IDF/codec_es8388.c:52 | the half-step digit is 0 or 1 |
| Es8388.VolumeRegister | ESP-IDF/codec_es8388.c:53 | the register value fits in [0, 193] |
| Es8388.VolumeRegisterDecodes | ESP-IDF/codec_es8388.c:50-53 | the register value gives back the clamped whole decibels and the half step |
| Es8388.VolumeRegisterMonotone | ESP-IDF/codec_es8388.c:50-53 | a quieter request never gives less attenuation |
| Es8388.VolumeWrites | ESP-IDF/codec_es8388.c:55-64 | two ADC writes for ADC modes and two DAC writes for DAC modes |
| Es8388.VoiceLevel | ESP-IDF/codec_es8388.c:178-181 | the level lies in [0, 33]: 0 below 0 %, 33 above 100 %, otherwise the percentage divided by 3 rounded down |
| Es8388.VoiceLevelMonotone | ESP-IDF/codec_es8388.c:178-181 | a louder request never gives a lower level |
| Es8388.MaskBits | ESP-IDF/codec_es8388.c:115-169 | which bits the driver's masks 0xFC, 0xF9, 0xE3, 0xC7 and 0xFB keep |
| Es8388.AdcFormatFields | ESP-IDF/codec_es8388.c:115 | the ADC format lands in bits 0..1 and the register keeps its higher bits |
| Es8388.DacFormatFields | ESP-IDF/codec_es8388.c:120 | the DAC format lands in bits 1..2 and the register keeps bits 0 and 3..7 |
| Es8388.AdcBitsFields | ESP-IDF/codec_es8388.c:128 | the ADC word length lands in bits 2..4 and the other bits are kept |
| Es8388.DacBitsFields | ESP-IDF/codec_es8388.c:133 | the DAC word length lands in bits 3..5 and the other bits are kept |
| Es8388.UnmuteIsMask | ESP-IDF/codec_es8388.c:169 | the arithmetic unmute equals `r & 0xFB` |
| Es8388.UnmuteFields | ESP-IDF/codec_es8388.c:169 | unmuting clears bit 2, keeps every other bit and is idempotent |
| Es8388.AdcControlFields | ESP-IDF/codec_es8388.c:113-130 | after both merges the ADC register holds the format in bits 0..1, the length in bits 2..4 and its own bits 5..7 |
| Es8388.DacControlFields | ESP-IDF/codec_es8388.c:118-135 | after both merges the DAC register holds the format in bits 1..2, the length in bits 3..5 and its own bits 0, 6, 7 |
| Es8388.InitVolumes | ESP-IDF/codec_es8388.c:87-99 | the init volumes are the register values of 0 dB and -24 dB |
| Es8388.RouteWrites | ESP-IDF/codec_es8388.c:146-153 | the routing ends by writing the mode's DACCONTROL21 value |
| Es8388.ResetWrites | ESP-IDF/codec_es8388.c:156-159 | the chip is power-cycled exactly when asked |
| Es8388.AdcUpWrites | ESP-IDF/codec_es8388.c:161-163 | the ADC is powered up for every mode but DAC only |
| Es8388.DacUpWrites | ESP-IDF/codec_es8388.c:164-171 | the DAC is powered and unmuted for every mode but ADC only |
| Es8388.VoiceAttempts | ESP-IDF/codec_es8388.c:183-186 | between 1 and 4 writes are attempted: up to and including the first that fails |
| Es8388.Commit | ESP-IDF/codec_es8388.c:16-27 | a write lands exactly when its register answers |
| Es8388.Replay | ESP-IDF/codec_es8388.c:16-27 | replaying writes never loses a register |
| Es8388.ReplayValue | ESP-IDF/codec_es8388.c:16-27 | after a replay a register that answers holds its last write (or its old value), and one that fails keeps its old value |
| Es8388.ReplayAt | ESP-IDF/codec_es8388.c:16-27 | a register that answers holds the value of the last write to it |
| Es8388.ReplayUntouched | ESP-IDF/codec_es8388.c:16-27 | a register no write touches keeps its value |
| Es8388.ReplayFailing | ESP-IDF/codec_es8388.c:16-27 | a register that does not answer keeps its value |
| Es8388.ReplayDistinct | ESP-IDF/codec_es8388.c:16-27 | writes to distinct registers all land where the register answers |
| Es8388.ReplayAppend | ESP-IDF/codec_es8388.c:16-27 | replaying two runs is replaying the second from where the first ends |
| Es8388.VolumeSettings | ESP-IDF/codec_es8388.c:47-65 | after a volume change the written registers that answer hold the new value and the others keep theirs |
| Es8388.InitDacSettings | ESP-IDF/codec_es8388.c:73-90 | the DAC part of init leaves slave mode, 0 dB volumes and the outputs in the registers that answer |
| Es8388.InitAdcSettings | ESP-IDF/codec_es8388.c:93-102 | the ADC part of init leaves the input, the I2S format, -24 dB and the ADC power in the registers that answer |
| Es8388.InitSettings | ESP-IDF/codec_es8388.c:68-106 | after the whole init every register that answers holds its configured value and every failing one keeps its old value |
| Es8388.StartSettings | ESP-IDF/codec_es8388.c:140-174 | after start, DACCONTROL21 holds the mode's value, the chip power is 0 after a reset, the ADC and DAC are powered per mode and the DAC unmuted |
| Es8388.VoiceSettings | ESP-IDF/codec_es8388.c:176-188 | without an abort the four output volume registers hold the level |
| Es8388.Codec.constructor | ESP-IDF/codec_es8388.c:16-45 | an empty write log over the given register file and failing registers |
| Es8388.Codec.ReadReg | ESP-IDF/codec_es8388.c:29-45 | a read fails exactly on a failing register and otherwise returns its current value |
| Es8388.Codec.WriteReg | ESP-IDF/codec_es8388.c:16-27 | the write is logged and reported ok exactly when the register answers |
| Es8388.Codec.SetAdcDacVolume | ESP-IDF/codec_es8388.c:47-65 | the log gains the mode's volume writes; the result is 0 exactly when they all answered |
| Es8388.Codec.ConfigureDacPath | ESP-IDF/codec_es8388.c:78-87 | logs the DAC configuration writes in the driver's order |
| Es8388.Codec.ConfigureDac | ESP-IDF/codec_es8388.c:73-90 | logs the DAC part of init in order |
| Es8388.Codec.ConfigureAdc | ESP-IDF/codec_es8388.c:93-102 | logs the ADC part of init in order |
| Es8388.Codec.Init | ESP-IDF/codec_es8388.c:68-106 | succeeds exactly when the initial mute answers; a failure logs only that mute, a success logs the whole init sequence |
| Es8388.Codec.ConfigI2s | ESP-IDF/codec_es8388.c:108-138 | aborts exactly when a register it needs fails; otherwise the ADC and/or DAC registers hold the merged format and length |
| Es8388.Codec.Route | ESP-IDF/codec_es8388.c:146-153 | logs the mode's routing writes |
| Es8388.Codec.ResetIfChanged | ESP-IDF/codec_es8388.c:155-159 | power-cycles the chip exactly when DACCONTROL21 changed |
| Es8388.Codec.PowerUpDac | ESP-IDF/codec_es8388.c:164-171 | powers the DAC and writes back DACCONTROL3 unmuted |
| Es8388.Codec.Start | ESP-IDF/codec_es8388.c:140-174 | logs the start sequence for the mode, with a reset exactly when DACCONTROL21 changed and the DAC unmuted from its current value |
| Es8388.Codec.SetVoiceVolume | ESP-IDF/codec_es8388.c:176-188 | aborts exactly when one of the four writes fails, having attempted only the writes up to it |
| BluetoothScan.RawValue | BluetoothConnection/BluetoothConnection/BluetoothManager.swift:42 | the manager state's raw value is at most 5 |
| BluetoothScan.StatusFor | BluetoothConnection/BluetoothConnection/BluetoothManager.swift:28-45 | the scanning status is shown exactly when powered on |
| BluetoothScan.StatusForInjective | BluetoothConnection/BluetoothConnection/BluetoothManager.swift:28-45 | different states give different status texts |
| BluetoothScan.Upper | BluetoothConnection/BluetoothConnection/BluetoothManager.swift:59 | uppercasing keeps the length and maps each character |
| BluetoothScan.IsEspNameCaseInsensitive | BluetoothConnection/BluetoothConnection/BluetoothManager.swift:59 | a name matches exactly when it has "esp" at some position in any mix of cases |
| BluetoothScan.ShortNameRejected | BluetoothConnection/BluetoothConnection/BluetoothManager.swift:56-59 | a name shorter than three characters, the empty name included, never matches |
| BluetoothScan.DiscoveredAppends | BluetoothConnection/BluetoothConnection/BluetoothManager.swift:59-61 | the list grows by the peripheral exactly when its name matches and its id is new, and is otherwise unchanged |
| BluetoothScan.DiscoveredUnique | BluetoothConnection/BluetoothConnection/BluetoothManager.swift:60-61 | identifiers stay unique |
| BluetoothScan.DiscoveredKnown | BluetoothConnection/BluetoothConnection/BluetoothManager.swift:59-61 | after discovering a matching peripheral its identifier is in the list |
| BluetoothScan.DiscoveredIdempotent | BluetoothConnection/BluetoothConnection/BluetoothManager.swift:60-61 | discovering the same peripheral twice changes nothing the second time |
| BluetoothScan.StatusNamesPeripheral | BluetoothConnection/BluetoothConnection/BluetoothManager.swift:75-82 | the connecting and connected statuses end with the peripheral's name, or "device" |
| BluetoothScan.BluetoothManager.constructor | BluetoothConnection/BluetoothConnection/BluetoothManager.swift:15-25 | no peripherals, the initial status, no connection |
| BluetoothScan.BluetoothManager.DidUpdateState | BluetoothConnection/BluetoothConnection/BluetoothManager.swift:28-45 | the status follows the state; powering on clears the list |
| BluetoothScan.BluetoothManager.DidDiscover | BluetoothConnection/BluetoothConnection/BluetoothManager.swift:47-66 | the list becomes `Discovered` of the old list, so it stays de-duplicated |
| BluetoothScan.BluetoothManager.Connect | BluetoothConnection/BluetoothConnection/BluetoothManager.swift:70-77 | the status says which peripheral is being connected |
| BluetoothScan.BluetoothManager.DidConnect | BluetoothConnection/BluetoothConnection/BluetoothManager.swift:79-85 | the peripheral becomes the connected one and the status names it |
| BluetoothScan.BluetoothManager.DidDiscoverServices | BluetoothConnection/BluetoothConnection/BluetoothManager.swift:88-101 | the status reports the error, or the discovered services for the peripheral |

## Left out

- Networking: sockets, `NWListener`/`NWConnection` set-up and Wi-Fi are not modelled. The
  received datagram, its error flag and the listener state are parameters.
- I2S and I2C drivers: the ES8388 register addresses come from a header that is not part of
  this model, so registers are an enumeration. Building the I2C command is left out, and a
  failing bus is a set of registers that do not answer.
- Clocks (`esp_timer_get_time`, `Date()`, `CFAbsoluteTimeGetCurrent`) become parameters.
  Durations are exact reals rather than `Double`/`Float32`.
- AVFoundation and Speech: the recognition engine is a stream of result/error events passed
  to `OnRecognition`. Authorization, the audio engine and playback (`scheduleBuffer`) are
  left out.
- Int16ToPcmBuffer, ToPcmBuffer: a failure to allocate the `AVAudioPCMBuffer` or create its
  format is not modelled. A buffer is always produced, and the UInt32 cast of the frame
  count is not modelled.
- Concurrency: `DispatchQueue.main.async` hops and the `Task { await startTranscribing() }`
  restart run immediately and atomically. Interleavings between the network, recognition
  and main queues are not modelled.
- Timers: the 0.3 s refresh timer is a `Tick` method that the environment calls.
- Logging: `print`, `ESP_LOG*`, the `String(format:)` texts and the 50th-packet debug log
  are left out. `currentLatency` is kept as the number it formats, and `latencySummary` as
  the report it prints.
- CaptionLatency.Report, Correlator.Variance: the standard deviation is the square root of
  the variance; only the variance is modelled, because reals have no square root here.
- The glasses' canvas (UltraliteSDK): text blocks are ids with the text each shows.
  `requestControl`, `releaseControl`, `commit`, the error alert and the connection listener
  and picker (`startConnectionListener`, `showPickerFromSwiftUI`, `viewDidLoad`) are left
  out.
- The legacy `startSpeechRecognition` of the EyeTunesFullConnection view controller is not
  called from anywhere, so it is not modelled.
- CoreBluetooth: scanning, service and characteristic discovery requests are not modelled,
  and a peripheral is a value (identifier and optional name).
- BluetoothScan.Upper: uppercasing covers ASCII letters, and the long s that uppercases to
  'S'. Other Unicode case mappings (including ones that change length) are not modelled.
  BluetoothScan.Contains searches `char` by `char`, while Swift's `String.contains` matches
  whole grapheme clusters: a name where "ESP" is followed by a combining mark matches here
  but not in the app.
- EyeTunesSpeech.GetReceiptTime: Swift's `Int(t / 0.064)` traps on a non-finite or huge
  value. Times here are finite reals, so that trap is not modelled.
- EspWifiSpeech.SpeechRecognizer.StopTranscribing: the "no transcript" branch is
  unreachable, because the published text always contains the separating space. The
  contract proves the report is always produced.
- Es8388.Codec.Init, Es8388.Codec.Start: each is split into helper methods (ConfigureDac,
  ConfigureAdc, Route, ResetIfChanged, PowerUpDac). The helpers issue the same writes in
  the same order.
- The 0.064 s slot duration in both recognizers is modelled as written, although the sender
  sends one packet every 0.01 s (see `Correlator.DurationMismatchMisattributes`).
- The firmware's `app_main` (Wi-Fi, I2S and codec bring-up order, task creation) is not
  modelled beyond the codec calls themselves.
- CaptionWrap.WrapTextIntoLines, CaptionWrap.Wrap, EyeTunesDisplay.ViewController.UpdateCaptionDisplay,
  VuzixDisplay.ViewController.UpdateCaptionDisplay: Swift's `String.count`, `prefix` and
  `dropFirst` count grapheme clusters, while the model counts `char`s. For text with
  combining marks or multi-scalar emoji, the 35-character line limit and the "transcript
  grew" guard count differently from the app.
- AudioSender.AudioTask.constructor: the task always gets its packet buffer. The firmware's
  branch where `malloc` fails and the task deletes itself (ESP-IDF/main.c:182-187) is not
  modelled.
- AudioSender.AudioTask.Step: the counter `pkt` is an unbounded natural number. In the
  firmware it is a signed 32-bit `int`, whose overflow after 2^31 successful sends is
  undefined behaviour in C. The model does not capture what happens then to the every-50th
  amplitude report.

=== FILE: audio_sender.dfy ===
/** The ESP32 side of the pipeline: `audio_udp_task` reads interleaved stereo PCM16 from
    I2S, averages each frame to mono, pads the fixed 320-byte payload with silence, stamps
    it with the microsecond clock and sends the 328-byte `audio_packet_t`. One pass of its
    endless loop is one call of `AudioTask.Step`; the driver's answers (read status,
    stereo samples, clock, send status) are parameters. */
module AudioSender {
  import opened Wrappers
  import opened Bytes
  import opened PcmDecoder
  import opened Packets

  /** `SAMPLE_RATE_SEND` and `AUDIO_PAYLOAD_BYTES`. */
  const SampleRate: nat := 16000
  const AudioPayloadBytes: nat := 320
  /** Mono samples in one payload. */
  const SamplesPerPacket: nat := AudioPayloadBytes / 2
  /** Bytes asked of `i2s_read`: stereo, so twice the mono payload. */
  const StereoReadBytes: nat := 2 * AudioPayloadBytes
  /** `sizeof(audio_packet_t)`: the packed 8-byte timestamp and the payload. */
  const PacketBytes: nat := HeaderBytes + AudioPayloadBytes
  /** A status report is logged on every 50th iteration. */
  const AmplitudeReportEvery: nat := 50

  /** C's `int32_t` division by 2, which truncates toward zero. */
  function TruncHalf(x: int): (q: int)
    ensures x >= 0 ==> 2 * q <= x < 2 * q + 2
    ensures x < 0 ==> 2 * q - 2 < x <= 2 * q
  {
    if x >= 0 then x / 2 else -((-x) / 2)
  }

  /** One mono sample: the two channels summed in 32 bits and halved toward zero. The
      result always fits the `int16_t` it is cast to, and lies between the two channels. */
  function Downmix(left: Int16, right: Int16): (m: Int16)
    ensures left <= right ==> left <= m <= right
    ensures right <= left ==> right <= m <= left
  {
    TruncHalf(left + right)
  }

  /** The payload one iteration sends after reading `frames` stereo frames: the mono
      samples of those frames, then silence up to 160 samples. */
  function Payload(stereo: seq<Int16>, frames: nat): (p: seq<Int16>)
    requires frames <= SamplesPerPacket && |stereo| >= 2 * frames
    ensures |p| == SamplesPerPacket
    ensures forall i :: 0 <= i < frames ==> p[i] == Downmix(stereo[2 * i], stereo[2 * i + 1])
    ensures forall i :: frames <= i < SamplesPerPacket ==> p[i] == 0
  {
    seq(SamplesPerPacket, i requires 0 <= i < SamplesPerPacket =>
      if i < frames then Downmix(stereo[2 * i], stereo[2 * i + 1]) else 0)
  }

  /** The bytes of a packed `audio_packet_t` on the little-endian ESP32: the timestamp's
      eight bytes, then each sample's two. */
  function EncodePacket(timestamp: U64, samples: seq<Int16>): (bytes: seq<Byte>)
    ensures |bytes| == HeaderBytes + 2 * |samples|
  {
    LeBytes(timestamp, HeaderBytes) + EncodeSamples(samples)
  }

  /** The magnitude `|v|` the amplitude report takes, in `int`. */
  function Abs(v: Int16): (a: nat)
    ensures a <= 32768
  {
    if v < 0 then -(v as int) else v as int
  }

  /** The amplitude report's loop: the largest magnitude over the samples, starting from
      0. It is the maximum (reached by some sample of a non-empty payload) and lies in
      [0, 32768]. */
  method MaxAmplitude(s: seq<Int16>) returns (max: int)
    ensures 0 <= max <= 32768
    ensures forall i :: 0 <= i < |s| ==> Abs(s[i]) <= max
    ensures s != [] ==> exists i :: 0 <= i < |s| && Abs(s[i]) == max
    ensures s == [] ==> max == 0
  {
    max := 0;
    for i := 0 to |s|
      invariant 0 <= max <= 32768
      invariant forall j :: 0 <= j < i ==> Abs(s[j]) <= max
      invariant i > 0 ==> exists j :: 0 <= j < i && Abs(s[j]) == max
      invariant i == 0 ==> max == 0
    {
      var v: int := s[i];
      if v < 0 {
        v := -v;
      }
      if v > max {
        max := v;
      }
    }
  }

  /** The conversion into the payload buffer `mono`: the loop averaging each frame read,
      then the `memset` of the bytes after `mono_bytes = frames * 2`, which covers the
      whole rest of the payload; the clamp of `mono_bytes` to 320 never fires, since a
      read of at most 640 bytes yields at most 160 frames. */
  method FillPayload(mono: array<Int16>, stereo: seq<Int16>, frames: nat)
    requires mono.Length == SamplesPerPacket && frames <= SamplesPerPacket && |stereo| >= 2 * frames
    modifies mono
    ensures mono[..] == Payload(stereo, frames)
  {
    for i := 0 to frames
      invariant forall j :: 0 <= j < i ==> mono[j] == Downmix(stereo[2 * j], stereo[2 * j + 1])
    {
      mono[i] := Downmix(stereo[2 * i], stereo[2 * i + 1]);
    }
    var monoBytes := frames * 2;
    if monoBytes < AudioPayloadBytes {
      for j := frames to SamplesPerPacket
        invariant forall k :: 0 <= k < frames ==> mono[k] == Downmix(stereo[2 * k], stereo[2 * k + 1])
        invariant forall k :: frames <= k < j ==> mono[k] == 0
      {
        mono[j] := 0;
      }
    } else if monoBytes > AudioPayloadBytes {
      monoBytes := AudioPayloadBytes;
    }
    assert mono[..] == Payload(stereo, frames);
  }

  /** The task's state: the heap-allocated packet's payload, seen as 160 `int16_t`, its
      timestamp, and the packet counter. */
  class AudioTask {
    var audioData: array<Int16>
    var timestampUs: U64
    var pkt: int

    predicate Valid()
      reads this
    {
      audioData.Length == SamplesPerPacket && pkt >= 0
    }

    constructor ()
      ensures Valid() && pkt == 0 && fresh(audioData)
    {
      audioData := new Int16[SamplesPerPacket](_ => 0);
      timestampUs := 0;
      pkt := 0;
    }

    /** One pass of the loop. A failed read (`readOk` false) or an empty one sends
        nothing and changes nothing. Otherwise `bytesRead / 4` stereo frames are averaged
        to mono into the payload, the rest is zero-filled, every 50th iteration reports the
        maximum amplitude, the packet is stamped with `now` and its 328 bytes are sent;
        the counter advances only when `sendto` succeeds (`sendOk`). `stereo` is the
        read buffer's content, of which only the frames read are used. */
    method Step(readOk: bool, bytesRead: nat, stereo: seq<Int16>, now: U64, sendOk: bool)
      returns (datagram: Option<seq<Byte>>, maxAmplitude: Option<int>)
      requires Valid()
      requires bytesRead <= StereoReadBytes && |stereo| == StereoReadBytes / 2
      modifies this, audioData
      ensures Valid() && audioData == old(audioData)
      ensures !readOk || bytesRead == 0 ==>
                && datagram.None? && maxAmplitude.None?
                && pkt == old(pkt) && timestampUs == old(timestampUs)
                && audioData[..] == old(audioData[..])
      ensures readOk && bytesRead > 0 ==>
                && audioData[..] == Payload(stereo, bytesRead / 4)
                && timestampUs == now
                && datagram == Some(EncodePacket(now, audioData[..]))
                && |datagram.value| == PacketBytes
                && pkt == (if sendOk then old(pkt) + 1 else old(pkt))
                && (maxAmplitude.Some? <==> old(pkt) % AmplitudeReportEvery == 0)
                && (maxAmplitude.Some? ==>
                      && 0 <= maxAmplitude.value <= 32768
                      && (forall i :: 0 <= i < SamplesPerPacket ==> Abs(audioData[i]) <= maxAmplitude.value)
                      && (exists i :: 0 <= i < SamplesPerPacket && Abs(audioData[i]) == maxAmplitude.value))
    {
      datagram := None;
      maxAmplitude := None;
      if !readOk {
        return;
      }
      if bytesRead == 0 {
        return;
      }
      var frames := bytesRead / 4;
      FillPayload(audioData, stereo, frames);
      if pkt % AmplitudeReportEvery == 0 {
        var max := MaxAmplitude(audioData[..]);
        maxAmplitude := Some(max);
      }
      timestampUs := now;
      datagram := Some(EncodePacket(timestampUs, audioData[..]));
      if sendOk {
        pkt := pkt + 1;
      }
    }
  }

  /** What the ESP32 sends is what both iPhone receivers take apart: the header split
      gives back the timestamp and the payload bytes, and the int16 buffer they build holds
      exactly the samples sent, one frame per sample. */
  lemma {:induction false} SentPacketRoundTrip(timestamp: U64, samples: seq<Int16>)
    requires |samples| == SamplesPerPacket
    ensures SplitWifi(EncodePacket(timestamp, samples)) == Some(Packet(timestamp, EncodeSamples(samples)))
    ensures SplitUdp(EncodePacket(timestamp, samples)) == Some(Packet(timestamp, EncodeSamples(samples)))
    ensures ToPcmBuffer(EncodeSamples(samples)).samples == samples
    ensures ToPcmBuffer(EncodeSamples(samples)).FrameLength() == SamplesPerPacket
  {
    SplitOfEncoded(timestamp, EncodeSamples(samples));
    DecodeEncodeSamples(samples);
  }
}

=== FILE: bits.dfy ===
/** Bitwise arithmetic on unsigned integers, defined bit by bit: the `&`, `|` and `<<` the
    codec driver applies to `uint8_t` register values, and `Bit`, which reads one bit. */
module ByteBits {

  /** 2 to the power `n`. */
  function Pow2(n: nat): (p: nat)
    ensures p >= 1
  {
    if n == 0 then 1 else 2 * Pow2(n - 1)
  }

  /** Bit `i` of `x`, bit 0 being the least significant. */
  predicate Bit(x: nat, i: nat)
  {
    if i == 0 then x % 2 == 1 else Bit(x / 2, i - 1)
  }

  /** The bitwise operators. */
  datatype BitOp = And | Or

  predicate ApplyOp(op: BitOp, a: bool, b: bool)
  {
    match op
    case And => a && b
    case Or => a || b
  }

  /** The low `width` bits of `a` and `b` combined bit by bit with `op`; every higher bit
      of the result is zero, so it fits `width` bits. */
  function Combine(op: BitOp, a: nat, b: nat, width: nat): (r: nat)
    ensures r < Pow2(width)
  {
    if width == 0 then 0
    else 2 * Combine(op, a / 2, b / 2, width - 1) + (if ApplyOp(op, a % 2 == 1, b % 2 == 1) then 1 else 0)
  }

  /** `a & b` on bytes. */
  function AndByte(a: nat, b: nat): (r: nat)
    ensures r < 256
  {
    Combine(And, a, b, 8)
  }

  /** `a | b` on bytes. */
  function OrByte(a: nat, b: nat): (r: nat)
    ensures r < 256
  {
    Combine(Or, a, b, 8)
  }

  /** `(uint8_t)(x << k)`: shifted left, then cut to its low eight bits. */
  function ShiftLeftByte(x: nat, k: nat): (r: nat)
    ensures r < 256
  {
    Combine(Or, x * Pow2(k), 0, 8)
  }

  lemma {:induction false} BitOfZero(i: nat)
    ensures !Bit(0, i)
  {
    if i > 0 {
      BitOfZero(i - 1);
    }
  }

  /** A value below `2^n` has no bit at or above `n`. */
  lemma {:induction false} BitAboveWidth(x: nat, n: nat, i: nat)
    requires x < Pow2(n) && i >= n
    ensures !Bit(x, i)
  {
    if n == 0 {
      assert x == 0;
      BitOfZero(i);
    } else {
      BitAboveWidth(x / 2, n - 1, i - 1);
    }
  }

  /** Bit `i` of a combination is `op` of the operands' bits `i`, within the width. */
  lemma {:induction false} BitOfCombine(op: BitOp, a: nat, b: nat, width: nat, i: nat)
    ensures Bit(Combine(op, a, b, width), i) == (i < width && ApplyOp(op, Bit(a, i), Bit(b, i)))
  {
    if width == 0 {
      BitOfZero(i);
    } else {
      var c := Combine(op, a / 2, b / 2, width - 1);
      var low := if ApplyOp(op, a % 2 == 1, b % 2 == 1) then 1 else 0;
      assert Combine(op, a, b, width) == 2 * c + low;
      HalfOfTwice(c, low);
      if i > 0 {
        BitOfCombine(op, a / 2, b / 2, width - 1, i - 1);
      }
    }
  }

  /** `2 * c + low` with a low bit `low` halves to `c` and leaves `low` over. */
  lemma HalfOfTwice(c: nat, low: nat)
    requires low < 2
    ensures (2 * c + low) / 2 == c && (2 * c + low) % 2 == low
  {
  }

  /** Doubling moves every bit up by one and leaves bit 0 clear. */
  lemma {:induction false} BitOfDouble(x: nat, i: nat)
    ensures Bit(2 * x, i) == (i >= 1 && Bit(x, i - 1))
  {
    if i > 0 {
      assert (2 * x) / 2 == x;
    }
  }

  /** Multiplying by `2^k` moves every bit up by `k`. */
  lemma {:induction false} BitOfScaled(x: nat, k: nat, i: nat)
    ensures Bit(x * Pow2(k), i) == (i >= k && Bit(x, i - k))
  {
    if k > 0 {
      assert x * Pow2(k) == 2 * (x * Pow2(k - 1));
      BitOfDouble(x * Pow2(k - 1), i);
      if i >= 1 {
        BitOfScaled(x, k - 1, i - 1);
      }
    }
  }

  lemma BitOfAnd(a: nat, b: nat, i: nat)
    ensures Bit(AndByte(a, b), i) == (i < 8 && Bit(a, i) && Bit(b, i))
  {
    BitOfCombine(And, a, b, 8, i);
  }

  lemma BitOfOr(a: nat, b: nat, i: nat)
    ensures Bit(OrByte(a, b), i) == (i < 8 && (Bit(a, i) || Bit(b, i)))
  {
    BitOfCombine(Or, a, b, 8, i);
  }

  /** Bit `i` of `(uint8_t)(x << k)` is bit `i - k` of `x` for `k <= i < 8`, and clear
      otherwise. */
  lemma BitOfShiftLeft(x: nat, k: nat, i: nat)
    ensures Bit(ShiftLeftByte(x, k), i) == (k <= i < 8 && Bit(x, i - k))
  {
    BitOfCombine(Or, x * Pow2(k), 0, 8, i);
    BitOfZero(i);
    BitOfScaled(x, k, i);
  }

  /** Two bytes with the same eight bits are equal. */
  lemma {:induction false} BitsDetermine(x: nat, y: nat, n: nat)
    requires x < Pow2(n) && y < Pow2(n)
    requires forall i :: 0 <= i < n ==> Bit(x, i) == Bit(y, i)
    ensures x == y
  {
    if n > 0 {
      forall i | 0 <= i < n - 1
        ensures Bit(x / 2, i) == Bit(y / 2, i)
      {
        assert Bit(x, i + 1) == Bit(y, i + 1);
      }
      BitsDetermine(x / 2, y / 2, n - 1);
      assert Bit(x, 0) == Bit(y, 0);
    }
  }
}

=== FILE: bluetooth.dfy ===
/** The iPhone's Bluetooth scanner: `BluetoothManager` keeps the list of discovered ESP32
    boards, a status line and the connected board. Each CoreBluetooth delegate callback,
    with the hop to the main queue it makes, is one atomic method call; the central
    manager's own actions (scanning, connecting, service discovery) are outside it. */
module BluetoothScan {
  import opened Wrappers

  /** `CBManagerState`, with its raw values. */
  datatype ManagerState = Unknown | Resetting | Unsupported | Unauthorized | PoweredOff | PoweredOn

  function RawValue(state: ManagerState): (raw: nat)
    ensures raw <= 5
  {
    match state
    case Unknown => 0
    case Resetting => 1
    case Unsupported => 2
    case Unauthorized => 3
    case PoweredOff => 4
    case PoweredOn => 5
  }

  /** A peripheral as the manager sees it: its identifier (a UUID, here a number) and its
      GAP name, which may be missing. */
  datatype Peripheral = Peripheral(identifier: nat, name: Option<string>)

  const InitialStatus: string := "Initializing..."
  const ScanningStatus: string := "Scanning for Bluetooth devices..."

  /** The status line `centralManagerDidUpdateState` shows for each state; the states
      without a message of their own show their raw value. */
  function StatusFor(state: ManagerState): (status: string)
    ensures state == PoweredOn <==> status == ScanningStatus
  {
    match state
    case PoweredOn => ScanningStatus
    case PoweredOff => "Bluetooth is powered off"
    case Unauthorized => "Bluetooth permission denied"
    case Unsupported => "Bluetooth not supported on this Mac"
    case _ => "Bluetooth unavailable (" + [('0' as int + RawValue(state)) as char] + ")"
  }

  /** What tells the status lines apart: their lengths, and the raw value's digit. */
  lemma StatusShape(state: ManagerState)
    ensures |StatusFor(state)| == match state
                                  case PoweredOn => 33
                                  case PoweredOff => 24
                                  case Unauthorized => 27
                                  case Unsupported => 35
                                  case _ => 25
    ensures state.Unknown? || state.Resetting? ==> StatusFor(state)[23] == ('0' as int + RawValue(state)) as char
  {
  }

  /** Every state has its own status line, so the line tells the state. */
  lemma StatusForInjective(a: ManagerState, b: ManagerState)
    ensures StatusFor(a) == StatusFor(b) ==> a == b
  {
    StatusShape(a);
    StatusShape(b);
  }

  /** The name a discovery goes by: the peripheral's own name, else the advertised local
      name, else the empty string. A present but empty peripheral name is used as it is. */
  function DisplayName(p: Peripheral, advertised: Option<string>): string
  {
    p.name.GetOr(advertised.GetOr(""))
  }

  /** `uppercased()` on one character: the ASCII lower-case letters and the long s `ſ`,
      whose capital is `S`. */
  function UpperChar(c: char): (u: char)
  {
    if 'a' <= c <= 'z' then (c as int - 32) as char
    else if c == 'ſ' then 'S'
    else c
  }

  function Upper(s: string): (u: string)
    ensures |u| == |s|
    ensures forall i :: 0 <= i < |s| ==> u[i] == UpperChar(s[i])
  {
    seq(|s|, i requires 0 <= i < |s| => UpperChar(s[i]))
  }

  /** `s.contains(part)`: `part` occurs in `s` at some position. */
  predicate ContainsAt(s: string, part: string, i: nat)
  {
    i + |part| <= |s| && s[i..i + |part|] == part
  }

  predicate Contains(s: string, part: string)
  {
    exists i: nat | i <= |s| :: ContainsAt(s, part, i)
  }

  /** The discovery filter: the upper-cased name contains "ESP". */
  predicate IsEspName(name: string)
  {
    Contains(Upper(name), "ESP")
  }

  /** The filter, stated letter by letter: three consecutive characters that are an `e`, an
      `s` and a `p` in either case (or the long s). */
  predicate EspAt(name: string, i: nat)
  {
    && i + 3 <= |name|
    && (name[i] == 'e' || name[i] == 'E')
    && (name[i + 1] == 's' || name[i + 1] == 'S' || name[i + 1] == 'ſ')
    && (name[i + 2] == 'p' || name[i + 2] == 'P')
  }

  lemma UpperCharLetters(c: char)
    ensures UpperChar(c) == 'E' <==> c == 'e' || c == 'E'
    ensures UpperChar(c) == 'S' <==> c == 's' || c == 'S' || c == 'ſ'
    ensures UpperChar(c) == 'P' <==> c == 'p' || c == 'P'
  {
  }

  lemma EspAtUpper(name: string, i: nat)
    ensures ContainsAt(Upper(name), "ESP", i) <==> EspAt(name, i)
  {
    if i + 3 <= |name| {
      var u := Upper(name);
      UpperCharLetters(name[i]);
      UpperCharLetters(name[i + 1]);
      UpperCharLetters(name[i + 2]);
      if EspAt(name, i) {
        assert u[i..i + 3] == "ESP";
      }
      if ContainsAt(u, "ESP", i) {
        assert u[i] == u[i..i + 3][0] && u[i + 1] == u[i..i + 3][1] && u[i + 2] == u[i..i + 3][2];
      }
    }
  }

  /** The filter is case-insensitive: a name passes exactly when it holds "esp" in any mix
      of cases. */
  lemma IsEspNameCaseInsensitive(name: string)
    ensures IsEspName(name) <==> exists i: nat :: EspAt(name, i)
  {
    if IsEspName(name) {
      var i: nat :| ContainsAt(Upper(name), "ESP", i);
      EspAtUpper(name, i);
    }
    if exists i: nat :: EspAt(name, i) {
      var i: nat :| EspAt(name, i);
      EspAtUpper(name, i);
    }
  }

  /** A name without the letters passes nowhere; in particular the empty name. */
  lemma ShortNameRejected(name: string)
    requires |name| < 3
    ensures !IsEspName(name)
  {
    IsEspNameCaseInsensitive(name);
  }

  /** `peripherals.contains(where: { $0.identifier == id })`. */
  predicate Known(list: seq<Peripheral>, id: nat)
  {
    exists i :: 0 <= i < |list| && list[i].identifier == id
  }

  /** No two entries share an identifier. */
  predicate UniqueIds(list: seq<Peripheral>)
  {
    forall i, j :: 0 <= i < j < |list| ==> list[i].identifier != list[j].identifier
  }

  /** The list after the discovery of `p` with advertised name `advertised`: `p` is
      appended when its name is non-empty, passes the filter and its identifier is not yet
      listed; otherwise the list is unchanged. */
  function Discovered(list: seq<Peripheral>, p: Peripheral, advertised: Option<string>): seq<Peripheral>
  {
    var name := DisplayName(p, advertised);
    if name == "" then list
    else if IsEspName(name) && !Known(list, p.identifier) then list + [p]
    else list
  }

  /** Discovery appends the new peripheral at the end, exactly when its name passes the
      filter and it is new, and leaves every earlier entry where it was. */
  lemma DiscoveredAppends(list: seq<Peripheral>, p: Peripheral, advertised: Option<string>)
    ensures var after := Discovered(list, p, advertised);
            && |list| <= |after| <= |list| + 1
            && after[..|list|] == list
            && (|after| == |list| + 1 <==> IsEspName(DisplayName(p, advertised)) && !Known(list, p.identifier))
            && (|after| == |list| + 1 ==> after[|list|] == p)
  {
    var name := DisplayName(p, advertised);
    if name == "" {
      ShortNameRejected(name);
    }
  }

  /** Discovery keeps the identifiers unique. */
  lemma DiscoveredUnique(list: seq<Peripheral>, p: Peripheral, advertised: Option<string>)
    requires UniqueIds(list)
    ensures UniqueIds(Discovered(list, p, advertised))
  {
    var after := Discovered(list, p, advertised);
    if after != list {
      forall i, j | 0 <= i < j < |after|
        ensures after[i].identifier != after[j].identifier
      {
        if j == |list| {
          assert after[i] == list[i];
        }
      }
    }
  }

  /** After a discovery that passes the filter the peripheral is listed. */
  lemma DiscoveredKnown(list: seq<Peripheral>, p: Peripheral, advertised: Option<string>)
    requires IsEspName(DisplayName(p, advertised))
    ensures Known(Discovered(list, p, advertised), p.identifier)
  {
    var name := DisplayName(p, advertised);
    if name == "" {
      ShortNameRejected(name);
    }
    var after := Discovered(list, p, advertised);
    if after != list {
      assert after[|list|] == p;
    }
  }

  /** Reporting the same discovery twice lists the peripheral at most once. */
  lemma DiscoveredIdempotent(list: seq<Peripheral>, p: Peripheral, advertised: Option<string>)
    ensures Discovered(Discovered(list, p, advertised), p, advertised) == Discovered(list, p, advertised)
  {
    var name := DisplayName(p, advertised);
    if name != "" && IsEspName(name) {
      DiscoveredKnown(list, p, advertised);
    }
  }

  /** The word a status line uses for a peripheral. */
  function NameOrDevice(p: Peripheral): string
  {
    p.name.GetOr("device")
  }

  const ConnectingPrefix: string := "Connecting to "
  const ConnectedPrefix: string := "Connected to "

  function ConnectingStatus(p: Peripheral): (status: string)
  {
    ConnectingPrefix + NameOrDevice(p) + "..."
  }

  function ConnectedStatus(p: Peripheral): (status: string)
  {
    ConnectedPrefix + NameOrDevice(p)
  }

  /** The status line after service discovery: the error's description, or the
      peripheral's name. */
  function ServicesStatus(p: Peripheral, error: Option<string>): (status: string)
  {
    if error.Some? then "Error discovering services: " + error.value
    else "Services discovered for " + NameOrDevice(p)
  }

  /** The connection status lines name the peripheral: its name, or "device", can be read
      back from between the fixed words. */
  lemma StatusNamesPeripheral(p: Peripheral)
    ensures var s := ConnectingStatus(p);
            |s| == |ConnectingPrefix| + |NameOrDevice(p)| + 3
            && s[|ConnectingPrefix|..|s| - 3] == NameOrDevice(p)
    ensures ConnectedStatus(p)[|ConnectedPrefix|..] == NameOrDevice(p)
    ensures p.name.Some? ==> ConnectedStatus(p)[|ConnectedPrefix|..] == p.name.value
  {
    var s := ConnectingStatus(p);
    assert s[|ConnectingPrefix|..|s| - 3] == (ConnectingPrefix + NameOrDevice(p) + "...")[|ConnectingPrefix|..|s| - 3];
  }

  class BluetoothManager {
    var peripherals: seq<Peripheral>
    var status: string
    var connectedPeripheral: Option<Peripheral>

    predicate Valid()
      reads this
    {
      UniqueIds(peripherals)
    }

    constructor ()
      ensures Valid()
      ensures peripherals == [] && status == InitialStatus && connectedPeripheral == None
    {
      peripherals := [];
      status := InitialStatus;
      connectedPeripheral := None;
    }

    /** `centralManagerDidUpdateState`: the status line for the new state; powering on
        also empties the list, since a new scan starts. */
    method DidUpdateState(state: ManagerState)
      requires Valid()
      modifies this
      ensures Valid()
      ensures status == StatusFor(state)
      ensures peripherals == (if state == PoweredOn then [] else old(peripherals))
      ensures connectedPeripheral == old(connectedPeripheral)
    {
      match state {
        case PoweredOn =>
          status := ScanningStatus;
          peripherals := [];
        case PoweredOff =>
          status := "Bluetooth is powered off";
        case Unauthorized =>
          status := "Bluetooth permission denied";
        case Unsupported =>
          status := "Bluetooth not supported on this Mac";
        case _ =>
          status := "Bluetooth unavailable (" + [('0' as int + RawValue(state)) as char] + ")";
      }
    }

    /** `centralManager(_:didDiscover:advertisementData:rssi:)`. */
    method DidDiscover(p: Peripheral, advertised: Option<string>)
      requires Valid()
      modifies this
      ensures Valid()
      ensures peripherals == Discovered(old(peripherals), p, advertised)
      ensures status == old(status) && connectedPeripheral == old(connectedPeripheral)
    {
      var name := p.name.GetOr(advertised.GetOr(""));
      if name == "" {
        return;
      }
      if IsEspName(name) {
        if !Known(peripherals, p.identifier) {
          peripherals := peripherals + [p];
        }
      }
      DiscoveredUnique(old(peripherals), p, advertised);
    }

    /** `connect(to:)`: the status says which peripheral is being connected to. */
    method Connect(p: Peripheral)
      requires Valid()
      modifies this
      ensures Valid()
      ensures status == ConnectingStatus(p)
      ensures peripherals == old(peripherals) && connectedPeripheral == old(connectedPeripheral)
    {
      status := "Connecting to " + p.name.GetOr("device") + "...";
    }

    /** `centralManager(_:didConnect:)`: the peripheral becomes the connected one. */
    method DidConnect(p: Peripheral)
      requires Valid()
      modifies this
      ensures Valid()
      ensures connectedPeripheral == Some(p)
      ensures status == ConnectedStatus(p)
      ensures peripherals == old(peripherals)
    {
      connectedPeripheral := Some(p);
      status := "Connected to " + p.name.GetOr("device");
    }

    /** `peripheral(_:didDiscoverServices:)`: the status reports the error, or the
        peripheral whose services were found. */
    method DidDiscoverServices(p: Peripheral, error: Option<string>)
      requires Valid()
      modifies this
      ensures Valid()
      ensures status == ServicesStatus(p, error)
      ensures peripherals == old(peripherals) && connectedPeripheral == old(connectedPeripheral)
    {
      if error.Some? {
        status := "Error discovering services: " + error.value;
        return;
      }
      status := "Services discovered for " + p.name.GetOr("device");
    }
  }
}

=== FILE: bytes.dfy ===
/** Bytes and the little-endian integer encodings shared by the ESP32 sender and the
    iPhone receivers (the ESP32 and every iOS device are little-endian machines). */
module Bytes {

  /** An unsigned 8-bit value (`uint8_t` / `UInt8`). */
  type Byte = b: int | 0 <= b < 256

  /** An unsigned 64-bit value (`uint64_t` / `UInt64`). */
  type U64 = v: int | 0 <= v < 0x1_0000_0000_0000_0000

  /** 256 to the power `n`: one more than the largest value `n` bytes can hold. */
  function Pow256(n: nat): (r: nat)
    ensures r >= 1
  {
    if n == 0 then 1 else 256 * Pow256(n - 1)
  }

  lemma Pow256Eight()
    ensures Pow256(8) == 0x1_0000_0000_0000_0000
  {
    assert Pow256(2) == 0x1_0000;
    assert Pow256(4) == 0x1_0000 * Pow256(2);
    assert Pow256(6) == 0x1_0000 * Pow256(4);
  }

  /** The unsigned value of a little-endian byte string (byte 0 least significant). */
  function LeValue(bs: seq<Byte>): (v: nat)
    ensures v < Pow256(|bs|)
  {
    if bs == [] then 0 else bs[0] + 256 * LeValue(bs[1..])
  }

  /** The `n` little-endian bytes of `v` (the low `n` bytes when `v` is wider). */
  function LeBytes(v: nat, n: nat): (bs: seq<Byte>)
    ensures |bs| == n
  {
    if n == 0 then [] else [v % 256] + LeBytes(v / 256, n - 1)
  }

  /** Decoding what was encoded gives the value back, whenever it fits in `n` bytes. */
  lemma {:induction false} LeValueOfLeBytes(v: nat, n: nat)
    requires v < Pow256(n)
    ensures LeValue(LeBytes(v, n)) == v
  {
    if n > 0 {
      LeValueOfLeBytes(v / 256, n - 1);
      assert LeBytes(v, n)[1..] == LeBytes(v / 256, n - 1);
    }
  }

  /** Encoding what was decoded gives the bytes back. */
  lemma {:induction false} LeBytesOfLeValue(bs: seq<Byte>)
    ensures LeBytes(LeValue(bs), |bs|) == bs
  {
    if bs != [] {
      var v := LeValue(bs);
      assert v % 256 == bs[0] && v / 256 == LeValue(bs[1..]);
      LeBytesOfLeValue(bs[1..]);
    }
  }

  /** The `UInt64` a native (little-endian) 8-byte load reads from the front of `bs`. */
  function LoadU64(bs: seq<Byte>): (v: U64)
    requires |bs| >= 8
    ensures LeBytes(v, 8) == bs[..8]
  {
    Pow256Eight();
    LeBytesOfLeValue(bs[..8]);
    LeValue(bs[..8])
  }

  /** Storing a `uint64_t` and loading it back gives the same value. */
  lemma {:induction false} LoadU64OfLeBytes(v: U64, rest: seq<Byte>)
    ensures LoadU64(LeBytes(v, 8) + rest) == v
  {
    Pow256Eight();
    var bs := LeBytes(v, 8) + rest;
    assert bs[..8] == LeBytes(v, 8);
    LeValueOfLeBytes(v, 8);
  }
}

=== FILE: caption_eyetunes.dfy ===
/** The EyeTunesFullConnection `ViewController`: it starts and stops a captioning session
    (recognizer, UDP receiver, refresh timer), shows the last two wrapped lines of the
    growing transcript on the glasses' text blocks and keeps a bounded display-latency
    history. The glasses' canvas is modelled by the texts its blocks show; device answers
    and clock readings are parameters. */
module EyeTunesDisplay {
  import opened Wrappers
  import opened TextWords
  import opened CaptionWrap
  import opened Correlator
  import opened CaptionLatency
  import EyeTunesSpeech
  import UdpReceiver

  class ViewController {
    var isTranscriptionActive: bool
    /** Ids of the text blocks on the canvas, and the text each of them shows. */
    var textBlockIds: seq<int>
    var blockTexts: seq<string>
    var captionLines: seq<string>
    var fullCaptionText: string
    var latencyMeasurements: seq<real>
    /** Whether the 0.3 s refresh timer is scheduled. */
    var timerRunning: bool
    var speechRecognizer: EyeTunesSpeech.SpeechRecognizer?
    var udpReceiver: UdpReceiver.UDPAudioReceiver

    /** At most two text blocks, each showing at most one caption line's worth of text;
        the caption lines are always the wrapped full caption; the latency history holds
        at most 100 measurements. */
    predicate Valid()
      reads this
    {
      && |textBlockIds| <= MaxVisibleLines
      && |blockTexts| == |textBlockIds|
      && LinesFit(blockTexts)
      && captionLines == Wrap(fullCaptionText, CharsPerLine)
      && |latencyMeasurements| <= MaxLatencyMeasurements
    }

    constructor ()
      ensures Valid()
      ensures !isTranscriptionActive && !timerRunning && speechRecognizer == null
      ensures textBlockIds == [] && fullCaptionText == "" && latencyMeasurements == []
      ensures fresh(udpReceiver)
    {
      isTranscriptionActive := false;
      textBlockIds := [];
      blockTexts := [];
      captionLines := [];
      fullCaptionText := "";
      latencyMeasurements := [];
      timerRunning := false;
      speechRecognizer := null;
      udpReceiver := new UdpReceiver.UDPAudioReceiver();
      WrapBlank("", CharsPerLine);
    }

    /** `startLiveTranscription` with its canvas set-up: ignored while a session is
        active; without a connected device (`deviceConnected`) or canvas control
        (`controlGranted`) the error path leaves the session inactive. Otherwise the session
        becomes active and `createCaptionTextBlocks` keeps the ids the canvas returned for
        its `maxVisibleLines` creation attempts (`created`), each block showing nothing. */
    method StartLiveTranscription(deviceConnected: bool, controlGranted: bool, created: seq<Option<int>>)
      requires Valid() && |created| == MaxVisibleLines
      modifies this
      ensures Valid()
      ensures old(isTranscriptionActive) ==>
                isTranscriptionActive && textBlockIds == old(textBlockIds) && blockTexts == old(blockTexts)
      ensures !old(isTranscriptionActive) && !(deviceConnected && controlGranted) ==>
                !isTranscriptionActive && textBlockIds == old(textBlockIds) && blockTexts == old(blockTexts)
      ensures !old(isTranscriptionActive) && deviceConnected && controlGranted ==>
                && isTranscriptionActive
                && textBlockIds == CreatedIds(created)
                && |blockTexts| == |textBlockIds|
                && (forall k :: 0 <= k < |blockTexts| ==> blockTexts[k] == "")
      ensures fullCaptionText == old(fullCaptionText) && captionLines == old(captionLines)
      ensures latencyMeasurements == old(latencyMeasurements) && timerRunning == old(timerRunning)
      ensures speechRecognizer == old(speechRecognizer) && udpReceiver == old(udpReceiver)
    {
      if isTranscriptionActive {
        return;
      }
      if !deviceConnected || !controlGranted {
        isTranscriptionActive := false;
        return;
      }
      isTranscriptionActive := true;
      var ids := CreateTextBlocks(created);
      textBlockIds := ids;
      blockTexts := seq(|ids|, _ => "");
    }

    /** `startSpeechAndUDP`, run once the canvas is ready: a new recognizer replaces the
        old one; if the session is still active the recognizer starts (`engineAvailable`,
        at time `now`), the UDP receiver is pointed at it and the refresh timer starts. */
    method StartSpeechAndUdp(engineAvailable: bool, listenerCreated: bool, now: real)
      requires Valid()
      modifies this, udpReceiver
      ensures Valid()
      ensures speechRecognizer != null && fresh(speechRecognizer)
      ensures isTranscriptionActive == old(isTranscriptionActive) && udpReceiver == old(udpReceiver)
      ensures isTranscriptionActive ==>
                && speechRecognizer.hasTask == engineAvailable
                && speechRecognizer.request == Some([])
                && udpReceiver.speechRecognizer == speechRecognizer
                && udpReceiver.listenerActive == (listenerCreated || old(udpReceiver.listenerActive))
                && udpReceiver.isReceiving == old(udpReceiver.isReceiving)
                && timerRunning
      ensures !isTranscriptionActive ==> timerRunning == old(timerRunning) && unchanged(udpReceiver)
      ensures textBlockIds == old(textBlockIds) && blockTexts == old(blockTexts)
      ensures fullCaptionText == old(fullCaptionText) && latencyMeasurements == old(latencyMeasurements)
    {
      var recognizer := new EyeTunesSpeech.SpeechRecognizer();
      speechRecognizer := recognizer;
      if !isTranscriptionActive {
        return;
      }
      recognizer.StartTranscribing(engineAvailable, now);
      udpReceiver.StartListening(recognizer, listenerCreated);
      timerRunning := true;
    }

    /** What `updateCaptionDisplay` does with `transcript`: only with a device present, an
        active session, a non-empty transcript, at least one text block and a transcript
        longer than the one shown does anything change. Then the full caption becomes the
        transcript, the caption lines its wrapping at 35 characters, the blocks show the
        last two of them, and the commit's latency in milliseconds is recorded and
        reported; otherwise the caption, the blocks and the history stay as they were. */
    twostate predicate CaptionUpdated(transcript: string, devicePresent: bool, displayStartTime: real,
                                      displayEndTime: real, new report: Option<LatencyReport>)
      reads this
    {
      var shows := devicePresent && old(isTranscriptionActive) && transcript != []
                   && old(textBlockIds) != [] && |transcript| > |old(fullCaptionText)|;
      && (shows ==>
            && fullCaptionText == transcript
            && captionLines == Wrap(transcript, CharsPerLine)
            && |blockTexts| == |textBlockIds| && ShowsLines(blockTexts, captionLines)
            && var latency := LatencyMs(displayStartTime, displayEndTime);
               && latencyMeasurements == Push(old(latencyMeasurements), latency, MaxLatencyMeasurements)
               && report == Report(old(latencyMeasurements) + [latency]))
      && (!shows ==>
            && fullCaptionText == old(fullCaptionText) && captionLines == old(captionLines)
            && blockTexts == old(blockTexts) && latencyMeasurements == old(latencyMeasurements)
            && report.None?)
    }

    /** One firing of the refresh timer: without an active session and a recognizer the
        timer stops itself; otherwise the recognizer's transcript goes to
        `updateCaptionDisplay`. */
    method Tick(devicePresent: bool, displayStartTime: real, displayEndTime: real)
      returns (report: Option<LatencyReport>)
      requires Valid()
      modifies this
      ensures Valid()
      ensures !old(isTranscriptionActive) || speechRecognizer == null ==>
                && !timerRunning && report.None?
                && fullCaptionText == old(fullCaptionText) && captionLines == old(captionLines)
                && blockTexts == old(blockTexts) && latencyMeasurements == old(latencyMeasurements)
      ensures textBlockIds == old(textBlockIds) && udpReceiver == old(udpReceiver)
      ensures isTranscriptionActive == old(isTranscriptionActive) && speechRecognizer == old(speechRecognizer)
      ensures old(isTranscriptionActive) && old(speechRecognizer) != null ==>
                && CaptionUpdated(old(speechRecognizer.transcript), devicePresent, displayStartTime, displayEndTime, report)
                && timerRunning == old(timerRunning)
      ensures |old(fullCaptionText)| <= |fullCaptionText|
    {
      if !isTranscriptionActive || speechRecognizer == null {
        timerRunning := false;
        report := None;
        return;
      }
      report := UpdateCaptionDisplay(speechRecognizer.transcript, devicePresent, displayStartTime, displayEndTime);
    }

    /** `updateCaptionDisplay`: only with a device present, an active session, a
        non-empty transcript, at least one text block and a transcript longer than the one
        shown does anything change. Then the full caption becomes the transcript, the
        caption lines its wrapping at 35 characters, block `k` shows line `k` of the last
        two lines (or nothing), and the commit's latency in milliseconds is recorded. */
    method UpdateCaptionDisplay(transcript: string, devicePresent: bool, displayStartTime: real, displayEndTime: real)
      returns (report: Option<LatencyReport>)
      requires Valid()
      modifies this
      ensures Valid()
      ensures CaptionUpdated(transcript, devicePresent, displayStartTime, displayEndTime, report)
      // the shown caption only ever grows
      ensures fullCaptionText != old(fullCaptionText) ==> |fullCaptionText| > |old(fullCaptionText)|
      ensures |old(fullCaptionText)| <= |fullCaptionText|
      ensures isTranscriptionActive == old(isTranscriptionActive) && textBlockIds == old(textBlockIds)
      ensures timerRunning == old(timerRunning) && speechRecognizer == old(speechRecognizer)
      ensures udpReceiver == old(udpReceiver)
    {
      report := None;
      if !devicePresent || !isTranscriptionActive || transcript == [] || textBlockIds == [] {
        return;
      }
      if |transcript| <= |fullCaptionText| {
        return;
      }
      ShowCaption(transcript);
      var latency := LatencyMs(displayStartTime, displayEndTime);
      var r := RecordLatency(latency);
      report := Some(r);
    }

    /** The display part of `updateCaptionDisplay` once its guards passed: the full
        caption becomes `transcript`, the caption lines its wrapping, and each text block
        shows its visible line. */
    method ShowCaption(transcript: string)
      requires Valid()
      modifies this
      ensures Valid()
      ensures fullCaptionText == transcript && captionLines == Wrap(transcript, CharsPerLine)
      ensures |blockTexts| == |textBlockIds| && ShowsLines(blockTexts, captionLines)
      ensures latencyMeasurements == old(latencyMeasurements)
      ensures isTranscriptionActive == old(isTranscriptionActive) && textBlockIds == old(textBlockIds)
      ensures timerRunning == old(timerRunning) && speechRecognizer == old(speechRecognizer) && udpReceiver == old(udpReceiver)
    {
      var lines, texts := LayoutCaption(transcript, |textBlockIds|);
      fullCaptionText := transcript;
      captionLines := lines;
      blockTexts := texts;
    }

    /** `recordLatency`: the measurement is appended, the statistics are taken over the
        list including it, and only then is the oldest measurement dropped when there are
        more than 100. */
    method RecordLatency(latency: real) returns (report: LatencyReport)
      requires |latencyMeasurements| <= MaxLatencyMeasurements
      modifies this
      ensures Some(report) == Report(old(latencyMeasurements) + [latency])
      ensures report.stats.count == |old(latencyMeasurements)| + 1
      ensures latencyMeasurements == Push(old(latencyMeasurements), latency, MaxLatencyMeasurements)
      ensures |latencyMeasurements| <= MaxLatencyMeasurements
      ensures isTranscriptionActive == old(isTranscriptionActive) && textBlockIds == old(textBlockIds)
      ensures blockTexts == old(blockTexts) && captionLines == old(captionLines)
      ensures fullCaptionText == old(fullCaptionText) && timerRunning == old(timerRunning)
      ensures speechRecognizer == old(speechRecognizer) && udpReceiver == old(udpReceiver)
    {
      latencyMeasurements := latencyMeasurements + [latency];
      report := Report(latencyMeasurements).value;
      if |latencyMeasurements| > MaxLatencyMeasurements {
        latencyMeasurements := latencyMeasurements[1..];
      }
    }

    /** `stopLiveTranscription`: a no-op unless a session is active. Otherwise the
        session and its timer stop, the UDP listener stops, the recognizer is stopped and
        dropped, and the caption text and lines are cleared; with a device present the
        text blocks are removed. The latency history is kept. */
    method StopLiveTranscription(devicePresent: bool)
      requires Valid()
      modifies this, udpReceiver, speechRecognizer
      ensures Valid()
      ensures udpReceiver == old(udpReceiver)
      ensures !old(isTranscriptionActive) ==>
                && timerRunning == old(timerRunning) && speechRecognizer == old(speechRecognizer)
                && fullCaptionText == old(fullCaptionText) && textBlockIds == old(textBlockIds)
                && blockTexts == old(blockTexts)
                && unchanged(udpReceiver)
                && (old(speechRecognizer) != null ==> unchanged(old(speechRecognizer)))
      ensures old(isTranscriptionActive) ==>
                && !timerRunning && speechRecognizer == null
                && !udpReceiver.listenerActive && !udpReceiver.isReceiving
                && (old(speechRecognizer) != null ==>
                      && old(speechRecognizer).isUserStopping
                      && old(speechRecognizer).request.None? && !old(speechRecognizer).hasTask)
                && fullCaptionText == "" && captionLines == []
                && (devicePresent ==> textBlockIds == [] && blockTexts == [])
                && (!devicePresent ==> textBlockIds == old(textBlockIds) && blockTexts == old(blockTexts))
      ensures !isTranscriptionActive
      ensures latencyMeasurements == old(latencyMeasurements)
    {
      if !isTranscriptionActive {
        return;
      }
      isTranscriptionActive := false;
      timerRunning := false;
      udpReceiver.StopListening();
      if speechRecognizer != null {
        var _, _ := speechRecognizer.StopTranscribing();
      }
      speechRecognizer := null;
      fullCaptionText := "";
      captionLines := [];
      WrapBlank("", CharsPerLine);
      if devicePresent {
        textBlockIds := [];
        blockTexts := [];
      }
    }
  }
}

=== FILE: caption_latency.dfy ===
/** The display-latency history both view controllers keep: `recordLatency` appends a
    measurement, reports statistics over the list and trims it to the last 100. */
module CaptionLatency {
  import opened Wrappers
  import opened Correlator

  /** Most display-latency measurements kept. */
  const MaxLatencyMeasurements: nat := 100

  /** The display latency in milliseconds between two `CFAbsoluteTimeGetCurrent`
      readings in seconds. */
  function LatencyMs(start: real, end: real): real
  {
    (end - start) * 1000.0
  }

  /** What `recordLatency` and the stop summary report: count, mean, minimum and maximum,
      and the population variance whose square root is the standard deviation shown. */
  datatype LatencyReport = LatencyReport(stats: Stats, variance: real)

  /** The report over a measurement list; there is none for an empty list. The mean lies
      between minimum and maximum and the variance is never negative (so the standard
      deviation exists); a list whose every entry equals the mean has variance 0. */
  function Report(values: seq<real>): (r: Option<LatencyReport>)
    ensures r.Some? <==> values != []
    ensures r.Some? ==>
              && r.value.stats.count == |values|
              && r.value.stats.min <= r.value.stats.mean <= r.value.stats.max
              && r.value.variance >= 0.0
              && ((forall i :: 0 <= i < |values| ==> values[i] == r.value.stats.mean) ==> r.value.variance == 0.0)
  {
    if values == [] then None
    else
      var stats := Summarize(values).value;
      MeanBetweenMinAndMax(values);
      VarianceBounds(values, stats.mean);
      Some(LatencyReport(stats, Variance(values, stats.mean)))
  }
}

=== FILE: caption_vuzix.dfy ===
/** The VuzixConnection `ViewController`: the same caption display as the
    EyeTunesFullConnection one, fed by an on-phone recognizer, and a stop that prints a
    latency summary and the final transcript. The recognizer itself is not part of this
    model: whether it could be created is a parameter and its transcript is handed in. */
module VuzixDisplay {
  import opened Wrappers
  import opened TextWords
  import opened CaptionWrap
  import opened Correlator
  import opened CaptionLatency

  class ViewController {
    var isTranscriptionActive: bool
    /** Ids of the text blocks on the canvas, and the text each of them shows. */
    var textBlockIds: seq<int>
    var blockTexts: seq<string>
    var captionLines: seq<string>
    var fullCaptionText: string
    var lastTranscriptLength: int
    var latencyMeasurements: seq<real>
    /** Whether the 0.3 s refresh timer is scheduled, and whether a recognizer exists. */
    var timerRunning: bool
    var hasRecognizer: bool

    /** At most two text blocks, each showing at most one caption line's worth of text;
        the caption lines are always the wrapped full caption; the latency history holds
        at most 100 measurements. */
    predicate Valid()
      reads this
    {
      && |textBlockIds| <= MaxVisibleLines
      && |blockTexts| == |textBlockIds|
      && LinesFit(blockTexts)
      && captionLines == Wrap(fullCaptionText, CharsPerLine)
      && |latencyMeasurements| <= MaxLatencyMeasurements
    }

    constructor ()
      ensures Valid()
      ensures !isTranscriptionActive && !timerRunning && !hasRecognizer
      ensures textBlockIds == [] && fullCaptionText == "" && latencyMeasurements == []
      ensures lastTranscriptLength == 0
    {
      isTranscriptionActive := false;
      textBlockIds := [];
      blockTexts := [];
      captionLines := [];
      fullCaptionText := "";
      lastTranscriptLength := 0;
      latencyMeasurements := [];
      timerRunning := false;
      hasRecognizer := false;
      WrapBlank("", CharsPerLine);
    }

    /** `startLiveTranscription` with its canvas set-up: ignored while a session is
        active; without a connected device (`deviceConnected`) or canvas control
        (`controlGranted`) the error path leaves the session inactive. Otherwise the session
        becomes active and `createCaptionTextBlocks` keeps the ids the canvas returned for
        its `maxVisibleLines` creation attempts (`created`), each block showing nothing. */
    method StartLiveTranscription(deviceConnected: bool, controlGranted: bool, created: seq<Option<int>>)
      requires Valid() && |created| == MaxVisibleLines
      modifies this
      ensures Valid()
      ensures old(isTranscriptionActive) ==>
                isTranscriptionActive && textBlockIds == old(textBlockIds) && blockTexts == old(blockTexts)
      ensures !old(isTranscriptionActive) && !(deviceConnected && controlGranted) ==>
                !isTranscriptionActive && textBlockIds == old(textBlockIds) && blockTexts == old(blockTexts)
      ensures !old(isTranscriptionActive) && deviceConnected && controlGranted ==>
                && isTranscriptionActive
                && textBlockIds == CreatedIds(created)
                && |blockTexts| == |textBlockIds|
                && (forall k :: 0 <= k < |blockTexts| ==> blockTexts[k] == "")
      ensures fullCaptionText == old(fullCaptionText) && captionLines == old(captionLines)
      ensures latencyMeasurements == old(latencyMeasurements) && timerRunning == old(timerRunning)
      ensures hasRecognizer == old(hasRecognizer) && lastTranscriptLength == old(lastTranscriptLength)
    {
      if isTranscriptionActive {
        return;
      }
      if !deviceConnected || !controlGranted {
        isTranscriptionActive := false;
        return;
      }
      isTranscriptionActive := true;
      var ids := CreateTextBlocks(created);
      textBlockIds := ids;
      blockTexts := seq(|ids|, _ => "");
    }

    /** `startSpeechRecognition`: nothing unless a session is active. A recognizer that
        cannot be created (`recognizerCreated` false) ends the session through the error
        path; otherwise it is kept, started, and the refresh timer starts. */
    method StartSpeechRecognition(recognizerCreated: bool)
      requires Valid()
      modifies this
      ensures Valid()
      ensures !old(isTranscriptionActive) ==>
                !isTranscriptionActive && hasRecognizer == old(hasRecognizer) && timerRunning == old(timerRunning)
      ensures old(isTranscriptionActive) && !recognizerCreated ==>
                !isTranscriptionActive && hasRecognizer == old(hasRecognizer) && timerRunning == old(timerRunning)
      ensures old(isTranscriptionActive) && recognizerCreated ==>
                isTranscriptionActive && hasRecognizer && timerRunning
      ensures textBlockIds == old(textBlockIds) && blockTexts == old(blockTexts)
      ensures fullCaptionText == old(fullCaptionText) && latencyMeasurements == old(latencyMeasurements)
    {
      if !isTranscriptionActive {
        return;
      }
      if !recognizerCreated {
        isTranscriptionActive := false;
        return;
      }
      hasRecognizer := true;
      timerRunning := true;
    }

    /** What `updateCaptionDisplay` does with `transcript`: only with a device present, an
        active session, a non-empty transcript, at least one text block and a transcript
        longer than the one shown does anything change. Then the full caption becomes the
        transcript, the caption lines its wrapping at 35 characters, the blocks show the
        last two of them, and the commit's latency in milliseconds is recorded and
        reported; otherwise the caption, the blocks and the history stay as they were. */
    twostate predicate CaptionUpdated(transcript: string, devicePresent: bool, displayStartTime: real,
                                      displayEndTime: real, new report: Option<LatencyReport>)
      reads this
    {
      var shows := devicePresent && old(isTranscriptionActive) && transcript != []
                   && old(textBlockIds) != [] && |transcript| > |old(fullCaptionText)|;
      && (shows ==>
            && fullCaptionText == transcript
            && captionLines == Wrap(transcript, CharsPerLine)
            && |blockTexts| == |textBlockIds| && ShowsLines(blockTexts, captionLines)
            && var latency := LatencyMs(displayStartTime, displayEndTime);
               && latencyMeasurements == Push(old(latencyMeasurements), latency, MaxLatencyMeasurements)
               && report == Report(old(latencyMeasurements) + [latency]))
      && (!shows ==>
            && fullCaptionText == old(fullCaptionText) && captionLines == old(captionLines)
            && blockTexts == old(blockTexts) && latencyMeasurements == old(latencyMeasurements)
            && report.None?)
    }

    /** One firing of the refresh timer: without an active session and a recognizer the
        timer stops itself; otherwise the recognizer's current `transcript` goes to
        `updateCaptionDisplay`. */
    method Tick(transcript: string, devicePresent: bool, displayStartTime: real, displayEndTime: real)
      returns (report: Option<LatencyReport>)
      requires Valid()
      modifies this
      ensures Valid()
      ensures !old(isTranscriptionActive) || !old(hasRecognizer) ==>
                && !timerRunning && report.None?
                && fullCaptionText == old(fullCaptionText) && captionLines == old(captionLines)
                && blockTexts == old(blockTexts) && latencyMeasurements == old(latencyMeasurements)
      ensures textBlockIds == old(textBlockIds) && lastTranscriptLength == old(lastTranscriptLength)
      ensures isTranscriptionActive == old(isTranscriptionActive) && hasRecognizer == old(hasRecognizer)
      ensures old(isTranscriptionActive) && old(hasRecognizer) ==>
                && CaptionUpdated(transcript, devicePresent, displayStartTime, displayEndTime, report)
                && timerRunning == old(timerRunning)
      ensures |old(fullCaptionText)| <= |fullCaptionText|
    {
      if !isTranscriptionActive || !hasRecognizer {
        timerRunning := false;
        report := None;
        return;
      }
      report := UpdateCaptionDisplay(transcript, devicePresent, displayStartTime, displayEndTime);
    }

    /** `updateCaptionDisplay`: only with a device present, an active session, a
        non-empty transcript, at least one text block and a transcript longer than the one
        shown does anything change. Then the full caption becomes the transcript, the
        caption lines its wrapping at 35 characters, block `k` shows line `k` of the last
        two lines (or nothing), and the commit's latency in milliseconds is recorded. */
    method UpdateCaptionDisplay(transcript: string, devicePresent: bool, displayStartTime: real, displayEndTime: real)
      returns (report: Option<LatencyReport>)
      requires Valid()
      modifies this
      ensures Valid()
      ensures CaptionUpdated(transcript, devicePresent, displayStartTime, displayEndTime, report)
      // the shown caption only ever grows
      ensures fullCaptionText != old(fullCaptionText) ==> |fullCaptionText| > |old(fullCaptionText)|
      ensures |old(fullCaptionText)| <= |fullCaptionText|
      ensures isTranscriptionActive == old(isTranscriptionActive) && textBlockIds == old(textBlockIds)
      ensures timerRunning == old(timerRunning) && hasRecognizer == old(hasRecognizer)
      ensures lastTranscriptLength == old(lastTranscriptLength)
    {
      report := None;
      if !devicePresent || !isTranscriptionActive || transcript == [] || textBlockIds == [] {
        return;
      }
      if |transcript| <= |fullCaptionText| {
        return;
      }
      ShowCaption(transcript);
      var latency := LatencyMs(displayStartTime, displayEndTime);
      var r := RecordLatency(latency);
      report := Some(r);
    }

    /** The display part of `updateCaptionDisplay` once its guards passed: the full
        caption becomes `transcript`, the caption lines its wrapping, and each text block
        shows its visible line. */
    method ShowCaption(transcript: string)
      requires Valid()
      modifies this
      ensures Valid()
      ensures fullCaptionText == transcript && captionLines == Wrap(transcript, CharsPerLine)
      ensures |blockTexts| == |textBlockIds| && ShowsLines(blockTexts, captionLines)
      ensures latencyMeasurements == old(latencyMeasurements)
      ensures isTranscriptionActive == old(isTranscriptionActive) && textBlockIds == old(textBlockIds)
      ensures timerRunning == old(timerRunning) && hasRecognizer == old(hasRecognizer) && lastTranscriptLength == old(lastTranscriptLength)
    {
      var lines, texts := LayoutCaption(transcript, |textBlockIds|);
      fullCaptionText := transcript;
      captionLines := lines;
      blockTexts := texts;
    }

    /** `recordLatency`: the measurement is appended, the statistics are taken over the
        list including it, and only then is the oldest measurement dropped when there are
        more than 100. */
    method RecordLatency(latency: real) returns (report: LatencyReport)
      requires |latencyMeasurements| <= MaxLatencyMeasurements
      modifies this
      ensures Some(report) == Report(old(latencyMeasurements) + [latency])
      ensures report.stats.count == |old(latencyMeasurements)| + 1
      ensures latencyMeasurements == Push(old(latencyMeasurements), latency, MaxLatencyMeasurements)
      ensures |latencyMeasurements| <= MaxLatencyMeasurements
      ensures isTranscriptionActive == old(isTranscriptionActive) && textBlockIds == old(textBlockIds)
      ensures blockTexts == old(blockTexts) && captionLines == old(captionLines)
      ensures fullCaptionText == old(fullCaptionText) && timerRunning == old(timerRunning)
      ensures hasRecognizer == old(hasRecognizer) && lastTranscriptLength == old(lastTranscriptLength)
    {
      latencyMeasurements := latencyMeasurements + [latency];
      report := Report(latencyMeasurements).value;
      if |latencyMeasurements| > MaxLatencyMeasurements {
        latencyMeasurements := latencyMeasurements[1..];
      }
    }

    /** `stopLiveTranscription`: a no-op unless a session is active. Otherwise the
        session and its timer stop, the recognizer is dropped, and the caption text, lines,
        transcript length and latency history are cleared; with a device present the text
        blocks are removed. The summary reported is taken over the history before it was
        cleared and exists only when that history is non-empty; the final transcript is
        logged only after a summary and only when the caption is not empty. */
    method StopLiveTranscription(devicePresent: bool)
      returns (summary: Option<LatencyReport>, transcriptLog: Option<string>)
      requires Valid()
      modifies this
      ensures Valid()
      ensures !old(isTranscriptionActive) ==>
                && summary.None? && transcriptLog.None?
                && timerRunning == old(timerRunning) && hasRecognizer == old(hasRecognizer)
                && fullCaptionText == old(fullCaptionText) && textBlockIds == old(textBlockIds)
                && blockTexts == old(blockTexts) && latencyMeasurements == old(latencyMeasurements)
      ensures old(isTranscriptionActive) ==>
                && summary == Report(old(latencyMeasurements))
                && (transcriptLog.Some? <==> old(latencyMeasurements) != [] && old(fullCaptionText) != [])
                && (transcriptLog.Some? ==> transcriptLog.value == old(fullCaptionText))
                && !timerRunning && !hasRecognizer
                && fullCaptionText == "" && captionLines == [] && lastTranscriptLength == 0
                && latencyMeasurements == []
                && (devicePresent ==> textBlockIds == [] && blockTexts == [])
                && (!devicePresent ==> textBlockIds == old(textBlockIds) && blockTexts == old(blockTexts))
      ensures !isTranscriptionActive
    {
      summary := None;
      transcriptLog := None;
      if !isTranscriptionActive {
        return;
      }
      isTranscriptionActive := false;
      timerRunning := false;
      var measurements := latencyMeasurements;
      var caption := fullCaptionText;
      hasRecognizer := false;
      fullCaptionText := "";
      captionLines := [];
      WrapBlank("", CharsPerLine);
      lastTranscriptLength := 0;
      latencyMeasurements := [];
      if devicePresent {
        textBlockIds := [];
        blockTexts := [];
      }
      if measurements == [] {
        return;
      }
      summary := Report(measurements);
      if caption != [] {
        transcriptLog := Some(caption);
      }
    }
  }
}

=== FILE: caption_wrap.dfy ===
/** `wrapTextIntoLines` and the visible-line selection of `updateCaptionDisplay`, which
    the EyeTunesFullConnection and VuzixConnection view controllers carry as identical
    copies. */
module CaptionWrap {
  import opened TextWords
  import opened Seqs
  import opened Wrappers

  /** Number of text blocks on the glasses (`maxVisibleLines`). */
  const MaxVisibleLines: nat := 2

  /** Characters per caption line (`charsPerLine`). */
  const CharsPerLine: nat := 35

  /** The loop state of the wrapper: finished lines and the line being filled. */
  datatype WrapState = WrapState(lines: seq<string>, current: string)

  /** The pieces of exactly `max` characters cut from the front of an over-long word
      while more than `max` characters remain. */
  function Chunks(w: string, max: nat): seq<string>
    requires max >= 1
    decreases |w|
  {
    if |w| > max then [w[..max]] + Chunks(w[max..], max) else []
  }

  /** What is left of a word once its chunks are cut off. */
  function Remainder(w: string, max: nat): string
    requires max >= 1
    decreases |w|
  {
    if |w| > max then Remainder(w[max..], max) else w
  }

  /** The line being filled with the word appended, after a space unless the line is
      empty. */
  function JoinWord(current: string, word: string): string
  {
    if current == [] then word else current + " " + word
  }

  /** One word of the loop: extend the current line when the word fits after a space;
      otherwise close the current line, and either start a new line with the word or,
      when the word alone is too long, emit its chunks and keep the remainder. */
  function Step(st: WrapState, word: string, max: nat): WrapState
    requires max >= 1
  {
    var testLine := JoinWord(st.current, word);
    if |testLine| <= max then WrapState(st.lines, testLine)
    else
      var closed := Finish(st);
      if |word| > max then WrapState(closed + Chunks(word, max), Remainder(word, max))
      else WrapState(closed, word)
  }

  /** The loop over the remaining words, from state `st`. */
  function WrapFrom(st: WrapState, words: seq<string>, max: nat): WrapState
    requires max >= 1
    decreases |words|
  {
    if words == [] then st else WrapFrom(Step(st, words[0], max), words[1..], max)
  }

  /** The final line is added when it is not empty. */
  function Finish(st: WrapState): seq<string>
  {
    if st.current != [] then st.lines + [st.current] else st.lines
  }

  /** The lines `wrapTextIntoLines(text, maxCharsPerLine: max)` returns. */
  function Wrap(text: string, max: nat): seq<string>
    requires max >= 1
  {
    Finish(WrapFrom(WrapState([], ""), Split(text), max))
  }

  /** `wrapTextIntoLines`: the word loop with the inner chunking loop, proved to compute
      `Wrap`. A `maxCharsPerLine` below 1 makes the source loop forever (an empty prefix
      never shortens the word), so callers must pass at least 1; both call sites pass 35. */
  method WrapTextIntoLines(text: string, maxCharsPerLine: nat) returns (lines: seq<string>)
    requires maxCharsPerLine >= 1
    ensures lines == Wrap(text, maxCharsPerLine)
  {
    var max := maxCharsPerLine;
    lines := [];
    var currentLine := "";
    var words := Split(text);
    for k := 0 to |words|
      invariant WrapFrom(WrapState(lines, currentLine), words[k..], max)
             == WrapFrom(WrapState([], ""), words, max)
    {
      var wordStr := words[k];
      ghost var before := WrapState(lines, currentLine);
      assert words[k..] == [wordStr] + words[k + 1..];
      var testLine := if currentLine == [] then wordStr else currentLine + " " + wordStr;
      if |testLine| <= max {
        currentLine := testLine;
      } else {
        if currentLine != [] {
          lines := lines + [currentLine];
        }
        if |wordStr| > max {
          ghost var closed := lines;
          var remainingWord := wordStr;
          while |remainingWord| > max
            invariant lines + Chunks(remainingWord, max) == closed + Chunks(wordStr, max)
            invariant Remainder(remainingWord, max) == Remainder(wordStr, max)
            decreases |remainingWord|
          {
            var chunk := remainingWord[..max];
            lines := lines + [chunk];
            remainingWord := remainingWord[max..];
          }
          currentLine := remainingWord;
        } else {
          currentLine := wordStr;
        }
      }
      assert WrapState(lines, currentLine) == Step(before, wordStr, max);
    }
    if currentLine != [] {
      lines := lines + [currentLine];
    }
  }

  /** Every chunk of an over-long word has exactly `max` characters, the remainder keeps
      between 1 and `max` of them, and together they spell the word. */
  lemma {:induction false} ChunksExact(w: string, max: nat)
    requires max >= 1 && |w| > max
    ensures forall i :: 0 <= i < |Chunks(w, max)| ==> |Chunks(w, max)[i]| == max
    ensures 1 <= |Remainder(w, max)| <= max
    ensures Concat(Chunks(w, max)) + Remainder(w, max) == w
    decreases |w|
  {
    var rest := w[max..];
    if |rest| > max {
      ChunksExact(rest, max);
    }
    ChunkSpell(w, max);
  }

  lemma {:induction false} ChunkSpell(w: string, max: nat)
    requires max >= 1
    ensures Concat(Chunks(w, max)) + Remainder(w, max) == w
    ensures forall i :: 0 <= i < |Chunks(w, max)| ==> |Chunks(w, max)[i]| == max
    ensures |Remainder(w, max)| <= max
    ensures w != [] ==> Remainder(w, max) != []
    decreases |w|
  {
    if |w| > max {
      ChunkSpell(w[max..], max);
      assert w == w[..max] + w[max..];
    }
  }

  /** What the wrapper keeps true of its state: every finished line is non-empty and at
      most `max` long, and so is the line being filled (which is empty only before the
      first word). */
  predicate GoodState(st: WrapState, max: nat)
  {
    && (forall i :: 0 <= i < |st.lines| ==> st.lines[i] != [] && |st.lines[i]| <= max)
    && |st.current| <= max
  }

  lemma {:induction false} FinishSpaces(st: WrapState)
    ensures RemoveSpaces(Concat(Finish(st)))
         == RemoveSpaces(Concat(st.lines)) + RemoveSpaces(st.current)
  {
    if st.current != [] {
      ConcatAppend(st.lines, [st.current]);
      RemoveSpacesAppend(Concat(st.lines), st.current);
      assert Concat([st.current]) == st.current;
    }
  }

  lemma {:induction false} StepGoodState(st: WrapState, word: string, max: nat)
    requires max >= 1 && GoodState(st, max) && word != []
    ensures GoodState(Step(st, word, max), max)
  {
    ChunkSpell(word, max);
  }

  lemma {:induction false} SpacedJoin(a: string, word: string)
    requires a != []
    ensures RemoveSpaces(a + " " + word) == RemoveSpaces(a) + RemoveSpaces(word)
  {
    RemoveSpacesAppend(a + " ", word);
    RemoveSpacesAppend(a, " ");
  }

  lemma {:induction false} ChunksConcat(w: string, max: nat)
    requires max >= 1
    ensures Concat(Chunks(w, max)) + Remainder(w, max) == w
  {
    ChunkSpell(w, max);
  }

  lemma {:induction false} JoinSplitWord(a: string, c: string, rem: string, word: string)
    requires c + rem == word
    ensures RemoveSpaces(a + c) + RemoveSpaces(rem) == RemoveSpaces(a) + RemoveSpaces(word)
  {
    RemoveSpacesAppend(a, c);
    RemoveSpacesAppend(c, rem);
  }

  lemma {:induction false} ChunkedJoin(closed: seq<string>, word: string, max: nat)
    requires max >= 1
    ensures RemoveSpaces(Concat(closed + Chunks(word, max))) + RemoveSpaces(Remainder(word, max))
         == RemoveSpaces(Concat(closed)) + RemoveSpaces(word)
  {
    var cs := Chunks(word, max);
    ChunksConcat(word, max);
    ConcatAppend(closed, cs);
    JoinSplitWord(Concat(closed), Concat(cs), Remainder(word, max), word);
  }

  /** The word joins the current line: its characters follow the line's. */
  lemma {:induction false} ExtendText(st: WrapState, word: string)
    ensures RemoveSpaces(Concat(Finish(WrapState(st.lines, JoinWord(st.current, word)))))
         == RemoveSpaces(Concat(Finish(st))) + RemoveSpaces(word)
  {
    var line := JoinWord(st.current, word);
    var a := RemoveSpaces(Concat(st.lines));
    var b := RemoveSpaces(st.current);
    var c := RemoveSpaces(word);
    assert RemoveSpaces(Concat(Finish(WrapState(st.lines, line)))) == a + RemoveSpaces(line) by {
      FinishSpaces(WrapState(st.lines, line));
    }
    assert RemoveSpaces(Concat(Finish(st))) == a + b by {
      FinishSpaces(st);
    }
    assert RemoveSpaces(line) == b + c by {
      if st.current != [] {
        SpacedJoin(st.current, word);
      } else {
        assert b == [];
      }
    }
    assert a + (b + c) == (a + b) + c;
  }

  /** The word is cut into chunks after the closed lines. */
  lemma {:induction false} ChunkText(st: WrapState, word: string, max: nat)
    requires max >= 1
    ensures RemoveSpaces(Concat(Finish(WrapState(Finish(st) + Chunks(word, max), Remainder(word, max)))))
         == RemoveSpaces(Concat(Finish(st))) + RemoveSpaces(word)
  {
    FinishSpaces(WrapState(Finish(st) + Chunks(word, max), Remainder(word, max)));
    ChunkedJoin(Finish(st), word, max);
  }

  lemma {:induction false} StepText(st: WrapState, word: string, max: nat)
    requires max >= 1
    ensures RemoveSpaces(Concat(Finish(Step(st, word, max))))
         == RemoveSpaces(Concat(Finish(st))) + RemoveSpaces(word)
  {
    if |JoinWord(st.current, word)| <= max {
      ExtendText(st, word);
    } else if |word| > max {
      ChunkText(st, word, max);
    } else {
      FinishSpaces(WrapState(Finish(st), word));
    }
  }

  /** The wrapper's loop keeps its state good. */
  lemma {:induction false} WrapFromGood(st: WrapState, words: seq<string>, max: nat)
    requires max >= 1 && GoodState(st, max)
    requires forall i :: 0 <= i < |words| ==> words[i] != []
    ensures GoodState(WrapFrom(st, words, max), max)
    decreases |words|
  {
    if words != [] {
      StepGoodState(st, words[0], max);
      WrapFromGood(Step(st, words[0], max), words[1..], max);
    }
  }

  /** The wrapper's loop adds each word's non-space characters, in order. */
  lemma {:induction false} WrapFromText(st: WrapState, words: seq<string>, max: nat)
    requires max >= 1
    ensures RemoveSpaces(Concat(Finish(WrapFrom(st, words, max))))
         == RemoveSpaces(Concat(Finish(st))) + RemoveSpaces(Concat(words))
    decreases |words|
  {
    if words != [] {
      var next := Step(st, words[0], max);
      var rest := words[1..];
      var a := RemoveSpaces(Concat(Finish(st)));
      var b := RemoveSpaces(words[0]);
      var c := RemoveSpaces(Concat(rest));
      assert WrapFrom(st, words, max) == WrapFrom(next, rest, max);
      assert RemoveSpaces(Concat(Finish(next))) == a + b by {
        StepText(st, words[0], max);
      }
      assert RemoveSpaces(Concat(Finish(WrapFrom(next, rest, max)))) == (a + b) + c by {
        WrapFromText(next, rest, max);
      }
      assert RemoveSpaces(Concat(words)) == b + c by {
        assert Concat(words) == words[0] + Concat(rest);
        RemoveSpacesAppend(words[0], Concat(rest));
      }
      assert (a + b) + c == a + (b + c);
    }
  }

  /** No wrapped line is empty and none is longer than `max`. */
  lemma {:induction false} WrapLinesBounded(text: string, max: nat)
    requires max >= 1
    ensures forall i :: 0 <= i < |Wrap(text, max)| ==>
              Wrap(text, max)[i] != [] && |Wrap(text, max)[i]| <= max
  {
    WrapFromGood(WrapState([], ""), Split(text), max);
  }

  /** Wrapping neither loses, adds nor reorders a non-space character: deleting the
      spaces from the joined lines gives the text with its spaces deleted. */
  lemma {:induction false} WrapPreservesText(text: string, max: nat)
    requires max >= 1
    ensures RemoveSpaces(Concat(Wrap(text, max))) == RemoveSpaces(text)
  {
    var words := Split(text);
    WrapFromText(WrapState([], ""), words, max);
    ConcatSplit(text);
    RemoveSpacesOfNoSpace(Concat(words));
  }

  /** A text wraps to no lines at all exactly when it is empty or all spaces. */
  lemma {:induction false} WrapBlank(text: string, max: nat)
    requires max >= 1
    ensures Wrap(text, max) == [] <==> RemoveSpaces(text) == []
  {
    SplitBlank(text);
    WrapPreservesText(text, max);
  }

  /** The lines on the glasses: the last `MaxVisibleLines` wrapped lines. */
  function VisibleLines(lines: seq<string>): (v: seq<string>)
    ensures |v| <= MaxVisibleLines && |v| <= |lines|
    ensures v == lines[|lines| - |v|..]
    ensures |lines| >= MaxVisibleLines ==> |v| == MaxVisibleLines
  {
    Suffix(lines, MaxVisibleLines)
  }

  /** The text block `k` shows: its visible line, or the empty string past the end. */
  function BlockText(visible: seq<string>, k: nat): string
  {
    if k < |visible| then visible[k] else ""
  }

  /** Every one of `texts` fits one caption line. */
  predicate LinesFit(texts: seq<string>)
  {
    forall k :: 0 <= k < |texts| ==> |texts[k]| <= CharsPerLine
  }

  /** When every line fits, so does whatever a text block shows of the last ones. */
  lemma BlocksFit(lines: seq<string>, k: nat)
    requires LinesFit(lines)
    ensures |BlockText(VisibleLines(lines), k)| <= CharsPerLine
  {
    var visible := VisibleLines(lines);
    if k < |visible| {
      var j := |lines| - |visible| + k;
      assert visible[k] == lines[j];
      assert |lines[j]| <= CharsPerLine;
    }
  }

  /** Every text block shows at most `CharsPerLine` characters: a visible line of the
      wrapped transcript or nothing. */
  lemma WrappedBlocksFit(text: string, k: nat)
    ensures |BlockText(VisibleLines(Wrap(text, CharsPerLine)), k)| <= CharsPerLine
  {
    WrapLinesBounded(text, CharsPerLine);
    assert LinesFit(Wrap(text, CharsPerLine));
    BlocksFit(Wrap(text, CharsPerLine), k);
  }

  /** The text blocks show the visible lines of `lines`, block by block. */
  predicate ShowsLines(texts: seq<string>, lines: seq<string>)
  {
    forall k :: 0 <= k < |texts| ==> texts[k] == BlockText(VisibleLines(lines), k)
  }

  /** Text blocks showing the last of lines that fit one caption line each fit one too. */
  lemma ShownLinesFit(texts: seq<string>, lines: seq<string>)
    requires LinesFit(lines) && ShowsLines(texts, lines)
    ensures LinesFit(texts)
  {
    forall k | 0 <= k < |texts|
      ensures |texts[k]| <= CharsPerLine
    {
      BlocksFit(lines, k);
    }
  }

  /** The `updateText` loop over the text blocks: block `k` of `count` gets the visible
      line `k`, or the empty string when there are fewer visible lines. */
  method FillTextBlocks(count: nat, visible: seq<string>) returns (texts: seq<string>)
    ensures |texts| == count
    ensures forall k :: 0 <= k < count ==> texts[k] == BlockText(visible, k)
  {
    texts := [];
    for index := 0 to count
      invariant |texts| == index
      invariant forall k :: 0 <= k < index ==> texts[k] == BlockText(visible, k)
    {
      var lineText := if index < |visible| then visible[index] else "";
      texts := texts + [lineText];
    }
  }

  /** The ids `createCaptionTextBlocks` keeps: those the canvas returned, in creation
      order; a block it failed to create leaves no id. */
  function CreatedIds(created: seq<Option<int>>): (ids: seq<int>)
    ensures |ids| <= |created|
    ensures forall x :: x in ids <==> Some(x) in created
  {
    if created == [] then []
    else
      var front := created[..|created| - 1];
      var last := created[|created| - 1];
      assert created == front + [last];
      CreatedIds(front) + (if last.Some? then [last.value] else [])
  }

  /** The display step of `updateCaptionDisplay`: the transcript wrapped at 35 characters,
      and what each of `blocks` text blocks shows of the last two lines; each block's text
      fits one caption line. */
  method LayoutCaption(transcript: string, blocks: nat) returns (lines: seq<string>, texts: seq<string>)
    ensures lines == Wrap(transcript, CharsPerLine)
    ensures |texts| == blocks && ShowsLines(texts, lines)
    ensures LinesFit(texts)
  {
    lines := WrapTextIntoLines(transcript, CharsPerLine);
    texts := FillTextBlocks(blocks, VisibleLines(lines));
    WrapLinesBounded(transcript, CharsPerLine);
    ShownLinesFit(texts, lines);
  }

  /** `createCaptionTextBlocks`' loop over the `maxVisibleLines` creation attempts, whose
      answers are `created`. */
  method CreateTextBlocks(created: seq<Option<int>>) returns (ids: seq<int>)
    ensures ids == CreatedIds(created)
  {
    ids := [];
    for i := 0 to |created|
      invariant ids == CreatedIds(created[..i])
    {
      assert created[..i + 1][..i] == created[..i];
      if created[i].Some? {
        ids := ids + [created[i].value];
      }
    }
    assert created[..|created|] == created;
  }
}

=== FILE: codec.dfy ===
/** The ES8388 audio codec driver: volume clamps and register bit fields as pure
    functions, and the codec's register file as an object that the driver reads and writes
    over I2C. Each register either answers on the bus or does not (`failing`); a write to
    a register that answers stores the byte, a write to one that does not changes nothing,
    and every write attempted is logged in order. */
module Es8388 {
  import opened Wrappers
  import opened Bytes
  import opened ByteBits

  /** The registers this driver touches (their addresses come from the codec header,
      which is not part of this model). */
  datatype Register =
    | Control1 | Control2 | ChipPower | MasterMode | AdcPower | DacPower
    | AdcControl1 | AdcControl2 | AdcControl3 | AdcControl4 | AdcControl5
    | AdcControl8 | AdcControl9
    | DacControl1 | DacControl2 | DacControl3 | DacControl4 | DacControl5
    | DacControl16 | DacControl17 | DacControl20 | DacControl21 | DacControl23
    | DacControl24 | DacControl25 | DacControl26 | DacControl27

  /** `es_module_t`: which converters an operation applies to. */
  datatype Module = Adc | Dac | AdcDac | Line

  /** One register write attempted on the bus. */
  datatype BusWrite = BusWrite(reg: Register, val: Byte)

  /** `ES_MODE_SLAVE`, the master-mode register value for slave operation. */
  const SlaveMode: Byte := 0x00

  predicate HasAdc(mode: Module)
  {
    mode == Adc || mode == AdcDac
  }

  predicate HasDac(mode: Module)
  {
    mode == Dac || mode == AdcDac
  }

  // ---------- Volume ----------

  /** The requested attenuation, clamped to the codec's range of 0 to -96 dB. */
  function ClampDb(volumeDb: int): (db: int)
    ensures -96 <= db <= 0
    ensures -96 <= volumeDb <= 0 ==> db == volumeDb
  {
    if volumeDb < -96 then -96 else if volumeDb > 0 then 0 else volumeDb
  }

  /** The half-decibel digit: 5 or more rounds up to a half step. */
  function DotBit(dot: int): (b: int)
    ensures b == 0 || b == 1
  {
    if dot >= 5 then 1 else 0
  }

  /** The volume register value: the attenuation in half-decibel steps, which fits in
      [0, 193]. */
  function VolumeRegister(volumeDb: int, dot: int): (v: Byte)
    ensures v <= 193
  {
    2 * -ClampDb(volumeDb) + DotBit(dot)
  }

  /** The register value gives back the clamped whole decibels and the half step. */
  lemma VolumeRegisterDecodes(volumeDb: int, dot: int)
    ensures VolumeRegister(volumeDb, dot) / 2 == -ClampDb(volumeDb)
    ensures VolumeRegister(volumeDb, dot) % 2 == DotBit(dot)
  {
  }

  /** A quieter request (more negative decibels) never gives a smaller attenuation. */
  lemma VolumeRegisterMonotone(quieter: int, louder: int, dot: int)
    requires quieter <= louder
    ensures VolumeRegister(quieter, dot) >= VolumeRegister(louder, dot)
  {
    assert ClampDb(quieter) <= ClampDb(louder);
  }

  /** The writes of a volume change: the two ADC registers for the ADC modes, then the two
      DAC registers for the DAC modes. */
  function VolumeWrites(mode: Module, v: Byte): (ws: seq<BusWrite>)
    ensures |ws| == (if HasAdc(mode) then 2 else 0) + (if HasDac(mode) then 2 else 0)
  {
    (if HasAdc(mode) then [BusWrite(AdcControl8, v), BusWrite(AdcControl9, v)] else [])
    + (if HasDac(mode) then [BusWrite(DacControl5, v), BusWrite(DacControl4, v)] else [])
  }

  /** The voice volume level: the percentage clamped to [0, 100], divided by 3. */
  function VoiceLevel(volume: int): (v: int)
    ensures 0 <= v <= 33
    ensures volume <= 0 ==> v == 0
    ensures volume >= 100 ==> v == 33
    ensures 0 <= volume <= 100 ==> 3 * v <= volume < 3 * v + 3
  {
    var clamped := if volume < 0 then 0 else if volume > 100 then 100 else volume;
    clamped / 3
  }

  /** A louder request never gives a lower level. */
  lemma {:induction false} VoiceLevelMonotone(a: int, b: int)
    requires a <= b
    ensures VoiceLevel(a) <= VoiceLevel(b)
  {
    var ca := if a < 0 then 0 else if a > 100 then 100 else a;
    var cb := if b < 0 then 0 else if b > 100 then 100 else b;
    assert ca <= cb;
    assert 3 * VoiceLevel(a) <= ca && cb < 3 * VoiceLevel(b) + 3;
  }

  // ---------- Register bit fields ----------

  /** Which of the bits 0..7 are set in the masks the driver uses. */
  lemma MaskBits(i: nat)
    requires i < 8
    ensures Bit(0xFC, i) == (i >= 2)
    ensures Bit(0xF9, i) == (i == 0 || i >= 3)
    ensures Bit(0xE3, i) == (i < 2 || i >= 5)
    ensures Bit(0xC7, i) == (i < 3 || i >= 6)
    ensures Bit(0xFB, i) == (i != 2)
  {
    if i == 0 {
      assert !Bit(0xFC, 0) && Bit(0xF9, 0) && Bit(0xE3, 0) && Bit(0xC7, 0) && Bit(0xFB, 0);
    } else if i == 1 {
      assert !Bit(0xFC, 1) && !Bit(0xF9, 1) && Bit(0xE3, 1) && Bit(0xC7, 1) && Bit(0xFB, 1);
    } else if i == 2 {
      assert Bit(0xFC, 2) && !Bit(0xF9, 2) && !Bit(0xE3, 2) && Bit(0xC7, 2) && !Bit(0xFB, 2);
    } else if i == 3 {
      assert Bit(0xFC, 3) && Bit(0xF9, 3) && !Bit(0xE3, 3) && !Bit(0xC7, 3) && Bit(0xFB, 3);
    } else if i == 4 {
      assert Bit(0xFC, 4) && Bit(0xF9, 4) && !Bit(0xE3, 4) && !Bit(0xC7, 4) && Bit(0xFB, 4);
    } else if i == 5 {
      assert Bit(0xFC, 5) && Bit(0xF9, 5) && Bit(0xE3, 5) && !Bit(0xC7, 5) && Bit(0xFB, 5);
    } else if i == 6 {
      assert Bit(0xFC, 6) && Bit(0xF9, 6) && Bit(0xE3, 6) && Bit(0xC7, 6) && Bit(0xFB, 6);
    } else {
      assert Bit(0xFC, 7) && Bit(0xF9, 7) && Bit(0xE3, 7) && Bit(0xC7, 7) && Bit(0xFB, 7);
    }
  }

  /** The ADC format merge `(reg & 0xFC) | fmt`. */
  function AdcFormat(reg: Byte, fmt: Byte): Byte
  {
    OrByte(AndByte(reg, 0xFC), fmt)
  }

  /** The DAC format merge `(reg & 0xF9) | ((uint8_t)fmt << 1)`, cut to a byte. */
  function DacFormat(reg: Byte, fmt: Byte): Byte
  {
    OrByte(AndByte(reg, 0xF9), ShiftLeftByte(fmt, 1))
  }

  /** The ADC bit-length merge `(reg & 0xE3) | (uint8_t)(bits << 2)`. */
  function AdcBits(reg: Byte, bits: Byte): Byte
  {
    OrByte(AndByte(reg, 0xE3), ShiftLeftByte(bits, 2))
  }

  /** The DAC bit-length merge `(reg & 0xC7) | (uint8_t)(bits << 3)`. */
  function DacBits(reg: Byte, bits: Byte): Byte
  {
    OrByte(AndByte(reg, 0xC7), ShiftLeftByte(bits, 3))
  }

  /** The unmute step `r & 0xFB`, which clears bit 2 (the DAC mute); `UnmuteIsMask`
      shows the two agree. */
  function Unmute(reg: Byte): Byte
  {
    if reg % 8 >= 4 then reg - 4 else reg
  }

  /** The ADC format lands in bits 0..1; bits 2..7 keep the register's bits, to which a
      format above 3 would add its own. */
  lemma AdcFormatFields(reg: Byte, fmt: Byte)
    ensures forall i :: 0 <= i < 2 ==> Bit(AdcFormat(reg, fmt), i) == Bit(fmt, i)
    ensures forall i :: 2 <= i < 8 ==> Bit(AdcFormat(reg, fmt), i) == (Bit(reg, i) || Bit(fmt, i))
    ensures fmt < 4 ==> forall i :: 2 <= i < 8 ==> Bit(AdcFormat(reg, fmt), i) == Bit(reg, i)
  {
    forall i | 0 <= i < 8
      ensures Bit(AdcFormat(reg, fmt), i) == ((i >= 2 && Bit(reg, i)) || Bit(fmt, i))
      ensures fmt < 4 && i >= 2 ==> !Bit(fmt, i)
    {
      BitOfOr(AndByte(reg, 0xFC), fmt, i);
      BitOfAnd(reg, 0xFC, i);
      MaskBits(i);
      if fmt < 4 && i >= 2 {
        BitAboveWidth(fmt, 2, i);
      }
    }
  }

  /** The DAC format lands in bits 1..2; bit 0 and bits 3..7 are kept when the format fits
      two bits. */
  lemma DacFormatFields(reg: Byte, fmt: Byte)
    ensures forall i :: 1 <= i < 3 ==> Bit(DacFormat(reg, fmt), i) == Bit(fmt, i - 1)
    ensures fmt < 4 ==> forall i :: 0 <= i < 8 && !(1 <= i < 3) ==>
              Bit(DacFormat(reg, fmt), i) == Bit(reg, i)
  {
    forall i | 0 <= i < 8
      ensures 1 <= i < 3 ==> Bit(DacFormat(reg, fmt), i) == Bit(fmt, i - 1)
      ensures fmt < 4 && !(1 <= i < 3) ==> Bit(DacFormat(reg, fmt), i) == Bit(reg, i)
    {
      BitOfOr(AndByte(reg, 0xF9), ShiftLeftByte(fmt, 1), i);
      BitOfAnd(reg, 0xF9, i);
      BitOfShiftLeft(fmt, 1, i);
      MaskBits(i);
      if fmt < 4 && i >= 3 {
        BitAboveWidth(fmt, 2, i - 1);
      }
    }
  }

  /** The ADC bit length lands in bits 2..4; the other bits are kept when the length fits
      three bits. */
  lemma AdcBitsFields(reg: Byte, bits: Byte)
    ensures forall i :: 2 <= i < 5 ==> Bit(AdcBits(reg, bits), i) == Bit(bits, i - 2)
    ensures bits < 8 ==> forall i :: 0 <= i < 8 && !(2 <= i < 5) ==>
              Bit(AdcBits(reg, bits), i) == Bit(reg, i)
  {
    forall i | 0 <= i < 8
      ensures 2 <= i < 5 ==> Bit(AdcBits(reg, bits), i) == Bit(bits, i - 2)
      ensures bits < 8 && !(2 <= i < 5) ==> Bit(AdcBits(reg, bits), i) == Bit(reg, i)
    {
      BitOfOr(AndByte(reg, 0xE3), ShiftLeftByte(bits, 2), i);
      BitOfAnd(reg, 0xE3, i);
      BitOfShiftLeft(bits, 2, i);
      MaskBits(i);
      if bits < 8 && i >= 5 {
        BitAboveWidth(bits, 3, i - 2);
      }
    }
  }

  /** The DAC bit length lands in bits 3..5; the other bits are kept when the length fits
      three bits. */
  lemma DacBitsFields(reg: Byte, bits: Byte)
    ensures forall i :: 3 <= i < 6 ==> Bit(DacBits(reg, bits), i) == Bit(bits, i - 3)
    ensures bits < 8 ==> forall i :: 0 <= i < 8 && !(3 <= i < 6) ==>
              Bit(DacBits(reg, bits), i) == Bit(reg, i)
  {
    forall i | 0 <= i < 8
      ensures 3 <= i < 6 ==> Bit(DacBits(reg, bits), i) == Bit(bits, i - 3)
      ensures bits < 8 && !(3 <= i < 6) ==> Bit(DacBits(reg, bits), i) == Bit(reg, i)
    {
      BitOfOr(AndByte(reg, 0xC7), ShiftLeftByte(bits, 3), i);
      BitOfAnd(reg, 0xC7, i);
      BitOfShiftLeft(bits, 3, i);
      MaskBits(i);
      if bits < 8 && i >= 6 {
        BitAboveWidth(bits, 3, i - 3);
      }
    }
  }

  /** Bits 0..2 of `x` are those of `x % 8`, and bit `i >= 3` is bit `i - 3` of `x / 8`. */
  lemma {:induction false} BitBy8(x: nat, i: nat)
    ensures i < 3 ==> Bit(x, i) == Bit(x % 8, i)
    ensures i >= 3 ==> Bit(x, i) == Bit(x / 8, i - 3)
  {
    if i >= 3 {
      assert Bit(x, i) == Bit(x / 2, i - 1) == Bit(x / 2 / 2, i - 2);
      assert Bit(x / 2 / 2, i - 2) == Bit(x / 2 / 2 / 2, i - 3);
      assert x / 2 / 2 / 2 == x / 8;
    } else if i == 2 {
      assert Bit(x, 2) == Bit(x / 2, 1) == ((x / 2 / 2) % 2 == 1);
      assert Bit(x % 8, 2) == Bit(x % 8 / 2, 1) == ((x % 8 / 2 / 2) % 2 == 1);
    } else if i == 1 {
      assert Bit(x, 1) == ((x / 2) % 2 == 1);
      assert Bit(x % 8, 1) == ((x % 8 / 2) % 2 == 1);
    }
  }

  /** Unmuting clears bit 2 and keeps every other bit. */
  lemma {:induction false} UnmuteBit(reg: Byte, i: nat)
    ensures Bit(Unmute(reg), i) == (i != 2 && Bit(reg, i))
  {
    var u := Unmute(reg);
    assert u / 8 == reg / 8;
    BitBy8(u, i);
    BitBy8(reg, i);
    if i < 3 {
      var k := reg % 8;
      assert u % 8 == (if k >= 4 then k - 4 else k);
      assert k == 0 || k == 1 || k == 2 || k == 3 || k == 4 || k == 5 || k == 6 || k == 7;
    }
  }

  /** The arithmetic unmute is the driver's `r & 0xFB`. */
  lemma UnmuteIsMask(reg: Byte)
    ensures Unmute(reg) == AndByte(reg, 0xFB)
  {
    forall i | 0 <= i < 8
      ensures Bit(Unmute(reg), i) == Bit(AndByte(reg, 0xFB), i)
    {
      UnmuteBit(reg, i);
      BitOfAnd(reg, 0xFB, i);
      MaskBits(i);
    }
    BitsDetermine(Unmute(reg), AndByte(reg, 0xFB), 8);
  }

  /** Unmuting clears bit 2 and keeps every other bit; a second unmute changes nothing. */
  lemma UnmuteFields(reg: Byte)
    ensures !Bit(Unmute(reg), 2)
    ensures forall i :: 0 <= i < 8 && i != 2 ==> Bit(Unmute(reg), i) == Bit(reg, i)
    ensures Unmute(Unmute(reg)) == Unmute(reg)
  {
    forall i | 0 <= i < 8
      ensures Bit(Unmute(reg), i) == (i != 2 && Bit(reg, i))
      ensures Bit(Unmute(Unmute(reg)), i) == Bit(Unmute(reg), i)
    {
      UnmuteBit(reg, i);
      UnmuteBit(Unmute(reg), i);
    }
    BitsDetermine(Unmute(Unmute(reg)), Unmute(reg), 8);
  }

  /** `config_i2s` merges the format and then the bit length into one ADC register: with
      both fitting their fields, the format ends in bits 0..1, the length in bits 2..4 and
      bits 5..7 are the register's own. */
  lemma AdcControlFields(reg: Byte, fmt: Byte, bits: Byte)
    requires fmt < 4 && bits < 8
    ensures forall i :: 0 <= i < 2 ==> Bit(AdcBits(AdcFormat(reg, fmt), bits), i) == Bit(fmt, i)
    ensures forall i :: 2 <= i < 5 ==> Bit(AdcBits(AdcFormat(reg, fmt), bits), i) == Bit(bits, i - 2)
    ensures forall i :: 5 <= i < 8 ==> Bit(AdcBits(AdcFormat(reg, fmt), bits), i) == Bit(reg, i)
  {
    AdcFormatFields(reg, fmt);
    AdcBitsFields(AdcFormat(reg, fmt), bits);
  }

  /** Likewise for the DAC register: the format in bits 1..2, the length in bits 3..5, and
      bits 0, 6 and 7 the register's own. */
  lemma DacControlFields(reg: Byte, fmt: Byte, bits: Byte)
    requires fmt < 4 && bits < 8
    ensures forall i :: 1 <= i < 3 ==> Bit(DacBits(DacFormat(reg, fmt), bits), i) == Bit(fmt, i - 1)
    ensures forall i :: 3 <= i < 6 ==> Bit(DacBits(DacFormat(reg, fmt), bits), i) == Bit(bits, i - 3)
    ensures forall i :: 0 <= i < 8 && (i == 0 || i >= 6) ==>
              Bit(DacBits(DacFormat(reg, fmt), bits), i) == Bit(reg, i)
  {
    DacFormatFields(reg, fmt);
    DacBitsFields(DacFormat(reg, fmt), bits);
  }

  // ---------- Write sequences ----------

  /** The volume register values `es8388_init` asks for: 0 dB on the DAC, -24 dB on the
      ADC. */
  const InitDacVolume: Byte := 0
  const InitAdcVolume: Byte := 48

  /** Those are the register values of 0 dB and -24 dB. */
  lemma InitVolumes()
    ensures VolumeRegister(0, 0) == InitDacVolume
    ensures VolumeRegister(-24, 0) == InitAdcVolume
  {
    assert ClampDb(0) == 0 && ClampDb(-24) == -24 && DotBit(0) == 0;
  }

  /** The mute `es8388_init` starts with; it gives up when that write fails. */
  const InitMute: BusWrite := BusWrite(DacControl3, 0x04)

  /** The DAC configuration of `es8388_init`: slave mode, power, I2S setup, mixers, the DAC
      volume at 0 dB and the chosen outputs. */
  function InitDacWrites(output: Byte): seq<BusWrite>
  {
    [ BusWrite(Control2, 0x50), BusWrite(ChipPower, 0x00), BusWrite(MasterMode, SlaveMode),
      BusWrite(DacPower, 0xC0), BusWrite(Control1, 0x12),
      BusWrite(DacControl1, 0x18), BusWrite(DacControl2, 0x02),
      BusWrite(DacControl16, 0x00), BusWrite(DacControl17, 0x90),
      BusWrite(DacControl20, 0x90), BusWrite(DacControl21, 0x80),
      BusWrite(DacControl23, 0x00),
      BusWrite(DacControl5, InitDacVolume), BusWrite(DacControl4, InitDacVolume),
      BusWrite(DacPower, output) ]
  }

  /** The ADC configuration of `es8388_init`: the chosen input on ADCCONTROL2, the I2S
      format, the ADC volume at -24 dB and the ADC power-up. */
  function InitAdcWrites(input: Byte): seq<BusWrite>
  {
    [ BusWrite(AdcPower, 0xFF), BusWrite(AdcControl1, 0x88), BusWrite(AdcControl2, input),
      BusWrite(AdcControl3, 0x02), BusWrite(AdcControl4, 0x0D), BusWrite(AdcControl5, 0x02),
      BusWrite(AdcControl8, InitAdcVolume), BusWrite(AdcControl9, InitAdcVolume),
      BusWrite(AdcPower, 0x09) ]
  }

  /** Every write of `es8388_init` when its first one succeeds. */
  function InitWrites(output: Byte, input: Byte): seq<BusWrite>
  {
    [InitMute] + InitDacWrites(output) + InitAdcWrites(input)
  }

  /** The DAC set-up before the output is powered: every write of `InitDacWrites` but
      the last. */
  const DacPathWrites: seq<BusWrite> :=
    [ BusWrite(Control2, 0x50), BusWrite(ChipPower, 0x00), BusWrite(MasterMode, SlaveMode),
      BusWrite(DacPower, 0xC0), BusWrite(Control1, 0x12),
      BusWrite(DacControl1, 0x18), BusWrite(DacControl2, 0x02),
      BusWrite(DacControl16, 0x00), BusWrite(DacControl17, 0x90),
      BusWrite(DacControl20, 0x90), BusWrite(DacControl21, 0x80),
      BusWrite(DacControl23, 0x00),
      BusWrite(DacControl5, InitDacVolume), BusWrite(DacControl4, InitDacVolume) ]

  /** The DAC configuration is that set-up followed by the output power-up. */
  lemma InitDacSplit(output: Byte)
    ensures InitDacWrites(output) == DacPathWrites + [BusWrite(DacPower, output)]
  {
  }

  /** The DAC set-up appended one write (or one volume change) at a time. */
  lemma AppendDacPath(l: seq<BusWrite>)
    ensures l + [BusWrite(Control2, 0x50)] + [BusWrite(ChipPower, 0x00)] + [BusWrite(MasterMode, SlaveMode)]
            + [BusWrite(DacPower, 0xC0)] + [BusWrite(Control1, 0x12)]
            + [BusWrite(DacControl1, 0x18)] + [BusWrite(DacControl2, 0x02)]
            + [BusWrite(DacControl16, 0x00)] + [BusWrite(DacControl17, 0x90)]
            + [BusWrite(DacControl20, 0x90)] + [BusWrite(DacControl21, 0x80)]
            + [BusWrite(DacControl23, 0x00)] + VolumeWrites(Dac, InitDacVolume)
            == l + DacPathWrites
  {
    assert VolumeWrites(Dac, InitDacVolume) == [BusWrite(DacControl5, InitDacVolume), BusWrite(DacControl4, InitDacVolume)];
  }

  /** The ADC configuration appended one write (or one volume change) at a time. */
  lemma AppendInitAdc(l: seq<BusWrite>, input: Byte)
    ensures l + [BusWrite(AdcPower, 0xFF)] + [BusWrite(AdcControl1, 0x88)] + [BusWrite(AdcControl2, input)]
            + [BusWrite(AdcControl3, 0x02)] + [BusWrite(AdcControl4, 0x0D)]
            + [BusWrite(AdcControl5, 0x02)] + VolumeWrites(Adc, InitAdcVolume)
            + [BusWrite(AdcPower, 0x09)]
            == l + InitAdcWrites(input)
  {
    assert VolumeWrites(Adc, InitAdcVolume) == [BusWrite(AdcControl8, InitAdcVolume), BusWrite(AdcControl9, InitAdcVolume)];
  }

  /** The value `es8388_start` puts in DACCONTROL21 for a mode. */
  function Dac21Target(mode: Module): Byte
  {
    if mode == Line then 0xC0 else 0x80
  }

  /** The routing writes of `es8388_start`: the line-mode mixer setup ending in
      DACCONTROL21, or DACCONTROL21 alone. */
  function RouteWrites(mode: Module): (ws: seq<BusWrite>)
    ensures ws != [] && ws[|ws| - 1] == BusWrite(DacControl21, Dac21Target(mode))
  {
    if mode == Line
    then [ BusWrite(DacControl16, 0x09), BusWrite(DacControl17, 0x50),
           BusWrite(DacControl20, 0x50), BusWrite(DacControl21, 0xC0) ]
    else [ BusWrite(DacControl21, 0x80) ]
  }

  /** The chip power cycle of `es8388_start`, when it is called for. */
  function ResetWrites(resetChip: bool): (ws: seq<BusWrite>)
    ensures BusWrite(ChipPower, 0xF0) in ws <==> resetChip
  {
    if resetChip then [BusWrite(ChipPower, 0xF0), BusWrite(ChipPower, 0x00)] else []
  }

  /** The ADC power-up of `es8388_start`, for every mode but DAC only. */
  function AdcUpWrites(mode: Module): (ws: seq<BusWrite>)
    ensures BusWrite(AdcPower, 0x00) in ws <==> mode != Dac
  {
    if mode != Dac then [BusWrite(AdcPower, 0x00)] else []
  }

  /** The DAC power-up and unmute of `es8388_start`, for every mode but ADC only. */
  function DacUpWrites(mode: Module, unmuted: Byte): (ws: seq<BusWrite>)
    ensures BusWrite(DacControl3, unmuted) in ws <==> mode != Adc
  {
    if mode != Adc then [BusWrite(DacPower, 0x3C), BusWrite(DacControl3, unmuted)] else []
  }

  /** The writes of `es8388_set_voice_volume` for a level, in order. */
  function VoiceWrites(v: Byte): seq<BusWrite>
  {
    [ BusWrite(DacControl24, v), BusWrite(DacControl25, v),
      BusWrite(DacControl26, v), BusWrite(DacControl27, v) ]
  }

  /** How many of those writes `es8388_set_voice_volume` attempts: up to and including the
      first to a register that does not answer. */
  function VoiceAttempts(failing: set<Register>): (n: nat)
    ensures 1 <= n <= 4
  {
    if DacControl24 in failing then 1
    else if DacControl25 in failing then 2
    else if DacControl26 in failing then 3
    else 4
  }

  // ---------- The register file as a replay of the bus ----------

  /** One write on the bus: it lands exactly when its register answers, and a register
      that does not answer keeps its value. */
  function Commit(m: map<Register, Byte>, failing: set<Register>, w: BusWrite): (c: map<Register, Byte>)
    ensures w.reg in m ==> (c == if w.reg in failing then m else m[w.reg := w.val])
  {
    m[w.reg := if w.reg in failing && w.reg in m then m[w.reg] else w.val]
  }

  /** The register file after the writes `ws`, in order, starting from `m`. */
  function Replay(m: map<Register, Byte>, failing: set<Register>, ws: seq<BusWrite>): (r: map<Register, Byte>)
    ensures forall k :: k in m ==> k in r
    decreases |ws|
  {
    if ws == [] then m else Commit(Replay(m, failing, ws[..|ws| - 1]), failing, ws[|ws| - 1])
  }

  /** The value last written to `reg` in `ws`, if any. */
  function LastWrite(ws: seq<BusWrite>, reg: Register): Option<Byte>
    decreases |ws|
  {
    if ws == [] then None
    else if ws[|ws| - 1].reg == reg then Some(ws[|ws| - 1].val)
    else LastWrite(ws[..|ws| - 1], reg)
  }

  /** After a replay, a register that answers holds the value last written to it, and
      every other register holds its starting value. */
  lemma {:induction false} ReplayValue(m: map<Register, Byte>, failing: set<Register>, ws: seq<BusWrite>, r: Register)
    requires r in m
    ensures Replay(m, failing, ws)[r] ==
              if r !in failing && LastWrite(ws, r).Some? then LastWrite(ws, r).value else m[r]
    decreases |ws|
  {
    if ws != [] {
      ReplayValue(m, failing, ws[..|ws| - 1], r);
    }
  }

  /** `ws[i]` is the last write to `r` in `ws`. */
  predicate LastAt(ws: seq<BusWrite>, i: nat, r: Register)
  {
    i < |ws| && ws[i].reg == r && forall j :: i < j < |ws| ==> ws[j].reg != r
  }

  /** A register that answers holds the value of the last write to it. */
  lemma ReplayAt(m: map<Register, Byte>, failing: set<Register>, ws: seq<BusWrite>, i: nat, r: Register)
    requires r in m && LastAt(ws, i, r)
    ensures r !in failing ==> Replay(m, failing, ws)[r] == ws[i].val
  {
    ReplayValue(m, failing, ws, r);
    LastWriteAt(ws, i, r);
  }

  /** A register no write touches keeps its value. */
  lemma ReplayUntouched(m: map<Register, Byte>, failing: set<Register>, ws: seq<BusWrite>, r: Register)
    requires r in m
    requires forall i :: 0 <= i < |ws| ==> ws[i].reg != r
    ensures Replay(m, failing, ws)[r] == m[r]
  {
    ReplayValue(m, failing, ws, r);
    LastWriteAbsent(ws, r);
  }

  /** Writes appended that leave a register alone do not change what it holds. */
  lemma ReplayAppendUntouched(m: map<Register, Byte>, failing: set<Register>, a: seq<BusWrite>, b: seq<BusWrite>, r: Register)
    requires r in m
    requires forall i :: 0 <= i < |b| ==> b[i].reg != r
    ensures Replay(m, failing, a + b)[r] == Replay(m, failing, a)[r]
  {
    ReplayAppend(m, failing, a, b);
    ReplayUntouched(Replay(m, failing, a), failing, b, r);
  }

  /** A register that does not answer keeps its value, whatever is written to it. */
  lemma ReplayFailing(m: map<Register, Byte>, failing: set<Register>, ws: seq<BusWrite>)
    requires forall r :: r in m
    ensures forall r :: r in failing ==> Replay(m, failing, ws)[r] == m[r]
  {
    forall r | r in failing
      ensures Replay(m, failing, ws)[r] == m[r]
    {
      ReplayValue(m, failing, ws, r);
    }
  }

  /** Writes to pairwise different registers: every one that answers ends holding its value. */
  lemma ReplayDistinct(m: map<Register, Byte>, failing: set<Register>, ws: seq<BusWrite>)
    requires forall r :: r in m
    requires forall i, j :: 0 <= i < j < |ws| ==> ws[i].reg != ws[j].reg
    ensures forall i :: 0 <= i < |ws| && ws[i].reg !in failing ==> Replay(m, failing, ws)[ws[i].reg] == ws[i].val
  {
    forall i | 0 <= i < |ws| && ws[i].reg !in failing
      ensures Replay(m, failing, ws)[ws[i].reg] == ws[i].val
    {
      ReplayAt(m, failing, ws, i, ws[i].reg);
    }
  }

  /** Replaying two runs of writes is replaying the second from where the first ends. */
  lemma {:induction false} ReplayAppend(m: map<Register, Byte>, failing: set<Register>, a: seq<BusWrite>, b: seq<BusWrite>)
    ensures Replay(m, failing, a + b) == Replay(Replay(m, failing, a), failing, b)
    decreases |b|
  {
    if b == [] {
      assert a + b == a;
    } else {
      assert (a + b)[..|a + b| - 1] == a + b[..|b| - 1];
      ReplayAppend(m, failing, a, b[..|b| - 1]);
    }
  }

  /** The last write to a register in two runs is the second run's, unless it has none. */
  lemma {:induction false} LastWriteAppend(a: seq<BusWrite>, b: seq<BusWrite>, r: Register)
    ensures LastWrite(a + b, r) == if LastWrite(b, r).Some? then LastWrite(b, r) else LastWrite(a, r)
    decreases |b|
  {
    if b == [] {
      assert a + b == a;
    } else {
      assert (a + b)[..|a + b| - 1] == a + b[..|b| - 1];
      LastWriteAppend(a, b[..|b| - 1], r);
    }
  }

  /** A run with no write to `r` has no last write to it. */
  lemma {:induction false} LastWriteAbsent(ws: seq<BusWrite>, r: Register)
    requires forall i :: 0 <= i < |ws| ==> ws[i].reg != r
    ensures LastWrite(ws, r) == None
    decreases |ws|
  {
    if ws != [] {
      LastWriteAbsent(ws[..|ws| - 1], r);
    }
  }

  /** A write to `r` followed by none is the last write to `r`. */
  lemma {:induction false} LastWriteAt(ws: seq<BusWrite>, i: nat, r: Register)
    requires i < |ws| && ws[i].reg == r
    requires forall j :: i < j < |ws| ==> ws[j].reg != r
    ensures LastWrite(ws, r) == Some(ws[i].val)
    decreases |ws|
  {
    if i < |ws| - 1 {
      LastWriteAt(ws[..|ws| - 1], i, r);
    }
  }

  /** Writes after the last one to `r` do not change which write that is. */
  lemma LastWriteSkip(a: seq<BusWrite>, b: seq<BusWrite>, r: Register)
    requires forall i :: 0 <= i < |b| ==> b[i].reg != r
    ensures LastWrite(a + b, r) == LastWrite(a, r)
  {
    LastWriteAppend(a, b, r);
    LastWriteAbsent(b, r);
  }

  /** The last write to `r` in `a + b` is `b[i]` when `b` writes `r` at `i` and not after. */
  lemma LastWriteIn(a: seq<BusWrite>, b: seq<BusWrite>, i: nat, r: Register)
    requires i < |b| && b[i].reg == r
    requires forall j :: i < j < |b| ==> b[j].reg != r
    ensures LastWrite(a + b, r) == Some(b[i].val)
  {
    LastWriteAppend(a, b, r);
    LastWriteAt(b, i, r);
  }

  // ---------- What the registers hold ----------

  /** After a volume change, each register written that answers holds the new value; every
      other register keeps its value. */
  lemma VolumeSettings(m: map<Register, Byte>, failing: set<Register>, mode: Module, v: Byte, r: Register)
    requires forall r :: r in m
    ensures var after := Replay(m, failing, VolumeWrites(mode, v));
            after[r] == if r !in failing && ((HasAdc(mode) && (r == AdcControl8 || r == AdcControl9))
                                          || (HasDac(mode) && (r == DacControl5 || r == DacControl4)))
                        then v else m[r]
  {
    var ws := VolumeWrites(mode, v);
    var k := if HasAdc(mode) then 2 else 0;
    if HasAdc(mode) && (r == AdcControl8 || r == AdcControl9) {
      ReplayAt(m, failing, ws, if r == AdcControl8 then 0 else 1, r);
    } else if HasDac(mode) && (r == DacControl5 || r == DacControl4) {
      ReplayAt(m, failing, ws, if r == DacControl5 then k else k + 1, r);
    } else {
      ReplayUntouched(m, failing, ws, r);
    }
    ReplayFailing(m, failing, ws);
  }

  /** The DAC configuration of `es8388_init`: slave mode, the volume and the outputs are
      the last writes to their registers. */
  lemma InitDacSettings(m: map<Register, Byte>, failing: set<Register>, output: Byte)
    requires forall r :: r in m
    ensures var after := Replay(m, failing, InitDacWrites(output));
            && (MasterMode !in failing ==> after[MasterMode] == SlaveMode)
            && (DacControl5 !in failing ==> after[DacControl5] == 0)
            && (DacControl4 !in failing ==> after[DacControl4] == 0)
            && (DacPower !in failing ==> after[DacPower] == output)
            && after[DacControl3] == m[DacControl3]
  {
    var ws := InitDacWrites(output);
    ReplayAt(m, failing, ws, 2, MasterMode);
    ReplayAt(m, failing, ws, 12, DacControl5);
    ReplayAt(m, failing, ws, 13, DacControl4);
    ReplayAt(m, failing, ws, 14, DacPower);
    ReplayUntouched(m, failing, ws, DacControl3);
  }

  /** The ADC configuration of `es8388_init`: the input, the I2S format, the volume and the
      power-up are the last writes to their registers. */
  lemma InitAdcSettings(m: map<Register, Byte>, failing: set<Register>, input: Byte)
    requires forall r :: r in m
    ensures var after := Replay(m, failing, InitAdcWrites(input));
            && (AdcControl2 !in failing ==> after[AdcControl2] == input)
            && (AdcControl4 !in failing ==> after[AdcControl4] == 0x0D)
            && (AdcControl8 !in failing ==> after[AdcControl8] == 48)
            && (AdcControl9 !in failing ==> after[AdcControl9] == 48)
            && (AdcPower !in failing ==> after[AdcPower] == 0x09)
  {
    var ws := InitAdcWrites(input);
    ReplayAt(m, failing, ws, 2, AdcControl2);
    ReplayAt(m, failing, ws, 4, AdcControl4);
    ReplayAt(m, failing, ws, 6, AdcControl8);
    ReplayAt(m, failing, ws, 7, AdcControl9);
    ReplayAt(m, failing, ws, 8, AdcPower);
  }

  /** After the mute and the DAC configuration, the DAC's registers hold their settings. */
  lemma InitDacPrefix(m: map<Register, Byte>, failing: set<Register>, output: Byte)
    requires forall r :: r in m
    ensures var after := Replay(m, failing, [InitMute] + InitDacWrites(output));
            && (DacControl3 !in failing ==> after[DacControl3] == 0x04)
            && (MasterMode !in failing ==> after[MasterMode] == SlaveMode)
            && (DacPower !in failing ==> after[DacPower] == output)
            && (DacControl4 !in failing ==> after[DacControl4] == 0)
            && (DacControl5 !in failing ==> after[DacControl5] == 0)
  {
    var muted := Replay(m, failing, [InitMute]);
    ReplayAppend(m, failing, [InitMute], InitDacWrites(output));
    InitDacSettings(muted, failing, output);
    ReplayAt(m, failing, [InitMute], 0, DacControl3);
  }

  /** The registers the ADC configuration of `es8388_init` writes. */
  predicate AdcSide(r: Register)
  {
    r.AdcPower? || r.AdcControl1? || r.AdcControl2? || r.AdcControl3? || r.AdcControl4?
    || r.AdcControl5? || r.AdcControl8? || r.AdcControl9?
  }

  lemma InitAdcWritesAdcSide(input: Byte)
    ensures forall i :: 0 <= i < |InitAdcWrites(input)| ==> AdcSide(InitAdcWrites(input)[i].reg)
  {
  }

  /** The ADC configuration leaves every other register as the DAC configuration left it. */
  lemma InitAdcKeeps(m: map<Register, Byte>, failing: set<Register>, output: Byte, input: Byte, r: Register)
    requires forall r :: r in m
    requires !AdcSide(r)
    ensures Replay(m, failing, InitWrites(output, input))[r]
            == Replay(m, failing, [InitMute] + InitDacWrites(output))[r]
  {
    InitAdcWritesAdcSide(input);
    ReplayAppendUntouched(m, failing, [InitMute] + InitDacWrites(output), InitAdcWrites(input), r);
  }

  /** The ADC side of `InitSettings`. */
  lemma InitAdcFinal(m: map<Register, Byte>, failing: set<Register>, output: Byte, input: Byte)
    requires forall r :: r in m
    ensures var after := Replay(m, failing, InitWrites(output, input));
            && (AdcControl2 !in failing ==> after[AdcControl2] == input)
            && (AdcControl4 !in failing ==> after[AdcControl4] == 0x0D)
            && (AdcControl8 !in failing ==> after[AdcControl8] == 48)
            && (AdcControl9 !in failing ==> after[AdcControl9] == 48)
            && (AdcPower !in failing ==> after[AdcPower] == 0x09)
  {
    var dac := [InitMute] + InitDacWrites(output);
    ReplayAppend(m, failing, dac, InitAdcWrites(input));
    InitAdcSettings(Replay(m, failing, dac), failing, input);
  }

  /** After `es8388_init` has run its whole sequence, a register that answers holds its
      last value in it: the DAC muted, slave mode, the chosen outputs and input, 0 dB of
      DAC attenuation (register value 0), -24 dB of ADC attenuation (48), the I2S format
      0x0D on ADCCONTROL4 and the ADC powered with its inputs enabled (0x09). A register
      that does not answer keeps its value. */
  lemma InitSettings(m: map<Register, Byte>, failing: set<Register>, output: Byte, input: Byte)
    requires forall r :: r in m
    ensures var after := Replay(m, failing, InitWrites(output, input));
            && (forall r :: r in failing ==> after[r] == m[r])
            && (DacControl3 !in failing ==> after[DacControl3] == 0x04)
            && (MasterMode !in failing ==> after[MasterMode] == SlaveMode)
            && (DacPower !in failing ==> after[DacPower] == output)
            && (DacControl4 !in failing ==> after[DacControl4] == 0)
            && (DacControl5 !in failing ==> after[DacControl5] == 0)
            && (AdcControl2 !in failing ==> after[AdcControl2] == input)
            && (AdcControl4 !in failing ==> after[AdcControl4] == 0x0D)
            && (AdcControl8 !in failing ==> after[AdcControl8] == 48)
            && (AdcControl9 !in failing ==> after[AdcControl9] == 48)
            && (AdcPower !in failing ==> after[AdcPower] == 0x09)
  {
    ReplayFailing(m, failing, InitWrites(output, input));
    InitDacPrefix(m, failing, output);
    InitAdcKeeps(m, failing, output, input, DacControl3);
    InitAdcKeeps(m, failing, output, input, MasterMode);
    InitAdcKeeps(m, failing, output, input, DacPower);
    InitAdcKeeps(m, failing, output, input, DacControl4);
    InitAdcKeeps(m, failing, output, input, DacControl5);
    InitAdcFinal(m, failing, output, input);
  }

  /** The writes `es8388_start` makes, when it runs to the end. */
  function StartWrites(mode: Module, resetChip: bool, unmuted: Byte): seq<BusWrite>
  {
    RouteWrites(mode) + ResetWrites(resetChip) + AdcUpWrites(mode) + DacUpWrites(mode, unmuted)
  }

  lemma AppendStartWrites(l: seq<BusWrite>, mode: Module, resetChip: bool, unmuted: Byte)
    ensures l + RouteWrites(mode) + ResetWrites(resetChip) + AdcUpWrites(mode) + DacUpWrites(mode, unmuted)
            == l + StartWrites(mode, resetChip, unmuted)
  {
  }

  /** The routing part of `StartSettings`: DACCONTROL21 and the chip power. */
  lemma StartRouteSettings(m: map<Register, Byte>, failing: set<Register>, mode: Module, resetChip: bool, unmuted: Byte)
    requires forall r :: r in m
    ensures var after := Replay(m, failing, StartWrites(mode, resetChip, unmuted));
            && (DacControl21 !in failing ==> after[DacControl21] == Dac21Target(mode))
            && (resetChip && ChipPower !in failing ==> after[ChipPower] == 0x00)
  {
    var route := RouteWrites(mode);
    var ws := StartWrites(mode, resetChip, unmuted);
    assert ws[|route| - 1] == BusWrite(DacControl21, Dac21Target(mode));
    ReplayAt(m, failing, ws, |route| - 1, DacControl21);
    if resetChip {
      ReplayAt(m, failing, ws, |route| + 1, ChipPower);
    }
  }

  /** The power-up part of `StartSettings`: the ADC, the DAC and the unmute. */
  lemma StartPowerSettings(m: map<Register, Byte>, failing: set<Register>, mode: Module, resetChip: bool, unmuted: Byte)
    requires forall r :: r in m
    ensures var after := Replay(m, failing, StartWrites(mode, resetChip, unmuted));
            && (mode != Dac && AdcPower !in failing ==> after[AdcPower] == 0x00)
            && (mode != Adc && DacPower !in failing ==> after[DacPower] == 0x3C)
            && (mode != Adc && DacControl3 !in failing ==> after[DacControl3] == unmuted)
            && (mode == Adc ==> after[DacControl3] == m[DacControl3])
  {
    var ws := StartWrites(mode, resetChip, unmuted);
    if mode != Dac {
      ReplayAt(m, failing, ws, |RouteWrites(mode)| + |ResetWrites(resetChip)|, AdcPower);
    }
    if mode != Adc {
      ReplayAt(m, failing, ws, |ws| - 2, DacPower);
      ReplayAt(m, failing, ws, |ws| - 1, DacControl3);
    } else {
      ReplayUntouched(m, failing, ws, DacControl3);
    }
  }

  /** After `es8388_start`, a register that answers holds: DACCONTROL21 the mode's value,
      the chip power on again (0) after a power cycle, the ADC powered (0) unless DAC only,
      and for every mode but ADC only the DAC powered (0x3C) and DACCONTROL3 the unmuted
      byte; in ADC-only mode DACCONTROL3 is not touched. */
  lemma StartSettings(m: map<Register, Byte>, failing: set<Register>, mode: Module, resetChip: bool, unmuted: Byte)
    requires forall r :: r in m
    ensures var after := Replay(m, failing, StartWrites(mode, resetChip, unmuted));
            && (DacControl21 !in failing ==> after[DacControl21] == Dac21Target(mode))
            && (resetChip && ChipPower !in failing ==> after[ChipPower] == 0x00)
            && (mode != Dac && AdcPower !in failing ==> after[AdcPower] == 0x00)
            && (mode != Adc && DacPower !in failing ==> after[DacPower] == 0x3C)
            && (mode != Adc && DacControl3 !in failing ==> after[DacControl3] == unmuted)
            && (mode == Adc ==> after[DacControl3] == m[DacControl3])
  {
    StartRouteSettings(m, failing, mode, resetChip, unmuted);
    StartPowerSettings(m, failing, mode, resetChip, unmuted);
  }

  /** After `es8388_set_voice_volume` without an abort, the four output volume registers
      hold the level. */
  lemma VoiceSettings(m: map<Register, Byte>, failing: set<Register>, v: Byte)
    requires forall r :: r in m
    requires DacControl24 !in failing && DacControl25 !in failing
    requires DacControl26 !in failing && DacControl27 !in failing
    ensures var after := Replay(m, failing, VoiceWrites(v));
            after[DacControl24] == v && after[DacControl25] == v
            && after[DacControl26] == v && after[DacControl27] == v
  {
    var ws := VoiceWrites(v);
    ReplayDistinct(m, failing, ws);
    assert ws[0].reg == DacControl24 && ws[1].reg == DacControl25;
    assert ws[2].reg == DacControl26 && ws[3].reg == DacControl27;
  }

  /** The codec as the driver sees it. Its state is the bus: `log` holds every write
      attempted so far, `failing` the registers that do not answer and `powerOn` the
      register file before any write; the register file now, `Regs()`, is the power-on
      contents with the log's writes replayed on them. */
  class Codec {
    var log: seq<BusWrite>
    const failing: set<Register>
    const powerOn: map<Register, Byte>

    /** Every register has a power-on value. */
    predicate Valid()
    {
      forall r :: r in powerOn
    }

    constructor (initial: map<Register, Byte>, unreachable: set<Register>)
      requires forall r :: r in initial
      ensures Valid() && log == [] && failing == unreachable && powerOn == initial
      ensures Regs() == initial
    {
      log := [];
      failing := unreachable;
      powerOn := initial;
    }

    /** The register file. */
    function Regs(): (m: map<Register, Byte>)
      reads this
      ensures Valid() ==> forall r :: r in m
    {
      Replay(powerOn, failing, log)
    }

    /** `es_read_reg`: the register's value, or nothing when it does not answer. */
    function ReadReg(reg: Register): (v: Option<Byte>)
      reads this
      requires Valid()
      ensures v.None? <==> reg in failing
      ensures v.Some? ==> v.value == Regs()[reg]
    {
      if reg in failing then None else Some(Regs()[reg])
    }

    /** `es_write_reg`: succeeds exactly when the register answers, and only then stores
        the value; the write is logged either way. */
    method WriteReg(reg: Register, val: Byte) returns (ok: bool)
      modifies this
      ensures ok <==> reg !in failing
      ensures log == old(log) + [BusWrite(reg, val)]
      ensures Regs() == Commit(old(Regs()), failing, BusWrite(reg, val))
    {
      var w := BusWrite(reg, val);
      assert (log + [w])[..|log + [w]| - 1] == log;
      log := log + [w];
      ok := reg !in failing;
    }

    /** `es8388_set_adc_dac_volume`: the clamped volume goes to the ADC registers for the
        ADC modes and to the DAC registers for the DAC modes; the result is 0 exactly when
        every write attempted succeeded, and 1 otherwise. */
    method SetAdcDacVolume(mode: Module, volumeDb: int, dot: int) returns (res: int)
      modifies this
      ensures res == 0 || res == 1
      ensures res == 0 <==>
                && (HasAdc(mode) ==> AdcControl8 !in failing && AdcControl9 !in failing)
                && (HasDac(mode) ==> DacControl5 !in failing && DacControl4 !in failing)
      ensures log == old(log) + VolumeWrites(mode, VolumeRegister(volumeDb, dot))
    {
      var regv := VolumeRegister(volumeDb, dot);
      res := 0;
      if mode == Adc || mode == AdcDac {
        var ok := WriteReg(AdcControl8, regv);
        if !ok { res := 1; }
        ok := WriteReg(AdcControl9, regv);
        if !ok { res := 1; }
      }
      if mode == Dac || mode == AdcDac {
        var ok := WriteReg(DacControl5, regv);
        if !ok { res := 1; }
        ok := WriteReg(DacControl4, regv);
        if !ok { res := 1; }
      }
    }

    /** The DAC set-up of `es8388_init` up to the volume change, which ends it; every write
        is attempted whatever it returns. */
    method ConfigureDacPath()
      modifies this
      ensures log == old(log) + DacPathWrites
    {
      var _ := WriteReg(Control2, 0x50);
      var _ := WriteReg(ChipPower, 0x00);
      var _ := WriteReg(MasterMode, SlaveMode);
      var _ := WriteReg(DacPower, 0xC0);
      var _ := WriteReg(Control1, 0x12);
      var _ := WriteReg(DacControl1, 0x18);
      var _ := WriteReg(DacControl2, 0x02);
      var _ := WriteReg(DacControl16, 0x00);
      var _ := WriteReg(DacControl17, 0x90);
      var _ := WriteReg(DacControl20, 0x90);
      var _ := WriteReg(DacControl21, 0x80);
      var _ := WriteReg(DacControl23, 0x00);
      var _ := SetAdcDacVolume(Dac, 0, 0);
      InitVolumes();
      AppendDacPath(old(log));
    }

    /** The DAC part of `es8388_init`: its set-up, then the output powered. */
    method ConfigureDac(output: Byte)
      modifies this
      ensures log == old(log) + InitDacWrites(output)
    {
      ConfigureDacPath();
      var _ := WriteReg(DacPower, output);
      InitDacSplit(output);
    }

    /** The ADC configuration block of `es8388_init`, every write attempted whatever it
        returns. */
    method ConfigureAdc(input: Byte)
      modifies this
      ensures log == old(log) + InitAdcWrites(input)
    {
      var _ := WriteReg(AdcPower, 0xFF);
      var _ := WriteReg(AdcControl1, 0x88);
      var _ := WriteReg(AdcControl2, input);
      var _ := WriteReg(AdcControl3, 0x02);
      var _ := WriteReg(AdcControl4, 0x0D);
      var _ := WriteReg(AdcControl5, 0x02);
      var _ := SetAdcDacVolume(Adc, -24, 0);
      var _ := WriteReg(AdcPower, 0x09);
      InitVolumes();
      AppendInitAdc(old(log), input);
    }

    /** `es8388_init`: fails exactly when its first write (the DAC mute) fails, and then
        writes nothing more; otherwise the whole sequence is attempted whatever each later
        write returns. What the registers then hold is `InitSettings`. */
    method Init(output: Byte, input: Byte) returns (ok: bool)
      modifies this
      ensures ok <==> DacControl3 !in failing
      ensures !ok ==> log == old(log) + [InitMute]
      ensures ok ==> log == old(log) + InitWrites(output, input)
    {
      ok := WriteReg(InitMute.reg, InitMute.val);
      if !ok {
        return;
      }
      ConfigureDac(output);
      ConfigureAdc(input);
      assert log == old(log) + ([InitMute] + InitDacWrites(output) + InitAdcWrites(input));
    }

    /** `es8388_config_i2s`: a read-modify-write of the format and then of the bit length,
        on ADCCONTROL4 for the ADC modes and on DACCONTROL1 for the DAC modes. A bus
        failure aborts (`ESP_ERROR_CHECK`), which happens exactly when a register it needs
        does not answer, after the writes already made. Otherwise each of those registers
        is written twice and ends holding its merged fields. */
    method ConfigI2s(bits: Byte, mode: Module, fmt: Byte) returns (aborted: bool)
      requires Valid()
      modifies this
      ensures aborted <==> (HasAdc(mode) && AdcControl4 in failing)
                           || (HasDac(mode) && DacControl1 in failing)
      ensures var adc := AdcFormat(old(Regs())[AdcControl4], fmt);
              var dac := DacFormat(old(Regs())[DacControl1], fmt);
              && (aborted ==>
                    log == old(log) + (if HasAdc(mode) && AdcControl4 !in failing
                                       then [BusWrite(AdcControl4, adc)] else []))
              && (!aborted ==>
                    && log == old(log)
                              + (if HasAdc(mode) then [BusWrite(AdcControl4, adc)] else [])
                              + (if HasDac(mode) then [BusWrite(DacControl1, dac)] else [])
                              + (if HasAdc(mode) then [BusWrite(AdcControl4, AdcBits(adc, bits))] else [])
                              + (if HasDac(mode) then [BusWrite(DacControl1, DacBits(dac, bits))] else [])
                    && (HasAdc(mode) ==> Regs()[AdcControl4] == AdcBits(adc, bits))
                    && (HasDac(mode) ==> Regs()[DacControl1] == DacBits(dac, bits)))
    {
      aborted := false;
      var reg: Byte := 0;
      if mode == Adc || mode == AdcDac {
        var read := ReadReg(AdcControl4);
        if read.None? {
          aborted := true;
          return;
        }
        reg := AdcFormat(read.value, fmt);
        var _ := WriteReg(AdcControl4, reg);
      }
      if mode == Dac || mode == AdcDac {
        var read := ReadReg(DacControl1);
        if read.None? {
          aborted := true;
          return;
        }
        reg := DacFormat(read.value, fmt);
        var _ := WriteReg(DacControl1, reg);
      }
      if mode == Adc || mode == AdcDac {
        var read := ReadReg(AdcControl4);
        reg := AdcBits(read.value, bits);
        var _ := WriteReg(AdcControl4, reg);
      }
      if mode == Dac || mode == AdcDac {
        var read := ReadReg(DacControl1);
        reg := DacBits(read.value, bits);
        var _ := WriteReg(DacControl1, reg);
      }
    }

    /** The routing part of `es8388_start`: the line-mode mixer setup ending in
        DACCONTROL21, or DACCONTROL21 alone, results ignored. */
    method Route(mode: Module)
      requires Valid()
      modifies this
      ensures log == old(log) + RouteWrites(mode)
      ensures DacControl21 !in failing ==> Regs()[DacControl21] == Dac21Target(mode)
      ensures Regs()[DacControl3] == old(Regs())[DacControl3]
    {
      if mode == Line {
        var _ := WriteReg(DacControl16, 0x09);
        var _ := WriteReg(DacControl17, 0x50);
        var _ := WriteReg(DacControl20, 0x50);
        var _ := WriteReg(DacControl21, 0xC0);
      } else {
        var _ := WriteReg(DacControl21, 0x80);
      }
    }

    /** The state-machine reset of `es8388_start`: DACCONTROL21 is read again (a failed
        read leaves 0) and the chip is power-cycled exactly when that differs from `prev`. */
    method ResetIfChanged(prev: Byte)
      requires Valid()
      modifies this
      ensures log == old(log) + ResetWrites(prev != old(ReadReg(DacControl21)).GetOr(0))
      ensures Regs()[DacControl3] == old(Regs())[DacControl3]
    {
      var now: Byte := ReadReg(DacControl21).GetOr(0);
      if prev != now {
        var _ := WriteReg(ChipPower, 0xF0);
        var _ := WriteReg(ChipPower, 0x00);
      }
    }

    /** The DAC power-up of `es8388_start`, then its unmute: DACCONTROL3 is read (a failed
        read leaving 0), bit 2 is cleared and the byte written back. */
    method PowerUpDac()
      requires Valid()
      modifies this
      ensures log == old(log) + DacUpWrites(Dac, Unmute(old(ReadReg(DacControl3)).GetOr(0)))
    {
      var _ := WriteReg(DacPower, 0x3C);
      var r: Byte := ReadReg(DacControl3).GetOr(0);
      r := Unmute(r);
      var _ := WriteReg(DacControl3, r);
    }

    /** `es8388_start`: DACCONTROL21 is read before and after the mode's routing writes (a
        failed read leaves 0), and the chip is power-cycled exactly when the two readings
        differ, that is when the register answers and did not already hold the mode's
        value. The ADC is powered up unless the mode is DAC only; the DAC is powered up
        and unmuted unless it is ADC only. No result is checked. */
    method Start(mode: Module)
      requires Valid()
      modifies this
      ensures log == old(log) + StartWrites(mode,
                                 DacControl21 !in failing && old(Regs())[DacControl21] != Dac21Target(mode),
                                 Unmute(if DacControl3 in failing then 0 else old(Regs())[DacControl3]))
    {
      var prev: Byte := ReadReg(DacControl21).GetOr(0);
      Route(mode);
      ghost var resetChip := DacControl21 !in failing && old(Regs())[DacControl21] != Dac21Target(mode);
      assert resetChip <==> prev != ReadReg(DacControl21).GetOr(0);
      ResetIfChanged(prev);
      ghost var reset := log;
      assert reset == old(log) + RouteWrites(mode) + ResetWrites(resetChip);
      if mode == Adc || mode == AdcDac || mode == Line {
        var _ := WriteReg(AdcPower, 0x00);
      }
      assert log == reset + AdcUpWrites(mode);
      assert ReadReg(DacControl3).GetOr(0) == if DacControl3 in failing then 0 else old(Regs())[DacControl3];
      if mode == Dac || mode == AdcDac || mode == Line {
        PowerUpDac();
      }
      AppendStartWrites(old(log), mode, resetChip,
                        Unmute(if DacControl3 in failing then 0 else old(Regs())[DacControl3]));
    }

    /** `es8388_set_voice_volume`: the level for the clamped percentage goes to the four
        output volume registers in turn, and the first that does not answer aborts, after
        its write was attempted. */
    method SetVoiceVolume(volume: int) returns (aborted: bool)
      modifies this
      ensures aborted <==> DacControl24 in failing || DacControl25 in failing
                           || DacControl26 in failing || DacControl27 in failing
      ensures log == old(log) + VoiceWrites(VoiceLevel(volume))[..VoiceAttempts(failing)]
    {
      var v := VoiceLevel(volume);
      aborted := false;
      var ok := WriteReg(DacControl24, v);
      if !ok {
        aborted := true;
        return;
      }
      ok := WriteReg(DacControl25, v);
      if !ok {
        aborted := true;
        return;
      }
      ok := WriteReg(DacControl26, v);
      if !ok {
        aborted := true;
        return;
      }
      ok := WriteReg(DacControl27, v);
      if !ok {
        aborted := true;
        return;
      }
    }
  }
}

=== FILE: correlator.dfy ===
/** The latency correlator shared by both speech-recognizer variants: the bounded FIFO of
    buffer timestamps, the mapping from a recognizer segment time to a ring index, the
    plausibility window for latency samples, and the summary statistics over them. */
module Correlator {
  import opened Wrappers
  import opened Seqs

  /** Seconds of audio the receivers assume per buffer (hard-coded 0.064 in both
      recognizers: 1024 samples at 16 kHz). */
  const AssumedBufferSeconds: real := 0.064

  /** Seconds of audio the ESP32 actually puts in one packet: 160 samples at 16 kHz. */
  const SenderBufferSeconds: real := 160.0 / 16000.0

  /** Swift's `Int(x)` for a finite `Double`: rounds toward zero. */
  function TruncToInt(x: real): (i: int)
    ensures x >= 0.0 ==> i >= 0 && i as real <= x < i as real + 1.0
    ensures x < 0.0 ==> i <= 0 && i as real - 1.0 < x <= i as real
  {
    if x >= 0.0 then x.Floor else -((-x).Floor)
  }

  /** The ring index `Int(t / d)` a segment starting `t` seconds into the session maps to. */
  function SegmentIndex(t: real, d: real): int
    requires d > 0.0
  {
    TruncToInt(t / d)
  }

  /** Multiplying by a positive factor keeps the order of two reals. */
  lemma MulMono(a: real, b: real, d: real)
    requires d > 0.0
    ensures a <= b <==> a * d <= b * d
    ensures a < b <==> a * d < b * d
  {
  }

  /** `t` lies in the `i`-th window of width `d`: `[i * d, (i + 1) * d)`. */
  predicate InWindow(t: real, d: real, i: int)
  {
    i as real * d <= t < (i + 1) as real * d
  }

  /** A non-negative time lies in the window of its own index. */
  lemma IndexWindow(t: real, d: real)
    requires d > 0.0 && t >= 0.0
    ensures InWindow(t, d, SegmentIndex(t, d))
  {
    var q := t / d;
    var k := SegmentIndex(t, d);
    assert q * d == t;
    MulMono(0.0, q, d);
    assert k as real <= q < (k + 1) as real;
    MulMono(k as real, q, d);
    MulMono(q, (k + 1) as real, d);
    assert t < (k + 1) as real * d;
    assert InWindow(t, d, k);
  }

  /** Windows of the same width do not overlap. */
  lemma WindowUnique(t: real, d: real, i: int, k: int)
    requires d > 0.0 && InWindow(t, d, i) && InWindow(t, d, k)
    ensures i == k
  {
    MulMono(i as real, (k + 1) as real, d);
    MulMono(k as real, (i + 1) as real, d);
    assert i as real < (k + 1) as real && k as real < (i + 1) as real;
  }

  /** The index is a valid (non-negative) one exactly when `t > -d`. */
  lemma IndexNonNegative(t: real, d: real)
    requires d > 0.0
    ensures SegmentIndex(t, d) >= 0 <==> t > -d
  {
    var q := t / d;
    assert q * d == t;
    MulMono(q, -1.0, d);
    MulMono(q, 0.0, d);
  }

  /** A time in window `k` lies below `n * d` when `k < n`, and at or above it otherwise. */
  lemma WindowBelow(t: real, d: real, n: int, k: int)
    requires d > 0.0 && InWindow(t, d, k)
    ensures k < n ==> t < n as real * d
    ensures n <= k ==> n as real * d <= t
  {
    var lo := k as real * d;
    var hi := (k + 1) as real * d;
    var top := n as real * d;
    assert lo <= t < hi;
    if k < n {
      assert hi <= top by {
        MulMono((k + 1) as real, n as real, d);
      }
    } else {
      assert top <= lo by {
        MulMono(n as real, k as real, d);
      }
    }
  }

  /** The index is below a positive bound `n` exactly when `t < n * d`. */
  lemma IndexBelow(t: real, d: real, n: int)
    requires d > 0.0 && n >= 1
    ensures SegmentIndex(t, d) < n <==> t < n as real * d
  {
    MulMono(0.0, n as real, d);
    if t >= 0.0 {
      IndexWindow(t, d);
      WindowBelow(t, d, n, SegmentIndex(t, d));
    } else {
      var q := t / d;
      assert q * d == t;
      MulMono(q, 0.0, d);
    }
  }

  /** `findTimestampForSegment` / `getReceiptTime`: the ring entry for segment time `t`,
      when `Int(t / d)` is a valid index, and nothing otherwise. */
  function Lookup<T>(ring: seq<T>, t: real, d: real): (r: Option<T>)
    requires d > 0.0
    ensures r.Some? <==> ring != [] && -d < t < |ring| as real * d
    ensures forall i :: 0 <= i < |ring| && InWindow(t, d, i) ==> r == Some(ring[i])
    ensures r.Some? ==> r.value in ring
  {
    var i := SegmentIndex(t, d);
    IndexNonNegative(t, d);
    IndexBelow(t, d, if ring == [] then 1 else |ring|);
    assert forall j :: 0 <= j < |ring| && InWindow(t, d, j) ==> i == j by {
      forall j | 0 <= j < |ring| && InWindow(t, d, j)
        ensures i == j
      {
        MulMono(0.0, j as real, d);
        IndexWindow(t, d);
        WindowUnique(t, d, i, j);
      }
    }
    if 0 <= i < |ring| then Some(ring[i]) else None
  }

  /** The exact boundary: with `k` entries, a time just under `k * d` still hits the last
      entry, and `k * d` itself misses. */
  lemma LookupBoundary<T>(ring: seq<T>, d: real, eps: real)
    requires d > 0.0 && ring != [] && 0.0 < eps <= d
    ensures Lookup(ring, |ring| as real * d - eps, d) == Some(ring[|ring| - 1])
    ensures Lookup(ring, |ring| as real * d, d) == None
  {
    var k := |ring|;
    assert InWindow(k as real * d - eps, d, k - 1);
  }

  /** The receivers' 0.064 s assumption against the sender's 0.01 s packets: the segment
      that starts at the beginning of the 7th packet (0.07 s) is attributed to ring entry
      1, not to entry 7 (the assumed duration is kept as the source has it). */
  lemma DurationMismatchMisattributes<T>(ring: seq<T>)
    requires |ring| > 7
    ensures SegmentIndex(7.0 * SenderBufferSeconds, AssumedBufferSeconds) == 1
    ensures Lookup(ring, 7.0 * SenderBufferSeconds, AssumedBufferSeconds) == Some(ring[1])
  {
    var t := 7.0 * SenderBufferSeconds;
    assert InWindow(t, AssumedBufferSeconds, 1);
    IndexWindow(t, AssumedBufferSeconds);
    WindowUnique(t, AssumedBufferSeconds, 1, SegmentIndex(t, AssumedBufferSeconds));
  }

  /** Append `x`, then drop the first entry when the count exceeds `cap`
      (`append` followed by `if count > cap { removeFirst() }`). */
  function Push<T>(ring: seq<T>, x: T, cap: nat): (r: seq<T>)
    requires cap >= 1
    ensures |ring| <= cap ==> |r| <= cap && |r| == if |ring| < cap then |ring| + 1 else cap
    ensures r != [] && r[|r| - 1] == x && |r| <= |ring| + 1
    ensures r == (ring + [x])[|ring| + 1 - |r|..]
  {
    var s := ring + [x];
    if |s| > cap then s[1..] else s
  }

  /** Pushing a whole stream of entries, one `Push` per buffer. */
  function PushAll<T>(ring: seq<T>, xs: seq<T>, cap: nat): seq<T>
    requires cap >= 1
    decreases |xs|
  {
    if xs == [] then ring else PushAll(Push(ring, xs[0], cap), xs[1..], cap)
  }

  /** FIFO eviction: starting from a ring within capacity, after any stream of appends
      the ring holds exactly the newest `cap` entries of everything appended, in arrival
      order. */
  lemma {:induction false} PushAllKeepsSuffix<T>(ring: seq<T>, xs: seq<T>, cap: nat)
    requires cap >= 1 && |ring| <= cap
    ensures PushAll(ring, xs, cap) == Suffix(ring + xs, cap)
    decreases |xs|
  {
    if xs != [] {
      var r1 := Push(ring, xs[0], cap);
      var rest := xs[1..];
      assert ring + [xs[0]] + rest == ring + xs;
      assert PushAll(ring, xs, cap) == PushAll(r1, rest, cap);
      assert PushAll(r1, rest, cap) == Suffix(r1 + rest, cap) by {
        PushAllKeepsSuffix(r1, rest, cap);
      }
      assert Suffix(r1 + rest, cap) == Suffix(ring + [xs[0]] + rest, cap) by {
        if |ring| < cap {
          assert r1 == ring + [xs[0]];
        }
        SuffixOfTail(ring + [xs[0]], r1, rest, cap);
      }
    }
  }

  /** Dropping entries from the front that the capacity would drop anyway does not
      change the newest `cap` entries of what follows. */
  lemma SuffixOfTail<T>(s: seq<T>, t: seq<T>, ys: seq<T>, cap: nat)
    requires |t| <= |s| && t == s[|s| - |t|..]
    requires t == s || |t| >= cap
    ensures Suffix(t + ys, cap) == Suffix(s + ys, cap)
  {
    if t != s {
      var a := t + ys;
      var b := s + ys;
      assert a == b[|b| - |a|..];
      assert a[|a| - cap..] == b[|b| - cap..];
    }
  }

  /** The plausibility window a latency sample must fall in to be recorded. */
  predicate Plausible(latency: real)
  {
    0.0 < latency < 10.0
  }

  /** Record a sample when it is plausible; otherwise keep the list as it is. */
  function RecordIfPlausible(samples: seq<real>, latency: Option<real>): (r: seq<real>)
    ensures latency.Some? && Plausible(latency.value) ==> r == samples + [latency.value]
    ensures !(latency.Some? && Plausible(latency.value)) ==> r == samples
  {
    if latency.Some? && Plausible(latency.value) then samples + [latency.value] else samples
  }

  predicate AllPlausible(samples: seq<real>)
  {
    forall i :: 0 <= i < |samples| ==> Plausible(samples[i])
  }

  function Sum(s: seq<real>): real
  {
    if s == [] then 0.0 else s[0] + Sum(s[1..])
  }

  function Min(s: seq<real>): (m: real)
    requires s != []
    ensures forall i :: 0 <= i < |s| ==> m <= s[i]
    ensures exists i :: 0 <= i < |s| && m == s[i]
  {
    if |s| == 1 then s[0]
    else
      var m := Min(s[1..]);
      assert forall i :: 1 <= i < |s| ==> s[i] == s[1..][i - 1];
      if s[0] <= m then s[0] else m
  }

  function Max(s: seq<real>): (m: real)
    requires s != []
    ensures forall i :: 0 <= i < |s| ==> s[i] <= m
    ensures exists i :: 0 <= i < |s| && m == s[i]
  {
    if |s| == 1 then s[0]
    else
      var m := Max(s[1..]);
      assert forall i :: 1 <= i < |s| ==> s[i] == s[1..][i - 1];
      if s[0] >= m then s[0] else m
  }

  /** Count, mean, minimum and maximum of the recorded samples. */
  datatype Stats = Stats(count: nat, mean: real, min: real, max: real)

  /** The statistics a report shows: none at all for an empty list. */
  function Summarize(s: seq<real>): (r: Option<Stats>)
    ensures r.Some? <==> s != []
    ensures r.Some? ==> r.value.count == |s|
  {
    if s == [] then None else Some(Stats(|s|, Sum(s) / |s| as real, Min(s), Max(s)))
  }

  lemma {:induction false} SumBounds(s: seq<real>, lo: real, hi: real)
    requires forall i :: 0 <= i < |s| ==> lo <= s[i] <= hi
    ensures |s| as real * lo <= Sum(s) <= |s| as real * hi
  {
    if s != [] {
      SumBounds(s[1..], lo, hi);
    }
  }

  /** A total between `n * lo` and `n * hi` has its mean between `lo` and `hi`. */
  lemma MeanBounds(total: real, n: real, lo: real, hi: real)
    requires n > 0.0 && n * lo <= total <= n * hi
    ensures lo <= total / n <= hi
  {
    var q := total / n;
    assert q * n == total;
    MulMono(lo, q, n);
    MulMono(q, hi, n);
  }

  /** Samples all between `lo` and `hi` have their mean between them too. */
  lemma MeanOfBounded(s: seq<real>, lo: real, hi: real)
    requires s != [] && forall i :: 0 <= i < |s| ==> lo <= s[i] <= hi
    ensures lo <= Sum(s) / |s| as real <= hi
  {
    SumBounds(s, lo, hi);
    MeanBounds(Sum(s), |s| as real, lo, hi);
  }

  /** The mean of the samples lies between their minimum and maximum. */
  lemma MeanBetweenMinAndMax(s: seq<real>)
    requires s != []
    ensures Min(s) <= Summarize(s).value.mean <= Max(s)
  {
    MeanOfBounded(s, Min(s), Max(s));
  }

  /** Because only plausible samples are ever recorded, every reported statistic is itself
      inside the plausibility window. */
  lemma SummaryPlausible(s: seq<real>)
    requires s != [] && AllPlausible(s)
    ensures var st := Summarize(s).value;
      Plausible(st.min) && Plausible(st.max) && Plausible(st.mean) && st.min <= st.mean <= st.max
  {
    MeanBetweenMinAndMax(s);
  }

  /** The sum of squared deviations of the values from `mean`. */
  function SquaredDeviations(values: seq<real>, mean: real): real
  {
    if values == [] then 0.0 else (values[0] - mean) * (values[0] - mean) + SquaredDeviations(values[1..], mean)
  }

  /** The population variance `calculateStandardDeviation` takes the square root of:
      0 for no values, otherwise the squared deviations divided by the count. */
  function Variance(values: seq<real>, mean: real): (v: real)
    ensures values == [] ==> v == 0.0
  {
    if values == [] then 0.0 else SquaredDeviations(values, mean) / |values| as real
  }

  /** A square is never negative. */
  lemma SquareSign(d: real)
    ensures d * d >= 0.0
  {
    if d > 0.0 {
      MulMono(0.0, d, d);
    } else if d < 0.0 {
      var e := -d;
      MulMono(0.0, e, e);
      assert d * d == e * e;
    }
  }

  /** The squared deviations are never negative and vanish when every value equals the
      mean. */
  lemma {:induction false} SquaredDeviationsBounds(values: seq<real>, mean: real)
    ensures SquaredDeviations(values, mean) >= 0.0
    ensures (forall i :: 0 <= i < |values| ==> values[i] == mean) ==> SquaredDeviations(values, mean) == 0.0
  {
    if values != [] {
      var rest := values[1..];
      SquaredDeviationsBounds(rest, mean);
      SquareSign(values[0] - mean);
      assert forall i :: 1 <= i < |values| ==> values[i] == rest[i - 1];
    }
  }

  /** The variance is never negative, so its square root exists, and it is zero when
      every value equals the mean (a constant run has standard deviation 0). */
  lemma VarianceBounds(values: seq<real>, mean: real)
    ensures Variance(values, mean) >= 0.0
    ensures (forall i :: 0 <= i < |values| ==> values[i] == mean) ==> Variance(values, mean) == 0.0
  {
    SquaredDeviationsBounds(values, mean);
    if values != [] {
      var n := |values| as real;
      MulMono(0.0, SquaredDeviations(values, mean) / n, n);
    }
  }
}

=== FILE: packets.dfy ===
/** The audio packet on the wire: an 8-byte little-endian `uint64_t` timestamp in
    microseconds followed by PCM16 mono audio. Both iPhone receivers split it the same way
    but disagree on the smallest packet they accept. */
module Packets {
  import opened Wrappers
  import opened Bytes
  import opened PcmDecoder

  /** Length of the timestamp header. */
  const HeaderBytes: nat := 8

  /** A received packet: the sender's timestamp and the audio bytes after it. */
  datatype Packet = Packet(timestamp: U64, audio: seq<Byte>)

  /** The split both receivers perform once the length check passed: the `UInt64` loaded
      from the first 8 bytes and everything after them. */
  function Split(data: seq<Byte>): (p: Packet)
    requires |data| >= HeaderBytes
    ensures data == LeBytes(p.timestamp, HeaderBytes) + p.audio
    ensures |p.audio| == |data| - HeaderBytes
  {
    var p := Packet(LoadU64(data), data[HeaderBytes..]);
    assert data == data[..HeaderBytes] + data[HeaderBytes..];
    p
  }

  /** WifiAudioReceiver's header split: packets of fewer than 8 bytes are dropped, so a
      header-only packet is accepted with empty audio. */
  function SplitWifi(data: seq<Byte>): (r: Option<Packet>)
    ensures r.None? <==> |data| < HeaderBytes
    ensures r.Some? ==> data == LeBytes(r.value.timestamp, HeaderBytes) + r.value.audio
  {
    if |data| < HeaderBytes then None else Some(Split(data))
  }

  /** UDPAudioReceiver's header split: only packets longer than 8 bytes are processed. */
  function SplitUdp(data: seq<Byte>): (r: Option<Packet>)
    ensures r.None? <==> |data| <= HeaderBytes
    ensures r.Some? ==> data == LeBytes(r.value.timestamp, HeaderBytes) + r.value.audio
    ensures r.Some? ==> r.value.audio != []
  {
    if |data| <= HeaderBytes then None else Some(Split(data))
  }

  /** The two receivers agree on every packet except a header-only one, which only the
      WifiAudioReceiver accepts. */
  lemma SplitVariantsDiffer(data: seq<Byte>)
    ensures |data| != HeaderBytes ==> SplitUdp(data) == SplitWifi(data)
    ensures |data| == HeaderBytes ==> SplitUdp(data).None? && SplitWifi(data) == Some(Packet(LoadU64(data), []))
  {
  }

  /** A split packet's fields are exactly what was put on the wire. */
  lemma SplitOfEncoded(timestamp: U64, audio: seq<Byte>)
    ensures SplitWifi(LeBytes(timestamp, HeaderBytes) + audio) == Some(Packet(timestamp, audio))
    ensures audio != [] ==> SplitUdp(LeBytes(timestamp, HeaderBytes) + audio) == Some(Packet(timestamp, audio))
  {
    var data := LeBytes(timestamp, HeaderBytes) + audio;
    LoadU64OfLeBytes(timestamp, audio);
    assert data[HeaderBytes..] == audio;
  }

  /** `dataToPCMBuffer` in both receivers: an int16 buffer of `count / 2` frames copied
      from the audio bytes as native little-endian samples; an odd trailing byte is
      ignored. */
  function ToPcmBuffer(audio: seq<Byte>): (b: Int16Buffer)
    ensures b.FrameLength() == |audio| / 2
    ensures forall i :: 0 <= i < b.FrameLength() ==>
              Int16ToBytes(b.samples[i]) == (audio[2 * i], audio[2 * i + 1])
  {
    Int16Buffer(DecodeSamples(audio))
  }
}

=== FILE: pcm_decoder.dfy ===
/** Reassembly of signed 16-bit little-endian mono samples from raw audio bytes
    (ESPWifi/ESPWifi/PCMDecoder.swift), and the int16 buffer the receivers hand to
    the recognizer. */
module PcmDecoder {
  import opened Wrappers
  import opened Bytes

  /** A signed 16-bit sample (`Int16` / `int16_t`). */
  type Int16 = x: int | -32768 <= x < 32768

  /** The `Int16` whose bit pattern is `hi << 8 | lo` (`Int16(bitPattern:)`). */
  function Int16FromBytes(lo: Byte, hi: Byte): (s: Int16)
    ensures s % 0x1_0000 == lo + 256 * hi
    ensures s < 0 <==> hi >= 128
  {
    var u := 256 * hi + lo;
    if u < 0x8000 then u else u - 0x1_0000
  }

  /** The two little-endian bytes (low, high) of the two's-complement pattern of `s`. */
  function Int16ToBytes(s: Int16): (r: (Byte, Byte))
    ensures r.0 + 256 * r.1 == s % 0x1_0000
  {
    var u := s % 0x1_0000;
    (u % 256, u / 256)
  }

  /** Encoding a sample as two little-endian bytes and reassembling it gives it back. */
  lemma Int16RoundTrip(s: Int16)
    ensures Int16FromBytes(Int16ToBytes(s).0, Int16ToBytes(s).1) == s
  {
  }

  /** Reassembling a byte pair and encoding the sample gives the pair back. */
  lemma BytesRoundTrip(lo: Byte, hi: Byte)
    ensures Int16ToBytes(Int16FromBytes(lo, hi)) == (lo, hi)
  {
  }

  /** The float value a sample becomes: `Float(sample) / 32768.0`. For an int16 this
      quotient is exactly representable in a Float32, so a real models it exactly. */
  function Normalize(s: Int16): (x: real)
    ensures -1.0 <= x < 1.0
    ensures x * 32768.0 == s as real
  {
    s as real / 32768.0
  }

  /** The `count / 2` samples of a byte string; an odd trailing byte is ignored. */
  function DecodeSamples(bytes: seq<Byte>): (samples: seq<Int16>)
    ensures |samples| == |bytes| / 2
    ensures forall i :: 0 <= i < |samples| ==>
              Int16ToBytes(samples[i]) == (bytes[2 * i], bytes[2 * i + 1])
  {
    var n := |bytes| / 2;
    var samples := seq(n, i requires 0 <= i < n => Int16FromBytes(bytes[2 * i], bytes[2 * i + 1]));
    assert forall i :: 0 <= i < n ==> Int16ToBytes(samples[i]) == (bytes[2 * i], bytes[2 * i + 1]) by {
      forall i | 0 <= i < n { BytesRoundTrip(bytes[2 * i], bytes[2 * i + 1]); }
    }
    samples
  }

  /** The little-endian byte image of a sample sequence: what a C sender puts on the wire
      for an `int16_t` array. */
  function EncodeSamples(samples: seq<Int16>): (bytes: seq<Byte>)
    ensures |bytes| == 2 * |samples|
  {
    if samples == [] then []
    else [Int16ToBytes(samples[0]).0, Int16ToBytes(samples[0]).1] + EncodeSamples(samples[1..])
  }

  lemma {:induction false} EncodeSamplesAt(samples: seq<Int16>, i: nat)
    requires i < |samples|
    ensures EncodeSamples(samples)[2 * i] == Int16ToBytes(samples[i]).0
    ensures EncodeSamples(samples)[2 * i + 1] == Int16ToBytes(samples[i]).1
  {
    if i > 0 {
      EncodeSamplesAt(samples[1..], i - 1);
    }
  }

  /** Decoding the byte image of any samples gives the same samples back. */
  lemma {:induction false} DecodeEncodeSamples(samples: seq<Int16>)
    ensures DecodeSamples(EncodeSamples(samples)) == samples
  {
    var bytes := EncodeSamples(samples);
    var d := DecodeSamples(bytes);
    forall i | 0 <= i < |samples|
      ensures d[i] == samples[i]
    {
      EncodeSamplesAt(samples, i);
      Int16RoundTrip(samples[i]);
      BytesRoundTrip(bytes[2 * i], bytes[2 * i + 1]);
    }
  }

  /** An int16 mono buffer as handed to the recognizer; its `frameLength` is the sample count. */
  datatype Int16Buffer = Int16Buffer(samples: seq<Int16>) {
    function FrameLength(): nat { |samples| }
  }

  /** `int16ToPCMBuffer`: no buffer for fewer than two bytes; otherwise `count / 2` float
      frames, frame `i` being the little-endian sample at bytes `2i, 2i + 1` scaled by
      1/32768. A fresh buffer is filled frame by frame. */
  method Int16ToPcmBuffer(data: seq<Byte>) returns (r: Option<seq<real>>)
    ensures r.None? <==> |data| < 2
    ensures r.Some? ==> |r.value| == |data| / 2
    ensures r.Some? ==> forall i :: 0 <= i < |r.value| ==>
              r.value[i] == Normalize(DecodeSamples(data)[i])
  {
    if |data| < 2 {
      return None;
    }
    var frameCount := |data| / 2;
    var floatData := new real[frameCount];
    for i := 0 to frameCount
      invariant forall k :: 0 <= k < i ==> floatData[k] == Normalize(DecodeSamples(data)[k])
    {
      var lo := data[i * 2];
      var hi := data[i * 2 + 1];
      var sample := Int16FromBytes(lo, hi);
      floatData[i] := sample as real / 32768.0;
    }
    r := Some(floatData[..]);
  }
}

=== FILE: seqs.dfy ===
/** Sequence helpers shared by several modules. */
module Seqs {

  /** Swift's `suffix(n)`: the last `n` elements of `s`, or all of `s` when it is shorter. */
  function Suffix<T>(s: seq<T>, n: nat): (r: seq<T>)
    ensures |r| == if |s| <= n then |s| else n
    ensures r == s[|s| - |r|..]
  {
    if |s| <= n then s else s[|s| - n..]
  }
}

=== FILE: session_text.dfy ===
/** The text a recognition session shows and keeps, shared by both `SpeechRecognizer`
    variants: the finished text of earlier recognition tasks (`accumulatedText`) and the
    text of the running task (`liveText`). */
module SessionText {
  import opened Wrappers
  import opened TextWords

  /** What the engine reports in one callback: the best transcription so far, the start
      time of its last segment (none when it has no segments) and whether it is final. */
  datatype Transcription = Transcription(text: string, lastSegmentTime: Option<real>, isFinal: bool)

  /** The published transcript `accumulatedText + " " + liveText`. It always holds the
      separating space, so it is never empty, and it keeps both parts around it. */
  function Published(acc: string, live: string): (r: string)
    ensures |r| == |acc| + 1 + |live|
    ensures r != [] && r[|acc|] == ' '
    ensures r[..|acc|] == acc && r[|acc| + 1..] == live
  {
    acc + " " + live
  }

  /** What a task end does to the accumulated text: a non-empty live text is added after
      a space; an empty one leaves the text alone. */
  function Fold(acc: string, live: string): (r: string)
    ensures live == [] ==> r == acc
    ensures live != [] ==> r == Published(acc, live)
  {
    if live != [] then acc + " " + live else acc
  }

  /** Folding never loses accumulated text: the old text is a prefix of the new one, and
      the new one is empty only when both parts were. */
  lemma FoldExtends(acc: string, live: string)
    ensures acc <= Fold(acc, live)
    ensures Fold(acc, live) == [] <==> acc == [] && live == []
  {
  }

  /** Folding keeps the words: the words of the new accumulated text are the old words
      followed by the live words. */
  lemma {:induction false} FoldWords(acc: string, live: string)
    ensures Split(Fold(acc, live)) == Split(acc) + Split(live)
  {
    if live != [] {
      SplitJoin(acc, live);
    } else {
      assert Split(live) == [];
    }
  }

  /** The published transcript shows exactly the accumulated words followed by the live
      words, so a task end that folds the live text does not change the words a reader
      sees. */
  lemma {:induction false} PublishedWords(acc: string, live: string)
    ensures Split(Published(acc, live)) == Split(acc) + Split(live)
    ensures Split(Published(Fold(acc, live), "")) == Split(Published(acc, live))
  {
    SplitJoin(acc, live);
    SplitJoin(Fold(acc, live), "");
    FoldWords(acc, live);
    assert Split("") == [];
  }

  /** The live text after a callback: the result's text, or the old one when the
      callback carries no result. */
  function LiveAfter(live: string, result: Option<Transcription>): string
  {
    if result.Some? then result.value.text else live
  }

  /** A callback ends the task when it reports an error or a final result. */
  predicate Ends(result: Option<Transcription>, failed: bool)
  {
    failed || (result.Some? && result.value.isFinal)
  }
}

=== FILE: speech_espwifi.dfy ===
/** The ESPWifi `SpeechRecognizer`: session text across automatic restarts, the ring of
    buffer timestamps fed to the recognizer, and end-to-end latency samples. The speech
    engine is an abstract source of results; times are seconds passed in by the caller. */
module EspWifiSpeech {
  import opened Wrappers
  import opened Bytes
  import opened PcmDecoder
  import opened Correlator
  import opened SessionText

  /** Capacity of the timestamp ring. */
  const RingCapacity: nat := 80

  /** One fed buffer: the sender's timestamp, when the packet arrived and when it was
      appended to the request. */
  datatype BufferStamp = BufferStamp(esp32Time: U64, receiptTime: real, appendTime: real)

  /** The final report `stopTranscribing` publishes: latency statistics, when any were
      recorded, and the full transcript. */
  datatype FinalReport = FinalReport(latency: Option<Stats>, transcript: string)

  /** `findTimestampForSegment`: the sender timestamp and receipt time of ring entry
      `Int(t / 0.064)`, when that index lies in the ring. */
  function FindTimestampForSegment(ring: seq<BufferStamp>, t: real): (r: Option<(U64, real)>)
    ensures r.Some? <==> ring != [] && -AssumedBufferSeconds < t < |ring| as real * AssumedBufferSeconds
    ensures forall i :: 0 <= i < |ring| && InWindow(t, AssumedBufferSeconds, i) ==>
              r == Some((ring[i].esp32Time, ring[i].receiptTime))
    ensures r.Some? ==> exists b :: b in ring && r.value == (b.esp32Time, b.receiptTime)
  {
    match Lookup(ring, t, AssumedBufferSeconds)
    case Some(b) => Some((b.esp32Time, b.receiptTime))
    case None => None
  }

  /** The end-to-end latency a result yields at time `now`: from the receipt of the
      buffer its last segment is attributed to, when there is such a buffer. */
  function ResultLatency(ring: seq<BufferStamp>, result: Option<Transcription>, now: real): (r: Option<real>)
    ensures r.Some? ==> result.Some? && result.value.lastSegmentTime.Some?
    ensures r.Some? ==> exists b :: b in ring && r.value == now - b.receiptTime
  {
    if result.Some? && result.value.lastSegmentTime.Some? then
      match FindTimestampForSegment(ring, result.value.lastSegmentTime.value)
      case Some(found) => Some(now - found.1)
      case None => None
    else None
  }

  /** The part of a recognizer's state that the audio path never touches: the texts, the
      task, the latencies and the report. */
  datatype SessionState = SessionState(
    transcript: string, latencySummary: Option<FinalReport>, currentLatency: Option<real>,
    hasTask: bool, accumulatedText: string, liveText: string, isUserStopping: bool,
    taskStartTime: Option<real>, endToEndLatencies: seq<real>)

  class SpeechRecognizer {
    var transcript: string
    var latencySummary: Option<FinalReport>
    var currentLatency: Option<real>
    /** The live recognition request with the buffers appended to it, or none. */
    var request: Option<seq<Int16Buffer>>
    var hasTask: bool
    var accumulatedText: string
    var liveText: string
    var isUserStopping: bool
    var taskStartTime: Option<real>
    var endToEndLatencies: seq<real>
    var bufferTimestamps: seq<BufferStamp>
    var totalFramesAppended: nat
    var totalBuffersAppended: nat

    function Session(): SessionState
      reads this
    {
      SessionState(transcript, latencySummary, currentLatency, hasTask, accumulatedText, liveText,
              isUserStopping, taskStartTime, endToEndLatencies)
    }

    /** The ring never exceeds its capacity and every recorded latency is plausible. */
    predicate Valid()
      reads this
    {
      |bufferTimestamps| <= RingCapacity && AllPlausible(endToEndLatencies)
    }

    constructor ()
      ensures Valid()
      ensures transcript == "" && latencySummary.None? && currentLatency.None?
      ensures request.None? && !hasTask && taskStartTime.None?
      ensures accumulatedText == "" && liveText == "" && !isUserStopping
      ensures endToEndLatencies == [] && bufferTimestamps == []
      ensures totalFramesAppended == 0 && totalBuffersAppended == 0
    {
      transcript := "";
      latencySummary := None;
      currentLatency := None;
      request := None;
      hasTask := false;
      accumulatedText := "";
      liveText := "";
      isUserStopping := false;
      taskStartTime := None;
      endToEndLatencies := [];
      bufferTimestamps := [];
      totalFramesAppended := 0;
      totalBuffersAppended := 0;
    }

    /** `resetSessionState`: clears the text, the latencies, the ring and the counters. */
    method ResetSessionState()
      modifies this
      ensures accumulatedText == "" && liveText == ""
      ensures endToEndLatencies == [] && bufferTimestamps == []
      ensures totalFramesAppended == 0 && totalBuffersAppended == 0
      ensures transcript == old(transcript) && latencySummary == old(latencySummary)
      ensures currentLatency == old(currentLatency) && request == old(request)
      ensures hasTask == old(hasTask) && isUserStopping == old(isUserStopping)
      ensures taskStartTime == old(taskStartTime)
    {
      accumulatedText := "";
      liveText := "";
      endToEndLatencies := [];
      bufferTimestamps := [];
      totalFramesAppended := 0;
      totalBuffersAppended := 0;
    }

    /** `startTranscribing`: a fresh session (after a user stop, or with no accumulated
        text) resets the session state and clears the stop flag; otherwise the text, ring
        and latencies carry over. Any old task and request are dropped; when the engine is
        available a new, empty request and task start at `now`. */
    method StartTranscribing(engineAvailable: bool, now: real)
      requires Valid()
      modifies this
      ensures Valid()
      ensures old(isUserStopping || accumulatedText == "") ==>
                && accumulatedText == "" && liveText == "" && !isUserStopping
                && endToEndLatencies == [] && bufferTimestamps == []
                && totalFramesAppended == 0 && totalBuffersAppended == 0
      ensures !old(isUserStopping || accumulatedText == "") ==>
                && accumulatedText == old(accumulatedText) && liveText == old(liveText)
                && isUserStopping == old(isUserStopping)
                && endToEndLatencies == old(endToEndLatencies)
                && bufferTimestamps == old(bufferTimestamps)
                && totalFramesAppended == old(totalFramesAppended)
                && totalBuffersAppended == old(totalBuffersAppended)
      ensures !isUserStopping
      ensures engineAvailable ==> request == Some([]) && hasTask && taskStartTime == Some(now)
      ensures !engineAvailable ==> request.None? && !hasTask && taskStartTime == old(taskStartTime)
      ensures transcript == old(transcript) && latencySummary == old(latencySummary)
      ensures currentLatency == old(currentLatency)
    {
      if isUserStopping || accumulatedText == "" {
        ResetSessionState();
        isUserStopping := false;
      }
      hasTask := false;
      request := None;
      if !engineAvailable {
        return;
      }
      taskStartTime := Some(now);
      request := Some([]);
      hasTask := true;
    }

    /** The result part of the recognition callback at time `now`: the result's text
        becomes the live text, `accumulatedText + " " + liveText` is published and the
        latency of the last segment is recorded when plausible. Returns `isFinal`. */
    method ApplyResult(result: Transcription, now: real) returns (isFinal: bool)
      requires Valid()
      modifies this
      ensures Valid()
      ensures isFinal == result.isFinal
      ensures liveText == result.text
      ensures transcript == Published(accumulatedText, result.text)
      ensures var lat := ResultLatency(bufferTimestamps, Some(result), now);
              && endToEndLatencies == RecordIfPlausible(old(endToEndLatencies), lat)
              && currentLatency == if lat.Some? && Plausible(lat.value) then lat else old(currentLatency)
      ensures accumulatedText == old(accumulatedText) && bufferTimestamps == old(bufferTimestamps)
      ensures latencySummary == old(latencySummary) && request == old(request)
      ensures hasTask == old(hasTask) && isUserStopping == old(isUserStopping)
      ensures taskStartTime == old(taskStartTime)
      ensures totalFramesAppended == old(totalFramesAppended)
      ensures totalBuffersAppended == old(totalBuffersAppended)
    {
      liveText := result.text;
      transcript := Published(accumulatedText, liveText);
      if result.lastSegmentTime.Some? {
        var found := FindTimestampForSegment(bufferTimestamps, result.lastSegmentTime.value);
        if found.Some? {
          var endToEndLatency := now - found.value.1;
          if Plausible(endToEndLatency) {
            endToEndLatencies := endToEndLatencies + [endToEndLatency];
            currentLatency := Some(endToEndLatency);
          }
        }
      }
      isFinal := result.isFinal;
    }

    /** The task-end part of the recognition callback, unless the user is stopping: a
        non-empty live text is folded into the accumulated text, task and request are
        dropped and the session restarts. */
    method EndTask(engineAvailable: bool, now: real)
      requires Valid() && !isUserStopping
      modifies this
      ensures Valid()
      ensures accumulatedText == Fold(old(accumulatedText), old(liveText))
      ensures liveText == "" && !isUserStopping
      ensures engineAvailable ==> request == Some([]) && hasTask && taskStartTime == Some(now)
      ensures !engineAvailable ==> request.None? && !hasTask && taskStartTime == old(taskStartTime)
      ensures accumulatedText != "" ==>
                && endToEndLatencies == old(endToEndLatencies)
                && bufferTimestamps == old(bufferTimestamps)
                && totalFramesAppended == old(totalFramesAppended)
                && totalBuffersAppended == old(totalBuffersAppended)
      ensures accumulatedText == "" ==>
                && endToEndLatencies == [] && bufferTimestamps == []
                && totalFramesAppended == 0 && totalBuffersAppended == 0
      ensures transcript == old(transcript) && latencySummary == old(latencySummary)
      ensures currentLatency == old(currentLatency)
    {
      if liveText != "" {
        accumulatedText := accumulatedText + " " + liveText;
        liveText := "";
      }
      hasTask := false;
      request := None;
      StartTranscribing(engineAvailable, now);
    }

    /** The recognition callback at time `now`, with `result` the engine's result (if
        any) and `failed` whether it reported an error. An error or a final result, unless
        the user is stopping, ends the task and restarts (`engineAvailable` is what the
        restart finds). */
    method OnRecognition(result: Option<Transcription>, failed: bool, engineAvailable: bool, now: real)
      requires Valid()
      modifies this
      ensures Valid()
      ensures result.Some? ==> transcript == Published(old(accumulatedText), result.value.text)
      ensures result.None? ==> transcript == old(transcript)
      ensures var lat := ResultLatency(old(bufferTimestamps), result, now);
              currentLatency == if lat.Some? && Plausible(lat.value) then lat else old(currentLatency)
      ensures latencySummary == old(latencySummary)
      // no restart: only the live text and the latency list change
      ensures !(Ends(result, failed) && !old(isUserStopping)) ==>
                && accumulatedText == old(accumulatedText)
                && liveText == LiveAfter(old(liveText), result)
                && endToEndLatencies
                   == RecordIfPlausible(old(endToEndLatencies), ResultLatency(old(bufferTimestamps), result, now))
                && bufferTimestamps == old(bufferTimestamps)
                && request == old(request) && hasTask == old(hasTask)
                && isUserStopping == old(isUserStopping) && taskStartTime == old(taskStartTime)
                && totalFramesAppended == old(totalFramesAppended)
                && totalBuffersAppended == old(totalBuffersAppended)
      // restart: the live text is folded in, then the session starts again
      ensures Ends(result, failed) && !old(isUserStopping) ==>
                && accumulatedText == Fold(old(accumulatedText), LiveAfter(old(liveText), result))
                && liveText == "" && !isUserStopping
                && (engineAvailable ==> request == Some([]) && hasTask && taskStartTime == Some(now))
                && (!engineAvailable ==> request.None? && !hasTask && taskStartTime == old(taskStartTime))
      ensures Ends(result, failed) && !old(isUserStopping) && accumulatedText != "" ==>
                && endToEndLatencies
                   == RecordIfPlausible(old(endToEndLatencies), ResultLatency(old(bufferTimestamps), result, now))
                && bufferTimestamps == old(bufferTimestamps)
                && totalFramesAppended == old(totalFramesAppended)
                && totalBuffersAppended == old(totalBuffersAppended)
      ensures Ends(result, failed) && !old(isUserStopping) && accumulatedText == "" ==>
                && endToEndLatencies == [] && bufferTimestamps == []
                && totalFramesAppended == 0 && totalBuffersAppended == 0
      // no accumulated text is ever lost
      ensures old(accumulatedText) <= accumulatedText
    {
      var isFinal := false;
      if result.Some? {
        isFinal := ApplyResult(result.value, now);
      }
      FoldExtends(old(accumulatedText), LiveAfter(old(liveText), result));
      if (failed || isFinal) && !isUserStopping {
        EndTask(engineAvailable, now);
      }
    }

    /** `appendAudioBuffer`: without a live request nothing changes. Otherwise the stamp
        `(esp32Timestamp, receiptTime, now)` joins the ring, whose oldest entry goes once
        it holds more than 80, the buffer is appended to the request and the counters
        grow by one buffer and its frames. */
    method AppendAudioBuffer(buffer: Int16Buffer, esp32Timestamp: U64, receiptTime: real, now: real)
      requires Valid()
      modifies this
      ensures Valid()
      ensures old(request).None? ==>
                && bufferTimestamps == old(bufferTimestamps) && request == old(request)
                && totalFramesAppended == old(totalFramesAppended)
                && totalBuffersAppended == old(totalBuffersAppended)
      ensures old(request).Some? ==>
                && bufferTimestamps
                   == Push(old(bufferTimestamps), BufferStamp(esp32Timestamp, receiptTime, now), RingCapacity)
                && request == Some(old(request).value + [buffer])
                && totalFramesAppended == old(totalFramesAppended) + buffer.FrameLength()
                && totalBuffersAppended == old(totalBuffersAppended) + 1
      ensures transcript == old(transcript) && latencySummary == old(latencySummary)
      ensures currentLatency == old(currentLatency) && hasTask == old(hasTask)
      ensures accumulatedText == old(accumulatedText) && liveText == old(liveText)
      ensures isUserStopping == old(isUserStopping) && taskStartTime == old(taskStartTime)
      ensures endToEndLatencies == old(endToEndLatencies)
    {
      if request.None? {
        return;
      }
      var appendTime := now;
      bufferTimestamps := bufferTimestamps + [BufferStamp(esp32Timestamp, receiptTime, appendTime)];
      if |bufferTimestamps| > RingCapacity {
        bufferTimestamps := bufferTimestamps[1..];
      }
      request := Some(request.value + [buffer]);
      totalFramesAppended := totalFramesAppended + buffer.FrameLength();
      totalBuffersAppended := totalBuffersAppended + 1;
    }

    /** `stopTranscribing`: marks the user stop, drops task and request and publishes a
        report of `accumulatedText + " " + liveText` with the latency statistics, which
        are present exactly when a latency was recorded. The transcript always holds the
        separating space, so the source's "no transcript" branch cannot be taken. */
    method StopTranscribing()
      modifies this
      ensures isUserStopping && request.None? && !hasTask
      ensures latencySummary
              == Some(FinalReport(Summarize(endToEndLatencies), Published(accumulatedText, liveText)))
      ensures latencySummary.value.latency.Some? <==> endToEndLatencies != []
      ensures transcript == old(transcript) && currentLatency == old(currentLatency)
      ensures accumulatedText == old(accumulatedText) && liveText == old(liveText)
      ensures taskStartTime == old(taskStartTime) && endToEndLatencies == old(endToEndLatencies)
      ensures bufferTimestamps == old(bufferTimestamps)
      ensures totalFramesAppended == old(totalFramesAppended)
      ensures totalBuffersAppended == old(totalBuffersAppended)
    {
      isUserStopping := true;
      var finalFullTranscript := Published(accumulatedText, liveText);
      hasTask := false;
      request := None;
      assert finalFullTranscript != "";
      latencySummary := Some(FinalReport(Summarize(endToEndLatencies), finalFullTranscript));
    }
  }

  /** A run of accepted appends leaves the ring holding the last 80 stamps in arrival
      order. */
  lemma RingIsRecentStamps(ring: seq<BufferStamp>, stamps: seq<BufferStamp>)
    requires |ring| <= RingCapacity
    ensures PushAll(ring, stamps, RingCapacity) == Seqs.Suffix(ring + stamps, RingCapacity)
  {
    PushAllKeepsSuffix(ring, stamps, RingCapacity);
  }

  /** After a restart the published words are those shown before it: folding moves the
      live words to the end of the accumulated words. */
  lemma RestartKeepsWords(acc: string, live: string)
    ensures TextWords.Split(Published(Fold(acc, live), "")) == TextWords.Split(Published(acc, live))
  {
    PublishedWords(acc, live);
  }
}

=== FILE: speech_eyetunes.dfy ===
/** The EyeTunesFullConnection `SpeechRecognizer`: the same session text and restart logic
    as the ESPWifi variant, with a 100-entry ring that is fed whether or not a request is
    live, a lag measure against the task start, and a reset that keeps the ring and the
    end-to-end latencies. */
module EyeTunesSpeech {
  import opened Wrappers
  import opened Bytes
  import opened PcmDecoder
  import opened Correlator
  import opened SessionText

  /** Capacity of the timestamp ring. */
  const RingCapacity: nat := 100

  /** One fed buffer: the sender's timestamp and when the packet arrived. */
  datatype ReceiptStamp = ReceiptStamp(esp32Time: U64, receiptTime: real)

  /** `getReceiptTime`: the receipt time of ring entry `Int(t / 0.064)`, when that index
      lies in the ring. */
  function GetReceiptTime(ring: seq<ReceiptStamp>, t: real): (r: Option<real>)
    ensures r.Some? <==> ring != [] && -AssumedBufferSeconds < t < |ring| as real * AssumedBufferSeconds
    ensures forall i :: 0 <= i < |ring| && InWindow(t, AssumedBufferSeconds, i) ==>
              r == Some(ring[i].receiptTime)
    ensures r.Some? ==> exists b :: b in ring && r.value == b.receiptTime
  {
    match Lookup(ring, t, AssumedBufferSeconds)
    case Some(b) => Some(b.receiptTime)
    case None => None
  }

  /** The end-to-end latency of a result at time `now`: from the receipt of the buffer
      its last segment is attributed to, when there is such a buffer. */
  function EndToEnd(ring: seq<ReceiptStamp>, result: Transcription, now: real): (r: Option<real>)
    ensures r.Some? ==> result.lastSegmentTime.Some?
    ensures r.Some? ==> exists b :: b in ring && r.value == now - b.receiptTime
  {
    if result.lastSegmentTime.Some? then
      match GetReceiptTime(ring, result.lastSegmentTime.value)
      case Some(receipt) => Some(now - receipt)
      case None => None
    else None
  }

  /** The lag reading of a result at time `now`: time since the task started minus the
      audio time of the last segment, when both exist. */
  function Lag(taskStart: Option<real>, result: Transcription, now: real): (r: Option<real>)
    ensures r.Some? <==> taskStart.Some? && result.lastSegmentTime.Some?
    ensures r.Some? ==> r.value + result.lastSegmentTime.value == now - taskStart.value
  {
    if result.lastSegmentTime.Some? && taskStart.Some? then
      Some(now - taskStart.value - result.lastSegmentTime.value)
    else None
  }

  /** The two readings the recognition callback takes from a result at time `now`: the
      end-to-end latency from the receipt time its last segment maps to, and the lag since
      the task started. */
  method ResultLatencies(ring: seq<ReceiptStamp>, taskStart: Option<real>, result: Transcription, now: real)
    returns (e2e: Option<real>, lag: Option<real>)
    ensures e2e == EndToEnd(ring, result, now)
    ensures lag == Lag(taskStart, result, now)
  {
    e2e := None;
    if result.lastSegmentTime.Some? {
      var receipt := GetReceiptTime(ring, result.lastSegmentTime.value);
      if receipt.Some? {
        e2e := Some(now - receipt.value);
      }
    }
    lag := None;
    if result.lastSegmentTime.Some? && taskStart.Some? {
      lag := Some(now - taskStart.value - result.lastSegmentTime.value);
    }
  }

  /** Record a lag reading only when it is positive. */
  function RecordIfPositive(readings: seq<real>, lag: Option<real>): seq<real>
  {
    if lag.Some? && lag.value > 0.0 then readings + [lag.value] else readings
  }

  predicate AllPositive(readings: seq<real>)
  {
    forall i :: 0 <= i < |readings| ==> readings[i] > 0.0
  }

  /** The part of a recognizer's state that the audio path never touches: the texts, the
      task and the latencies. */
  datatype SessionState = SessionState(
    transcript: string, currentLatency: Option<real>, hasTask: bool, accumulatedText: string,
    liveText: string, isUserStopping: bool, latencyReadings: seq<real>,
    taskStartTime: Option<real>, endToEndLatencies: seq<real>)

  class SpeechRecognizer {
    var transcript: string
    var currentLatency: Option<real>
    /** The recognition request with the buffers appended to it, or none. */
    var request: Option<seq<Int16Buffer>>
    var hasTask: bool
    var accumulatedText: string
    var liveText: string
    var isUserStopping: bool
    var latencyReadings: seq<real>
    var taskStartTime: Option<real>
    var endToEndLatencies: seq<real>
    var bufferTimestamps: seq<ReceiptStamp>

    function Session(): SessionState
      reads this
    {
      SessionState(transcript, currentLatency, hasTask, accumulatedText, liveText, isUserStopping,
              latencyReadings, taskStartTime, endToEndLatencies)
    }

    /** The ring never exceeds its capacity, every end-to-end sample is plausible and
        every lag reading is positive. */
    predicate Valid()
      reads this
    {
      && |bufferTimestamps| <= RingCapacity
      && AllPlausible(endToEndLatencies)
      && AllPositive(latencyReadings)
    }

    constructor ()
      ensures Valid()
      ensures transcript == "" && currentLatency.None?
      ensures request.None? && !hasTask && taskStartTime.None?
      ensures accumulatedText == "" && liveText == "" && !isUserStopping
      ensures latencyReadings == [] && endToEndLatencies == [] && bufferTimestamps == []
    {
      transcript := "";
      currentLatency := None;
      request := None;
      hasTask := false;
      accumulatedText := "";
      liveText := "";
      isUserStopping := false;
      latencyReadings := [];
      taskStartTime := None;
      endToEndLatencies := [];
      bufferTimestamps := [];
    }

    /** `resetSessionState`: clears the text and the lag readings only; the ring and the
        end-to-end latencies survive. */
    method ResetSessionState()
      modifies this
      ensures accumulatedText == "" && liveText == "" && latencyReadings == []
      ensures bufferTimestamps == old(bufferTimestamps)
      ensures endToEndLatencies == old(endToEndLatencies)
      ensures transcript == old(transcript) && currentLatency == old(currentLatency)
      ensures request == old(request) && hasTask == old(hasTask)
      ensures isUserStopping == old(isUserStopping) && taskStartTime == old(taskStartTime)
    {
      accumulatedText := "";
      liveText := "";
      latencyReadings := [];
    }

    /** `startTranscribing`: a fresh session (after a user stop, or with no accumulated
        text) resets the session state and clears the stop flag. A new, empty request is
        made before the engine check, so it exists even when the engine is unavailable;
        only an available engine gets a task and a start time `now`. */
    method StartTranscribing(engineAvailable: bool, now: real)
      requires Valid()
      modifies this
      ensures Valid()
      ensures old(isUserStopping || accumulatedText == "") ==>
                accumulatedText == "" && liveText == "" && latencyReadings == [] && !isUserStopping
      ensures !old(isUserStopping || accumulatedText == "") ==>
                && accumulatedText == old(accumulatedText) && liveText == old(liveText)
                && latencyReadings == old(latencyReadings) && isUserStopping == old(isUserStopping)
      ensures !isUserStopping
      ensures request == Some([])
      ensures hasTask == engineAvailable
      ensures taskStartTime == if engineAvailable then Some(now) else old(taskStartTime)
      ensures bufferTimestamps == old(bufferTimestamps)
      ensures endToEndLatencies == old(endToEndLatencies)
      ensures transcript == old(transcript) && currentLatency == old(currentLatency)
    {
      if isUserStopping || accumulatedText == "" {
        ResetSessionState();
        isUserStopping := false;
      }
      hasTask := false;
      request := Some([]);
      if !engineAvailable {
        return;
      }
      taskStartTime := Some(now);
      hasTask := true;
    }

    /** The result part of the recognition callback at time `now`: the live text becomes
        the result's text, a plausible end-to-end latency is recorded, the transcript
        `accumulatedText + " " + liveText` is published and a positive lag is recorded.
        Returns `isFinal`. */
    method ApplyResult(result: Transcription, now: real) returns (isFinal: bool)
      requires Valid()
      modifies this
      ensures Valid()
      ensures isFinal == result.isFinal
      ensures liveText == result.text
      ensures transcript == Published(accumulatedText, result.text)
      ensures var e2e := EndToEnd(bufferTimestamps, result, now);
              && endToEndLatencies == RecordIfPlausible(old(endToEndLatencies), e2e)
              && currentLatency == if e2e.Some? && Plausible(e2e.value) then e2e else old(currentLatency)
      ensures latencyReadings == RecordIfPositive(old(latencyReadings), Lag(taskStartTime, result, now))
      ensures accumulatedText == old(accumulatedText) && bufferTimestamps == old(bufferTimestamps)
      ensures request == old(request) && hasTask == old(hasTask)
      ensures isUserStopping == old(isUserStopping) && taskStartTime == old(taskStartTime)
    {
      liveText := result.text;
      var e2e, lag := ResultLatencies(bufferTimestamps, taskStartTime, result, now);
      if e2e.Some? && Plausible(e2e.value) {
        endToEndLatencies := endToEndLatencies + [e2e.value];
        currentLatency := e2e;
      }
      transcript := Published(accumulatedText, liveText);
      if lag.Some? && lag.value > 0.0 {
        latencyReadings := latencyReadings + [lag.value];
      }
      isFinal := result.isFinal;
    }

    /** The task-end part of the recognition callback, unless the user is stopping: a
        non-empty live text is folded into the accumulated text, task and request are
        dropped and the session restarts. */
    method EndTask(engineAvailable: bool, now: real)
      requires Valid() && !isUserStopping
      modifies this
      ensures Valid()
      ensures accumulatedText == Fold(old(accumulatedText), old(liveText))
      ensures liveText == "" && !isUserStopping
      ensures request == Some([]) && hasTask == engineAvailable
      ensures taskStartTime == if engineAvailable then Some(now) else old(taskStartTime)
      ensures latencyReadings == if accumulatedText == "" then [] else old(latencyReadings)
      ensures bufferTimestamps == old(bufferTimestamps)
      ensures endToEndLatencies == old(endToEndLatencies)
      ensures transcript == old(transcript) && currentLatency == old(currentLatency)
    {
      if liveText != "" {
        accumulatedText := accumulatedText + " " + liveText;
        liveText := "";
      }
      hasTask := false;
      request := None;
      StartTranscribing(engineAvailable, now);
    }

    /** The recognition callback at time `now`, with `result` the engine's result (if
        any) and `failed` whether it reported an error. An error or a final result, unless
        the user is stopping, ends the task and restarts (`engineAvailable` is what the
        restart finds). The ring and the end-to-end latencies survive every restart. */
    method OnRecognition(result: Option<Transcription>, failed: bool, engineAvailable: bool, now: real)
      requires Valid()
      modifies this
      ensures Valid()
      ensures result.Some? ==> transcript == Published(old(accumulatedText), result.value.text)
      ensures result.None? ==> transcript == old(transcript)
      ensures bufferTimestamps == old(bufferTimestamps)
      ensures result.Some? ==>
                endToEndLatencies
                == RecordIfPlausible(old(endToEndLatencies), EndToEnd(old(bufferTimestamps), result.value, now))
      ensures result.None? ==> endToEndLatencies == old(endToEndLatencies)
      ensures result.Some? ==>
                currentLatency
                == var e2e := EndToEnd(old(bufferTimestamps), result.value, now);
                   if e2e.Some? && Plausible(e2e.value) then e2e else old(currentLatency)
      ensures result.None? ==> currentLatency == old(currentLatency)
      // the lag readings after the result, before any restart
      ensures var readings := if result.Some?
                              then RecordIfPositive(old(latencyReadings), Lag(old(taskStartTime), result.value, now))
                              else old(latencyReadings);
              && (!(Ends(result, failed) && !old(isUserStopping)) ==> latencyReadings == readings)
              && (Ends(result, failed) && !old(isUserStopping) ==>
                    latencyReadings == if accumulatedText == "" then [] else readings)
      // no restart: only the live text and the latency lists change
      ensures !(Ends(result, failed) && !old(isUserStopping)) ==>
                && accumulatedText == old(accumulatedText)
                && liveText == LiveAfter(old(liveText), result)
                && request == old(request) && hasTask == old(hasTask)
                && isUserStopping == old(isUserStopping) && taskStartTime == old(taskStartTime)
      // restart: the live text is folded in, then the session starts again
      ensures Ends(result, failed) && !old(isUserStopping) ==>
                && accumulatedText == Fold(old(accumulatedText), LiveAfter(old(liveText), result))
                && liveText == "" && !isUserStopping
                && request == Some([]) && hasTask == engineAvailable
                && taskStartTime == if engineAvailable then Some(now) else old(taskStartTime)
      // no accumulated text is ever lost
      ensures old(accumulatedText) <= accumulatedText
    {
      var isFinal := false;
      if result.Some? {
        isFinal := ApplyResult(result.value, now);
      }
      FoldExtends(old(accumulatedText), LiveAfter(old(liveText), result));
      if (failed || isFinal) && !isUserStopping {
        EndTask(engineAvailable, now);
      }
    }

    /** `appendAudioBuffer`: the stamp `(esp32Timestamp, receiptTime)` always joins the
        ring, whose oldest entry goes once it holds more than 100; the buffer reaches the
        request only when there is one. */
    method AppendAudioBuffer(buffer: Int16Buffer, esp32Timestamp: U64, receiptTime: real)
      requires Valid()
      modifies this
      ensures Valid()
      ensures bufferTimestamps
              == Push(old(bufferTimestamps), ReceiptStamp(esp32Timestamp, receiptTime), RingCapacity)
      ensures old(request).Some? ==> request == Some(old(request).value + [buffer])
      ensures old(request).None? ==> request.None?
      ensures transcript == old(transcript) && currentLatency == old(currentLatency)
      ensures hasTask == old(hasTask) && accumulatedText == old(accumulatedText)
      ensures liveText == old(liveText) && isUserStopping == old(isUserStopping)
      ensures latencyReadings == old(latencyReadings) && taskStartTime == old(taskStartTime)
      ensures endToEndLatencies == old(endToEndLatencies)
    {
      bufferTimestamps := bufferTimestamps + [ReceiptStamp(esp32Timestamp, receiptTime)];
      if |bufferTimestamps| > RingCapacity {
        bufferTimestamps := bufferTimestamps[1..];
      }
      if request.Some? {
        request := Some(request.value + [buffer]);
      }
    }

    /** `stopTranscribing`: marks the user stop and drops task and request, leaving the
        text and latency state for the next start. It reports the full transcript
        `accumulatedText + " " + liveText` and the mean end-to-end latency, which exists
        exactly when a latency was recorded. */
    method StopTranscribing() returns (finalFullTranscript: string, averageLatency: Option<real>)
      modifies this
      ensures isUserStopping && request.None? && !hasTask
      ensures finalFullTranscript == Published(accumulatedText, liveText)
      ensures averageLatency.Some? <==> endToEndLatencies != []
      ensures averageLatency.Some? ==> averageLatency.value == Summarize(endToEndLatencies).value.mean
      ensures transcript == old(transcript) && currentLatency == old(currentLatency)
      ensures accumulatedText == old(accumulatedText) && liveText == old(liveText)
      ensures latencyReadings == old(latencyReadings) && taskStartTime == old(taskStartTime)
      ensures endToEndLatencies == old(endToEndLatencies)
      ensures bufferTimestamps == old(bufferTimestamps)
    {
      isUserStopping := true;
      finalFullTranscript := Published(accumulatedText, liveText);
      hasTask := false;
      request := None;
      averageLatency := None;
      if endToEndLatencies != [] {
        averageLatency := Some(Sum(endToEndLatencies) / |endToEndLatencies| as real);
      }
    }
  }

  /** Any run of appends, with or without a live request, leaves the ring holding the
      last 100 stamps in arrival order. */
  lemma RingIsRecentStamps(ring: seq<ReceiptStamp>, stamps: seq<ReceiptStamp>)
    requires |ring| <= RingCapacity
    ensures PushAll(ring, stamps, RingCapacity) == Seqs.Suffix(ring + stamps, RingCapacity)
  {
    PushAllKeepsSuffix(ring, stamps, RingCapacity);
  }
}

=== FILE: text_words.dfy ===
/** Words of a caption or transcript string: Swift's `split(separator: " ")`, which drops
    empty pieces, so a word is a maximal run of non-space characters. */
module TextWords {

  predicate NoSpace(w: string)
  {
    forall i :: 0 <= i < |w| ==> w[i] != ' '
  }

  /** The leading run of non-space characters of `s`. */
  function TakeWord(s: string): (w: string)
    ensures |w| <= |s| && w == s[..|w|] && NoSpace(w)
    ensures |w| < |s| ==> s[|w|] == ' '
    ensures s != [] && s[0] != ' ' ==> w != []
  {
    if s == [] || s[0] == ' ' then [] else [s[0]] + TakeWord(s[1..])
  }

  /** `s.split(separator: " ")`: the non-empty space-free pieces of `s`, in order. */
  function Split(s: string): (words: seq<string>)
    ensures forall i :: 0 <= i < |words| ==> words[i] != [] && NoSpace(words[i])
    decreases |s|
  {
    if s == [] then []
    else if s[0] == ' ' then Split(s[1..])
    else
      var w := TakeWord(s);
      [w] + Split(s[|w|..])
  }

  /** `s` with every space deleted. */
  function RemoveSpaces(s: string): (r: string)
    ensures NoSpace(r) && |r| <= |s|
  {
    if s == [] then [] else (if s[0] == ' ' then [] else [s[0]]) + RemoveSpaces(s[1..])
  }

  /** The words joined with nothing between them. */
  function Concat(ws: seq<string>): string
  {
    if ws == [] then [] else ws[0] + Concat(ws[1..])
  }

  lemma {:induction false} RemoveSpacesAppend(a: string, b: string)
    ensures RemoveSpaces(a + b) == RemoveSpaces(a) + RemoveSpaces(b)
  {
    if a == [] {
      assert a + b == b;
    } else {
      assert (a + b)[1..] == a[1..] + b;
      RemoveSpacesAppend(a[1..], b);
    }
  }

  lemma {:induction false} RemoveSpacesOfNoSpace(w: string)
    requires NoSpace(w)
    ensures RemoveSpaces(w) == w
  {
    if w != [] {
      RemoveSpacesOfNoSpace(w[1..]);
    }
  }

  lemma {:induction false} ConcatAppend(a: seq<string>, b: seq<string>)
    ensures Concat(a + b) == Concat(a) + Concat(b)
  {
    if a == [] {
      assert a + b == b;
    } else {
      assert (a + b)[1..] == a[1..] + b;
      ConcatAppend(a[1..], b);
    }
  }

  /** Splitting keeps every non-space character, in order: joining the words gives the
      input with its spaces deleted. */
  lemma {:induction false} ConcatSplit(s: string)
    ensures Concat(Split(s)) == RemoveSpaces(s)
    decreases |s|
  {
    if s != [] {
      if s[0] == ' ' {
        ConcatSplit(s[1..]);
      } else {
        var w := TakeWord(s);
        ConcatSplit(s[|w|..]);
        assert s == w + s[|w|..];
        RemoveSpacesAppend(w, s[|w|..]);
        RemoveSpacesOfNoSpace(w);
      }
    }
  }

  /** A text has no words exactly when it has no non-space character (empty or all
      spaces). */
  lemma {:induction false} SplitBlank(s: string)
    ensures Split(s) == [] <==> RemoveSpaces(s) == []
    decreases |s|
  {
    if RemoveSpaces(s) != [] {
      ConcatSplit(s);
    } else if s != [] {
      assert s[0] == ' ' by {
        RemoveSpacesAppend(s[..1], s[1..]);
        assert s == s[..1] + s[1..];
      }
      RemoveSpacesAppend(s[..1], s[1..]);
      assert s == s[..1] + s[1..];
      SplitBlank(s[1..]);
    }
  }

  lemma {:induction false} TakeWordBeforeSpace(a: string, b: string)
    ensures TakeWord(a + [' '] + b) == TakeWord(a)
  {
    if a != [] && a[0] != ' ' {
      assert (a + [' '] + b)[1..] == a[1..] + [' '] + b;
      TakeWordBeforeSpace(a[1..], b);
    }
  }

  /** Joining two texts with a space gives exactly the words of the first followed by the
      words of the second. */
  lemma {:induction false} SplitJoin(a: string, b: string)
    ensures Split(a + [' '] + b) == Split(a) + Split(b)
    decreases |a|
  {
    var s := a + [' '] + b;
    if a == [] {
      assert s[1..] == b;
    } else if a[0] == ' ' {
      assert s[1..] == a[1..] + [' '] + b;
      SplitJoin(a[1..], b);
    } else {
      var w := TakeWord(a);
      var rest := a[|w|..];
      assert s[|w|..] == rest + [' '] + b;
      assert TakeWord(s) == w by {
        TakeWordBeforeSpace(a, b);
      }
      SplitJoin(rest, b);
      PrependAssoc(w, Split(rest), Split(b));
    }
  }

  lemma PrependAssoc<T>(x: T, ys: seq<T>, zs: seq<T>)
    ensures [x] + (ys + zs) == ([x] + ys) + zs
  {
  }
}

=== FILE: udp_receiver.dfy ===
/** The EyeTunesFullConnection `UDPAudioReceiver`: a listener whose state reports drive
    `isReceiving`, and a receive loop that splits each datagram and feeds its audio to the
    recognizer. Socket plumbing is left out; a datagram is a byte sequence handed in. */
module UdpReceiver {
  import opened Wrappers
  import opened Bytes
  import opened PcmDecoder
  import opened Packets
  import EyeTunesSpeech
  import Correlator

  /** The listener states the state handler distinguishes. */
  datatype ListenerState = Ready | Failed | Cancelled | Other

  class UDPAudioReceiver {
    var isReceiving: bool
    var listenerActive: bool
    var speechRecognizer: EyeTunesSpeech.SpeechRecognizer?

    predicate Valid()
      reads this, speechRecognizer
    {
      speechRecognizer != null ==> speechRecognizer.Valid()
    }

    constructor ()
      ensures Valid()
      ensures !isReceiving && !listenerActive && speechRecognizer == null
    {
      isReceiving := false;
      listenerActive := false;
      speechRecognizer := null;
    }

    /** `startListening`: remembers the recognizer; the listener exists only when it
        could be created (`listenerCreated`). `isReceiving` waits for the state handler. */
    method StartListening(recognizer: EyeTunesSpeech.SpeechRecognizer, listenerCreated: bool)
      requires recognizer.Valid()
      modifies this
      ensures Valid()
      ensures speechRecognizer == recognizer
      ensures listenerActive == (listenerCreated || old(listenerActive))
      ensures isReceiving == old(isReceiving)
    {
      speechRecognizer := recognizer;
      if listenerCreated {
        listenerActive := true;
      }
    }

    /** The listener's state handler: ready sets `isReceiving`, failed and cancelled
        clear it, any other state changes nothing. */
    method OnListenerState(state: ListenerState)
      modifies this
      ensures state == Ready ==> isReceiving
      ensures state == Failed || state == Cancelled ==> !isReceiving
      ensures state == Other ==> isReceiving == old(isReceiving)
      ensures listenerActive == old(listenerActive) && speechRecognizer == old(speechRecognizer)
    {
      match state
      case Ready => isReceiving := true;
      case Failed => isReceiving := false;
      case Cancelled => isReceiving := false;
      case Other =>
    }

    /** `stopListening`: the listener is gone and `isReceiving` is false. */
    method StopListening()
      modifies this
      ensures !listenerActive && !isReceiving
      ensures speechRecognizer == old(speechRecognizer)
    {
      listenerActive := false;
      isReceiving := false;
    }

    /** What `processPacket` does with `data`: a datagram of at most 8 bytes leaves the
        recognizer unchanged. Otherwise the recognizer's texts, task and latencies stay as
        they were, the header timestamp and the receipt time are pushed into its 100-entry
        ring, and an open request gets exactly one more buffer, of `(count - 8) / 2`
        frames. */
    twostate predicate PacketProcessed(data: seq<Byte>, receiptTime: real)
      reads this, speechRecognizer
    {
      && speechRecognizer == old(speechRecognizer)
      && (SplitUdp(data).None? && speechRecognizer != null ==> unchanged(speechRecognizer))
      && (SplitUdp(data).Some? && speechRecognizer != null ==>
            var p := SplitUdp(data).value;
            var r := speechRecognizer;
            && r.Session() == old(r.Session())
            && (old(r.request).None? ==> r.request.None?)
            && r.bufferTimestamps
               == Correlator.Push(old(r.bufferTimestamps),
                                  EyeTunesSpeech.ReceiptStamp(p.timestamp, receiptTime),
                                  EyeTunesSpeech.RingCapacity)
            && (old(r.request).Some? ==> r.request == Some(old(r.request).value + [ToPcmBuffer(p.audio)]))
            && ToPcmBuffer(p.audio).FrameLength() == (|data| - HeaderBytes) / 2)
    }

    /** `processPacket`: a datagram of at most 8 bytes changes nothing. Otherwise its
        audio, as an int16 buffer of `count / 2` frames, goes to the recognizer (if any)
        in exactly one append carrying the header timestamp and the receipt time, which is
        taken after the conversion. */
    method ProcessPacket(data: seq<Byte>, receiptTime: real)
      requires Valid()
      modifies speechRecognizer
      ensures Valid()
      ensures PacketProcessed(data, receiptTime)
    {
      if |data| <= HeaderBytes {
        return;
      }
      var timestampBytes := data[..HeaderBytes];
      assert timestampBytes[..HeaderBytes] == data[..HeaderBytes];
      var esp32Timestamp := LoadU64(timestampBytes);
      var audioData := data[HeaderBytes..];
      var pcmBuffer := ToPcmBuffer(audioData);
      var receipt := receiptTime;
      if speechRecognizer != null {
        speechRecognizer.AppendAudioBuffer(pcmBuffer, esp32Timestamp, receipt);
      }
    }

    /** One completion of the receive loop: non-empty data is processed, and the loop
        asks for the next message only when no error was reported. */
    method ReceiveNextMessage(data: seq<Byte>, failed: bool, receiptTime: real)
      returns (receiveNext: bool)
      requires Valid()
      modifies speechRecognizer
      ensures Valid()
      ensures receiveNext <==> !failed
      ensures data != [] ==> PacketProcessed(data, receiptTime)
      ensures data == [] && speechRecognizer != null ==> unchanged(speechRecognizer)
    {
      if data != [] {
        ProcessPacket(data, receiptTime);
      }
      receiveNext := !failed;
    }
  }
}

=== FILE: wifi_receiver.dfy ===
/** The ESPWifi `WiFiAudioReceiver`: it splits each datagram into timestamp and audio,
    remembers when each timestamp arrived (at most 1000 of them, evicting the smallest)
    and feeds the audio to the recognizer. Socket and playback plumbing are left out; a
    datagram is a byte sequence handed in with its receipt time. */
module WifiReceiver {
  import opened Wrappers
  import opened Bytes
  import opened PcmDecoder
  import opened Packets
  import EspWifiSpeech
  import Correlator

  /** Most receipt times kept. */
  const MaxReceiptTimes: nat := 1000

  /** Strictly increasing, hence also free of duplicates. */
  predicate Increasing(s: seq<U64>)
  {
    forall i, j :: 0 <= i < j < |s| ==> s[i] < s[j]
  }

  /** The smallest element of a non-empty set of timestamps, found by scanning it. */
  method MinKey(keys: set<U64>) returns (k: U64)
    requires keys != {}
    ensures k in keys && forall j :: j in keys ==> k <= j
  {
    var rest := keys;
    k :| k in rest;
    rest := rest - {k};
    while rest != {}
      invariant rest <= keys && k in keys
      invariant forall j :: j in keys - rest ==> k <= j
      decreases |rest|
    {
      var x :| x in rest;
      assert keys - (rest - {x}) == (keys - rest) + {x};
      if x < k {
        k := x;
      }
      rest := rest - {x};
    }
    assert keys - rest == keys;
  }

  /** `keys.sorted()`: the keys of the dictionary in increasing order, picked smallest
      first. */
  method SortedKeys(m: map<U64, real>) returns (sorted: seq<U64>)
    ensures Increasing(sorted)
    ensures forall k :: k in sorted <==> k in m
    ensures |sorted| == |m|
  {
    sorted := [];
    var rest := m.Keys;
    while rest != {}
      invariant rest <= m.Keys
      invariant Increasing(sorted)
      invariant forall k :: k in sorted <==> k in m.Keys - rest
      invariant forall i, j :: 0 <= i < |sorted| && j in rest ==> sorted[i] < j
      invariant |sorted| + |rest| == |m.Keys|
      decreases |rest|
    {
      var k := MinKey(rest);
      sorted := sorted + [k];
      rest := rest - {k};
    }
  }

  /** The receipt-time dictionary after recording `ts` and evicting the `count - 1000`
      smallest keys: every key that goes is smaller than every key that stays, and what
      stays keeps its time. */
  predicate EvictedSmallest(before: map<U64, real>, after: map<U64, real>)
  {
    && (forall k :: k in after ==> k in before && after[k] == before[k])
    && (forall gone, kept :: gone in before && gone !in after && kept in after ==> gone < kept)
  }

  /** The clean-up of `processPacket` on a dictionary above 1000 entries: the keys at the
      front of the sorted key list are removed one by one until 1000 remain. */
  method EvictOldest(m: map<U64, real>) returns (times: map<U64, real>)
    requires |m| > MaxReceiptTimes
    ensures |times| == MaxReceiptTimes
    ensures EvictedSmallest(m, times)
  {
    times := m;
    var sortedKeys := SortedKeys(times);
    var excess := |times| - MaxReceiptTimes;
    for i := 0 to excess
      invariant forall k :: k in times <==> k in m && k !in sortedKeys[..i]
      invariant forall k :: k in times ==> times[k] == m[k]
      invariant |times| == |m| - i
    {
      EvictOne(m, times, sortedKeys, i);
      times := times - {sortedKeys[i]};
    }
    EvictedPrefix(m, times, sortedKeys, excess);
  }

  class WiFiAudioReceiver {
    var isReceiving: bool
    var listenerActive: bool
    var speechRecognizer: EspWifiSpeech.SpeechRecognizer?
    var packetReceiptTimes: map<U64, real>

    predicate Valid()
      reads this, speechRecognizer
    {
      && |packetReceiptTimes| <= MaxReceiptTimes
      && (speechRecognizer != null ==> speechRecognizer.Valid())
    }

    constructor ()
      ensures Valid()
      ensures !isReceiving && !listenerActive && speechRecognizer == null
      ensures packetReceiptTimes == map[]
    {
      isReceiving := false;
      listenerActive := false;
      speechRecognizer := null;
      packetReceiptTimes := map[];
    }

    /** `startReceiving`: remembers the recognizer and sets up the listener; only when the
        listener could be created (`listenerCreated`) is it active and `isReceiving` set. */
    method StartReceiving(recognizer: EspWifiSpeech.SpeechRecognizer, listenerCreated: bool)
      requires recognizer.Valid() && |packetReceiptTimes| <= MaxReceiptTimes
      modifies this
      ensures Valid()
      ensures speechRecognizer == recognizer
      ensures listenerCreated ==> listenerActive && isReceiving
      ensures !listenerCreated ==> listenerActive == old(listenerActive) && isReceiving == old(isReceiving)
      ensures packetReceiptTimes == old(packetReceiptTimes)
    {
      speechRecognizer := recognizer;
      if listenerCreated {
        listenerActive := true;
        isReceiving := true;
      }
    }

    /** `stopReceiving`: the listener is gone and `isReceiving` is false. */
    method StopReceiving()
      modifies this
      ensures !listenerActive && !isReceiving
      ensures speechRecognizer == old(speechRecognizer)
      ensures packetReceiptTimes == old(packetReceiptTimes)
    {
      listenerActive := false;
      isReceiving := false;
    }

    /** Records `receiptTime` for `ts`, then evicts down to 1000 entries. */
    method RecordReceipt(ts: U64, receiptTime: real)
      modifies this
      ensures |packetReceiptTimes| <= MaxReceiptTimes
      ensures |old(packetReceiptTimes)[ts := receiptTime]| <= MaxReceiptTimes ==>
                packetReceiptTimes == old(packetReceiptTimes)[ts := receiptTime]
      ensures |old(packetReceiptTimes)[ts := receiptTime]| > MaxReceiptTimes ==>
                |packetReceiptTimes| == MaxReceiptTimes
      ensures EvictedSmallest(old(packetReceiptTimes)[ts := receiptTime], packetReceiptTimes)
      ensures ts in packetReceiptTimes ==> packetReceiptTimes[ts] == receiptTime
      ensures isReceiving == old(isReceiving) && listenerActive == old(listenerActive)
      ensures speechRecognizer == old(speechRecognizer)
    {
      packetReceiptTimes := packetReceiptTimes[ts := receiptTime];
      if |packetReceiptTimes| > MaxReceiptTimes {
        packetReceiptTimes := EvictOldest(packetReceiptTimes);
      }
    }

    /** What `processPacket` does with `data`: a datagram of fewer than 8 bytes changes
        neither the receipt table nor the recognizer. Otherwise the receipt of its
        timestamp is recorded as `RecordReceipt` states, and a recognizer with an open
        request appends its audio as an int16 buffer, pushing the timestamp, the receipt
        time and `appendTime` into its 80-entry ring; the recognizer's texts, task and
        latencies stay as they were. */
    twostate predicate PacketProcessed(data: seq<Byte>, receiptTime: real, appendTime: real)
      reads this, speechRecognizer
    {
      && speechRecognizer == old(speechRecognizer)
      && isReceiving == old(isReceiving) && listenerActive == old(listenerActive)
      && (SplitWifi(data).None? ==>
            && packetReceiptTimes == old(packetReceiptTimes)
            && (speechRecognizer != null ==> unchanged(speechRecognizer)))
      && (SplitWifi(data).Some? ==>
            var p := SplitWifi(data).value;
            var stored := old(packetReceiptTimes)[p.timestamp := receiptTime];
            && (|stored| <= MaxReceiptTimes ==> packetReceiptTimes == stored)
            && (|stored| > MaxReceiptTimes ==> |packetReceiptTimes| == MaxReceiptTimes)
            && EvictedSmallest(stored, packetReceiptTimes)
            && (p.timestamp in packetReceiptTimes ==> packetReceiptTimes[p.timestamp] == receiptTime))
      && (SplitWifi(data).Some? && speechRecognizer != null ==>
            var p := SplitWifi(data).value;
            var r := speechRecognizer;
            && r.Session() == old(r.Session())
            && (old(r.request).None? ==>
                  && r.bufferTimestamps == old(r.bufferTimestamps)
                  && r.request == old(r.request)
                  && r.totalFramesAppended == old(r.totalFramesAppended)
                  && r.totalBuffersAppended == old(r.totalBuffersAppended))
            && (old(r.request).Some? ==>
                  && r.bufferTimestamps
                     == Correlator.Push(old(r.bufferTimestamps),
                                        EspWifiSpeech.BufferStamp(p.timestamp, receiptTime, appendTime),
                                        EspWifiSpeech.RingCapacity)
                  && r.request == Some(old(r.request).value + [ToPcmBuffer(p.audio)])
                  && r.totalFramesAppended == old(r.totalFramesAppended) + ToPcmBuffer(p.audio).FrameLength()
                  && r.totalBuffersAppended == old(r.totalBuffersAppended) + 1))
    }

    /** `processPacket`: a datagram of fewer than 8 bytes changes nothing. Otherwise its
        timestamp's receipt time is recorded and its audio, as an int16 buffer, goes to
        the recognizer (if any) with that timestamp and receipt time; `appendTime` is when
        the recognizer appends it. */
    method ProcessPacket(data: seq<Byte>, receiptTime: real, appendTime: real)
      requires Valid()
      modifies this, speechRecognizer
      ensures Valid()
      ensures PacketProcessed(data, receiptTime, appendTime)
    {
      if |data| < HeaderBytes {
        return;
      }
      var timestampBytes := data[..HeaderBytes];
      assert timestampBytes[..HeaderBytes] == data[..HeaderBytes];
      var esp32Timestamp := LoadU64(timestampBytes);
      RecordReceipt(esp32Timestamp, receiptTime);
      var audioData := data[HeaderBytes..];
      var pcmBuffer := ToPcmBuffer(audioData);
      if speechRecognizer != null {
        speechRecognizer.AppendAudioBuffer(pcmBuffer, esp32Timestamp, receiptTime, appendTime);
      }
    }

    /** One completion of the receive loop: non-empty data is processed, and the loop
        asks for the next message only when no error was reported. */
    method OnReceive(data: seq<Byte>, failed: bool, receiptTime: real, appendTime: real)
      returns (receiveNext: bool)
      requires Valid()
      modifies this, speechRecognizer
      ensures Valid()
      ensures receiveNext <==> !failed
      ensures speechRecognizer == old(speechRecognizer)
      ensures data != [] ==> PacketProcessed(data, receiptTime, appendTime)
      ensures data == [] ==>
                && packetReceiptTimes == old(packetReceiptTimes)
                && isReceiving == old(isReceiving) && listenerActive == old(listenerActive)
                && (speechRecognizer != null ==> unchanged(speechRecognizer))
    {
      if data != [] {
        ProcessPacket(data, receiptTime, appendTime);
      }
      receiveNext := !failed;
    }
  }

  /** Removing the `i`-th sorted key from what is left after the first `i` went takes
      exactly one entry out and leaves what is left after the first `i + 1` went. */
  lemma EvictOne(stored: map<U64, real>, times: map<U64, real>, sortedKeys: seq<U64>, i: nat)
    requires Increasing(sortedKeys) && i < |sortedKeys|
    requires forall k :: k in sortedKeys <==> k in stored
    requires forall k :: k in times <==> k in stored && k !in sortedKeys[..i]
    requires forall k :: k in times ==> times[k] == stored[k]
    ensures sortedKeys[i] in times
    ensures |times - {sortedKeys[i]}| == |times| - 1
    ensures forall k :: k in times - {sortedKeys[i]} <==> k in stored && k !in sortedKeys[..i + 1]
    ensures forall k :: k in times - {sortedKeys[i]} ==> (times - {sortedKeys[i]})[k] == stored[k]
  {
    assert forall j :: 0 <= j < i ==> sortedKeys[..i][j] < sortedKeys[i];
    assert sortedKeys[..i + 1] == sortedKeys[..i] + [sortedKeys[i]];
    assert (times - {sortedKeys[i]}).Keys == times.Keys - {sortedKeys[i]};
  }

  /** Removing a prefix of the sorted keys removes keys smaller than all that stay. */
  lemma EvictedPrefix(stored: map<U64, real>, after: map<U64, real>, sortedKeys: seq<U64>, n: nat)
    requires Increasing(sortedKeys) && n <= |sortedKeys|
    requires forall k :: k in sortedKeys <==> k in stored
    requires forall k :: k in after <==> k in stored && k !in sortedKeys[..n]
    requires forall k :: k in after ==> after[k] == stored[k]
    ensures EvictedSmallest(stored, after)
  {
    forall gone, kept | gone in stored && gone !in after && kept in after
      ensures gone < kept
    {
      var a :| 0 <= a < n && sortedKeys[..n][a] == gone;
      var b :| 0 <= b < |sortedKeys| && sortedKeys[b] == kept;
    }
  }
}

=== FILE: wrappers.dfy ===
/** Optional values: the model's stand-in for Swift optionals and C sentinel returns. */
module Wrappers {

  datatype Option<+T> = None | Some(value: T) {

    /** The wrapped value, or `default` when there is none (Swift's `??`). */
    function GetOr(default: T): (r: T)
      ensures Some? ==> r == value
      ensures None? ==> r == default
    {
      match this
      case Some(v) => v
      case None => default
    }
  }
}
